=== FILE: README.md ===
# chronicreaderlib core in Dafny

This project models the pure core of the chronicreaderlib ebook reader: how it
turns the XHTML documents of a book into numbered node trees and reads text
back out of them, and how it cuts the book into pages.

- **Markup scan.** `EbookNode.#parseBody` and `XmlNode.parse` are one
  left-to-right character scan with a text buffer and a cursor (module
  `Scanner`, shared through a `Dialect` value `Book` or `Xml`). The tag
  regular expressions and the name lists are in module `Tags`. The XML tree
  is in `XmlParser`. The parent pointers of the source are an explicit stack
  of open elements.
- **Positional tree.** Module `BookNode` holds the following.
  - `#getHtmlBody`, `#parseId` and leaf collapsing (`#collapseLeaves`).
  - Serialisation (`getContent`).
  - The inclusive position ranges of `#updatePositions`.
  `BookQueries` holds `copy`, `getIdPosition` and `getResources`.
  `BookNavigation` holds `#leafAtPosition`, `#nextLeaf`, `#previousLeaf`,
  `findSpaceAfter` and `findSpaceBefore`; a node inside a tree is named by
  its path of child indices instead of by parent pointers.
- **Attribute parser.** `parseAttributes` is the four-flag state machine of
  module `Attributes`. It is proved to compute what a one-phase reference
  machine computes. The source declares `attributes` without `let` and
  pushes onto `this.attributes` (attributeparser.js:2, 57, 92, 103). In
  sloppy mode `this` is the global object there, so both name the same
  global array; the model keeps one list.
- **Book.** Module `Paths` holds the path helpers, the MIME table of
  `#getFileMimeType` and the comic reader's bounds check. Module `Spine`
  holds `EbookWrapper`:
  - the per-document loading and numbering of `getNodes`;
  - `getSize`, `getContentsAt` and `findSpaceAfter`;
  - `getPositionForLink`.
- **Pages.** Module `Pagination` holds `Page`, `PageCache`,
  `#computeMaximalPage`, `#computePageFor` and `#getPageFor`. The display's
  overflow probe is a function parameter (an oracle). The next-break
  function is a parameter too; for a book it is `Spine.FindSpaceAfterIn`.

The archive is a `map<string, string>` from path to text. The spine is a
`seq<string>`. JavaScript `null` and `undefined` results are `Option.None`.
A TypeError the source would raise is an error value of a `Result`:
`ParseError.TypeError` while parsing, and `ReaderError.NullReference` in the
reader.

Three behaviours a reader may not expect are modelled as the code has them:
- `copy` keeps an element that overlaps the range but has no surviving child,
  with its original range.
- `#getTagName` names `<br/>` `br/`.
- `getContent` closes void elements that are not leaves with `</name>`.

## Model

| member | source | states |
|---|---|---|
| Tags.GetTagName | static/libs/bookNode.js:35-42 | the tag name is a non-empty run of characters other than `>` and white space; for a tag starting with `<` it is the capture at index 0 |
| Tags.SelfClosingBreakName | static/libs/bookNode.js:36 | `<br/>` is named `br/`: the trailing slash is part of the name |
| Tags.EndTagHasName | static/libs/bookNode.js:27-42 | every string the end-tag pattern accepts has a name, so `#getTagName` is never null on an end tag |
| Tags.SelfClosingTests | xml_parser/xml_parser.js:27-31 | the book's strict self-closing test implies the XML tokenizer's loose one; `<a b="c/d"/>` passes only the loose one |
| Scanner.AddChild | static/libs/bookNode.js:230-233 | `#addChild` appends to the current node's children and changes nothing else; it fails with a TypeError once the cursor has left the root |
| Scanner.CloseNamed | static/libs/bookNode.js:117-124 | a non-void end tag succeeds iff it names the current node, then closes it; otherwise "incompatible end tag" |
| Scanner.MergeVoidEnd | static/libs/bookNode.js:109-116 | a void end tag succeeds iff the last child of the current node has its name |
| Scanner.OnTag | static/libs/bookNode.js:104-135 | handling a complete tag keeps the scanner state well formed; it never raises "wild >" or "this should not happen" |
| Scanner.WildGtExactly | static/libs/bookNode.js:102-138 | a `>` raises "wild > encountered" iff the pending buffer is not a `<` followed by at least one character |
| Scanner.PlainCharAccumulates | static/libs/bookNode.js:99-100 | a character other than `<` and `>` only extends the buffer |
| Scanner.LessThanFlushesText | static/libs/bookNode.js:85-100 | on `<`, non-empty pending text becomes a `text` child of the current node, and the buffer restarts with `<` |
| Scanner.StartTagDescends | static/libs/bookNode.js:128-133 | a start tag that is neither void nor self-closing is pushed as the new current node |
| Scanner.VoidTagStays | static/libs/bookNode.js:125-127 | a void or self-closing tag is appended to the current node without descending |
| Scanner.EndTagCloses | static/libs/bookNode.js:117-124 | a non-void end tag closes the current node when the names match; otherwise it gives exactly "incompatible end tag" |
| Scanner.VoidEndTagMerges | static/libs/bookNode.js:109-116 | a void end tag is appended to the last child's content when the names match; otherwise it gives "incompatible end for void tag" |
| Scanner.ScanShape | static/libs/bookNode.js:82-140 | between characters the buffer holds no `>` and no `<` after its first character |
| Scanner.NeverShouldNotHappen | static/libs/bookNode.js:85-152 | neither "this should not happen" throw can be reached, in either tokenizer |
| Scanner.ParseRoot | static/libs/bookNode.js:77-78 | a successful parse returns the tokenizer's own root (`body` or `document`) with empty content |
| Scanner.XmlDropsTrailingText | xml_parser/xml_parser.js:109-111 | text after the last `>` never changes the XML tokenizer's result |
| Scanner.BookKeepsTrailingText | static/libs/bookNode.js:142-152 | the book tokenizer adds trailing text as the last child of the current node |
| XmlParser.Parse | xml_parser/xml_parser.js:42-112 | the XML tree is rooted at `document` with empty content |
| XmlParser.CommentsAndDeclarationsAreVoid | xml_parser/xml_parser.js:13-17 | `!--` names and `?xml` (any case) are void for the XML tokenizer; `?xml` is not void for the book's; every book void name is an XML void name |
| Attributes.StepKeepsInv | attributeparser.js:14-101 | one character keeps at most one flag set and the quote set exactly while a value is read; it never raises "wild ending" |
| Attributes.RunKeepsInv | attributeparser.js:11-102 | the same invariant holds over the whole loop |
| Attributes.ParseAttributes | attributeparser.js:1-104 | every emitted attribute has a non-empty name without blanks, `=` or quotes, and a value without `=`; the "wild ending" throw is unreachable |
| Attributes.StepRefines | attributeparser.js:12-101 | each flag step is the reference machine's step on the phase the flags stand for, with the same errors |
| Attributes.ParseMatchesReference | attributeparser.js:1-104 | the flag machine returns exactly the reference machine's attributes in source order, duplicates kept, or its error |
| Attributes.LostCharacterAfterBareName | attributeparser.js:80-99 | in `<a b cd="e">`, `b` has no value and the `c` that ended it is lost |
| Attributes.EqualsInValueThrows | attributeparser.js:33-45 | an `=` inside a quoted value throws "wild =" at its index |
| BookNode.ParseId | static/libs/bookNode.js:68-74 | the id is the value of the first `id="…"` match in the content, non-empty and quote-free; there is none iff the pattern never matches |
| BookNode.ParseIdFirstMatch | static/libs/bookNode.js:69 | the first match wins even inside another attribute's name: `data-id="y" id="x"` has id `y` |
| BookNode.BodyOpenEnd | static/libs/bookNode.js:53-54 | the end of the leftmost `<body[^>]*>` match: `<body` at the first index where it is followed by some `>`, ending after the first such `>`; none iff no index qualifies |
| BookNode.BodyCloseStart | static/libs/bookNode.js:56-57 | the start of the leftmost `</body\s*>` match; none iff no index qualifies |
| BookNode.GetHtmlBody | static/libs/bookNode.js:52-66 | there is a body iff both body tags match; it is the text between the end of the leftmost `<body…>` match and the start of the leftmost `</body>` match |
| BookNode.GetHtmlBodyExample | static/libs/bookNode.js:52-66 | `<body><p>x</p></body>` has body `<p>x</p>` |
| BookNode.NamedHasContent | static/libs/bookNode.js:287-306 | `getContent` succeeds on every tree without a null name |
| BookNode.CollapseKeepsContent | static/libs/bookNode.js:275-285 | after collapsing, no `img`/`tr`/`image` node has children, no name is null, and `getContent` of the tree is unchanged |
| BookNode.PositionLayout | static/libs/bookNode.js:253-273 | after `#updatePositions(p)`, the node starts at `p`, text spans one position per character, leaves and childless elements span one, and children are chained from the parent's start to its end; nothing else changes |
| BookNode.NavigableSpan | static/libs/bookNode.js:249-251 | `getLength` of a laid-out node without empty text is at least 1 |
| BookNode.ChainBounds | static/libs/bookNode.js:266-271 | chained children lie in order inside the span of the first start and the last end, without overlapping |
| Scanner.ParseMarked | static/libs/bookNode.js:82-152 | every node of a parsed tree below the root has non-empty content: text is added only when the buffer is non-empty, and an element carries its tag |
| BookNode.CollapseNonEmpty | static/libs/bookNode.js:275-285 | collapsing keeps every node below the root with non-empty content; a collapsed leaf takes its non-empty serialisation |
| BookNode.ParseBody | static/libs/bookNode.js:76-158 | a parsed body is named `body`, has no content, is collapsed and laid out, starts at the entrance position, and every node below it has non-empty content |
| BookNode.SettledFromShape | static/libs/bookNode.js:76-158 | a collapsed tree whose nodes below the root have content and whose `text` nodes are childless is settled: text nodes hold text, leaves and text nodes have no children |
| BookNode.ParseHtmlNavigable | static/libs/bookNode.js:44-50 | a parsed body without a `text`-named element with children is navigable |
| BookNode.ParseHtml | static/libs/bookNode.js:44-50 | a document without a body gives null; otherwise the result is a laid-out, collapsed `body` starting at the entrance |
| BookQueries.Copy | static/libs/bookNode.js:458-507 | a copy keeps the name; an element keeps its content; text and leaf copies have no children |
| BookQueries.CopyText | static/libs/bookNode.js:459-474 | a text copy exists iff the ranges overlap; it is exactly the characters of the overlap, placed at the overlap |
| BookQueries.CopyAllRange | static/libs/bookNode.js:483-505 | copying chained children gives copies that are non-empty iff the run overlaps the range, chained, navigable, and spanning the overlap |
| BookQueries.CopiedIndices | static/libs/bookNode.js:483-505 | the indices of the kept children are strictly increasing, and an index is among them iff that child has a copy |
| BookQueries.CopyAllIndexed | static/libs/bookNode.js:483-505 | the `k`-th copy is the copy of the `k`-th kept child, so the copies are exactly the kept children's copies in order |
| BookQueries.CopiedAreOverlapping | static/libs/bookNode.js:483-505 | on navigable children, a child is kept iff its range overlaps the copied range |
| BookQueries.CopyRange | static/libs/bookNode.js:458-507 | on a laid-out tree a copy exists iff the range overlaps the node; it is laid out again and spans `[max(from,start), min(to,end)]`, with no renumbering |
| BookQueries.CopyWhole | static/libs/bookNode.js:458-507 | a copy over a range covering the whole node serialises to the node's own content |
| BookQueries.FirstWithId | static/libs/bookNode.js:215-228 | the reference search: the start of the first node in the list with that id; none iff the id is empty or no node carries it |
| BookQueries.IdPositionIsFirstInDocumentOrder | static/libs/bookNode.js:215-228 | `getIdPosition(id)` is the start of the first node in pre-order whose id is `id` |
| BookQueries.ResourcesAreReferenced | static/libs/bookNode.js:522-543 | every resource is a non-empty, quote-free value written as `src="…"` or `href="…"` in some node of the tree |
| BookQueries.ResourcesInDocumentOrder | static/libs/bookNode.js:522-543 | the resources are the own attribute values of the nodes reached in pre-order without descending below `img`, `image`, `a` or `tr`, in that order |
| BookQueries.ReachedInTree | static/libs/bookNode.js:538-539 | the search reaches only nodes of the tree |
| BookQueries.ImageFirstResource | static/libs/bookNode.js:523-525 | an `img` has resources iff its content has a `src="…"` match, and the first is that match's value |
| BookNavigation.FirstCovering | static/libs/bookNode.js:406-409 | the inner loop stops at the first child whose range contains the position, or finds none |
| BookNavigation.LeafAt | static/libs/bookNode.js:400-418 | the result is a childless node containing the position; it is null outside the root's range |
| BookNavigation.LeafAtExact | static/libs/bookNode.js:400-418 | on a laid-out tree a leaf is found iff the position is in range, and it is the unique leaf containing the position |
| BookNavigation.NextLeafPath | static/libs/bookNode.js:341-364 | the next leaf is a childless node of the same tree |
| BookNavigation.NextLeafFollows | static/libs/bookNode.js:341-364 | the next leaf starts right after the node ends; there is none iff the node ends where the tree ends |
| BookNavigation.PrevLeafPath | static/libs/bookNode.js:380-398 | the previous leaf is a childless node of the same tree |
| BookNavigation.PrevLeafPrecedes | static/libs/bookNode.js:380-398 | the previous leaf ends right before the node starts; there is none iff the node starts where the tree starts |
| BookNavigation.PathWithin | static/libs/bookNode.js:366-378 | every node lies inside the root's range, the range `getDocumentStart`/`getDocumentEnd` report |
| BookNavigation.FirstLeafStarts | static/libs/bookNode.js:359-363 | descending along first children reaches a leaf at the node's start |
| BookNavigation.LastLeafEnds | static/libs/bookNode.js:390-393 | descending along last children reaches a leaf at the node's end |
| BookNavigation.ScanAfterText | static/libs/bookNode.js:430-436 | the search in a text leaf returns the first white space after the position, or the leaf's end |
| BookNavigation.NoLeafEndInside | static/libs/bookNode.js:400-418 | no leaf ends at a position another leaf covers without ending there |
| BookNavigation.FindSpaceAfterSpec | static/libs/bookNode.js:420-439 | `findSpaceAfter(p)` lies in `[p, docEnd]`, equals `p` iff `p` is the document end, and is the first position after `p` with white space or a leaf end: none lies strictly between |
| BookNavigation.ScanBeforeText | static/libs/bookNode.js:444-449 | the search in a text leaf finds the last white space before the position, or none |
| BookNavigation.FindSpaceBeforeSpec | static/libs/bookNode.js:441-456 | `findSpaceBefore(p)` lies in `[docStart, p]`, equals `p` iff `p` is the document start, and is the last position before `p` with white space or a leaf end, or the document start: none lies strictly between |
| Paths.ContextFolder | static/libs/reader.js:133-140 | a path without `/` has folder ""; the folder is never longer than the path |
| Paths.AbsolutePath | static/libs/reader.js:142-148 | an empty folder gives the name itself; otherwise folder, `/` and name, with nothing collapsed |
| Paths.FolderRoundTrip | static/libs/reader.js:133-148 | a path not starting with `/` is its folder joined with its last segment |
| Paths.LeadingSlashIsLost | static/libs/reader.js:133-148 | the round trip drops a leading `/`: `/a` gives `a` |
| Paths.Extension | static/libs/reader.js:180 | the extension is the lower-cased text after the last `.`, or the whole lower-cased name when there is no `.` |
| Paths.ExtensionAfterDot | static/libs/reader.js:180 | for any stem, a name `stem.ext` with no `.` in `ext` has extension `ext` lower-cased, whatever dots the stem holds |
| Paths.MimeTypeIsTable | static/libs/reader.js:179-196 | each extension in the table maps to its MIME type; any other extension maps to `text/plain` |
| Paths.MimeTypeIgnoresCase | static/libs/reader.js:180-186 | `Cover.JPG` is `image/jpeg` |
| Paths.MimeTypeUsesLastDot | static/libs/reader.js:180-184 | `a.tar.png` is `image/png` |
| Paths.MimeTypeWithoutDot | static/libs/reader.js:193-195 | `README` is `text/plain` |
| Paths.ComicEntryAt | static/libs/reader.js:69-76 | a comic page is read iff `0 <= position < size`, and the entry read is one of the archive's files |
| Spine.Lookup | static/libs/reader.js:211 | `nodes[path]` is defined iff `path` is a key |
| Spine.AssignShape | static/libs/reader.js:102 | assigning an existing key keeps the keys in place; a new key goes last |
| Spine.LookupAssign | static/libs/reader.js:102 | after `nodes[path] = root`, a lookup of `path` gives `root` and every other lookup is unchanged |
| Spine.LoadResource | static/libs/reader.js:172-176 | a loaded document is a laid-out, collapsed `body` starting at the entrance, with content in every node below it; a missing file is reported iff the path is not in the archive |
| Spine.LoadAll | static/libs/reader.js:99-104 | loading keeps spine order; the first document starts at the entrance and each next one right after the previous end |
| Spine.GetNodesEntries | static/libs/reader.js:95-110 | every spine path has exactly one entry, and every entry is a parsed body |
| Spine.GetNodesTiles | static/libs/reader.js:95-110 | for a spine without repeats, the entries are the spine in order, numbered contiguously from 0 |
| Spine.AssignAllLoads | static/libs/reader.js:99-103 | assigning documents with distinct paths to an empty object in turn keeps them all, in order |
| Spine.GetNodesTiled | static/libs/reader.js:95-110 | for a spine without repeats, and without a `text`-named element with children, the result is a readable book: tiled from 0 and navigable |
| Spine.GetNodesMissing | static/libs/reader.js:95-104 | loading fails when a spine file is missing, and a reported missing file is one of the spine's |
| Spine.SizeTelescopes | static/libs/reader.js:112-122 | `getSize`, the sum of `getLength`, is one past the last document's end, so the documents tile `[0, size-1]` |
| Spine.FirstContaining | static/libs/reader.js:221-229 | the loop stops at the first document whose range contains the position, or finds none |
| Spine.TiledLocate | static/libs/reader.js:221-229 | every position in `[0, size)` lies in exactly one document |
| Spine.ContentsAtSpec | static/libs/reader.js:216-231 | `getContentsAt` is null iff the range is out of bounds; otherwise it serialises the copy from `start` to `min(end, document end)` of the document holding `start`, so no slice spans two documents |
| Spine.ContentsOfWholeDocument | static/libs/reader.js:216-231 | reading a whole document's range gives its serialisation |
| Spine.FindSpaceAfterInSpec | static/libs/reader.js:233-246 | the book's `findSpaceAfter` answers iff `0 <= p < size`; the answer stays in `p`'s document, and no position strictly between holds white space or a leaf end |
| Spine.PositionForLinkAsWritten | static/libs/reader.js:202-214 | the split and lookup as written: a null link gives null |
| Spine.LinkTarget | static/libs/reader.js:204-209 | a link without a file part points into the context file |
| Spine.PositionForLink | static/libs/reader.js:202-214 | a null link gives null; the lookup fails iff the link's target document is not loaded |
| Spine.LinkToSibling | static/libs/reader.js:202-214 | `file#id` for a document in the context folder gives the first position carrying `id` in that document; as written this agrees |
| Spine.LinkWithinDocument | static/libs/reader.js:202-214 | `#id` and a bare `id` find their node in the context document |
| Spine.AnchorLinkAsWrittenFails | static/libs/reader.js:204-212 | as written, `#x` in `OEBPS/c.xhtml` dereferences a missing node |
| Spine.BareLinkAsWrittenFails | static/libs/reader.js:204-212 | as written, `x` in `OEBPS/c.xhtml` looks up `OEBPS/OEBPS/c.xhtml` and dereferences a missing node |
| Spine.ParseHtmlParsesBodies | static/libs/bookNode.js:44-50 | the document parser returns laid-out, collapsed bodies starting at the entrance, with content in every node below the root |
| Pagination.FirstPageIndex | static/libs/reader.js:399-404 | the index of the first cached page containing the position (inclusive at both ends), or none iff no page does |
| Pagination.CachedPageFor | static/libs/reader.js:399-404 | `getPageFor` returns the first cached page containing the position, or null iff none does |
| Pagination.CachedPageForAppend | static/libs/reader.js:394-404 | `addPage` only appends, so it never changes the answer for a position already cached |
| Pagination.GetEnd | static/libs/reader.js:406-414 | `getEnd` is the largest cached end, or 0 when the cache is empty or every end is smaller |
| Pagination.StartFor | static/libs/reader.js:358-360 | `#computePageFor` starts at `getEnd()+1`, or at 0 when `getEnd()` is 0 |
| Pagination.NextStart | static/libs/reader.js:358-360 | the corrected start: 0 for an empty cache, otherwise past every cached end |
| Pagination.StartsResume | static/libs/reader.js:358-360 | both start rules begin no earlier than the cached end and at most one past it, and at 0 on an empty cache |
| Pagination.ConsecutiveOrdered | static/libs/reader.js:364-371 | pages that each start one past the previous end are non-empty, pairwise disjoint and increasing, and none starts before the first |
| Pagination.AppendOrdered | static/libs/reader.js:394-397 | appending such pages after every cached end keeps the cache pairwise disjoint and increasing |
| Pagination.Extend | static/libs/reader.js:343-348 | the loop stops at a break where the next break is null, repeats, or overflows; the last break it accepted is the next break of an earlier one and fitted |
| Pagination.MaximalPageSpec | static/libs/reader.js:338-354 | a maximal page starts at `start`; it is `[start, start]` when nothing is accepted, and otherwise ends on a break after `start` where the next break would overflow, stall or be null; the first break is taken without measuring, a later last break fitted |
| Pagination.MaximalPageStaysIn | static/libs/reader.js:338-354 | a page never leaves a stretch the breaks do not leave |
| Pagination.ComputeMaximalPage | static/libs/reader.js:338-354 | the source's loop computes the maximal page |
| Pagination.PageRunIsConsecutive | static/libs/reader.js:364-371 | successive maximal pages start one past the previous end |
| Pagination.CoveredExtends | static/libs/reader.js:356-373 | pages appended from a start that resumes the cache keep every position up to the new end cached, and the new end is the last page's end |
| Pagination.ComputePagesFrom | static/libs/reader.js:362-373 | the loop appends consecutive maximal pages from its start and stops at the first one containing the position; the cache stays covered when the start resumes it, and stays disjoint and increasing when the start is past every cached end |
| Pagination.ComputePageFor | static/libs/reader.js:356-373 | `#computePageFor` appends consecutive maximal pages from the start point and stops at the first one containing the position; an ordered cache stays ordered when it is empty or its end is not 0 |
| Pagination.RestartRepeatsFirstPage | static/libs/reader.js:358-360 | after a cached first page `[0, 0]` whose break repeats, the next computed page is `[0, 0]` again, so the cache holds it twice and is not ordered; the corrected start would be 1 |
| Pagination.GetPageFor | static/libs/reader.js:320-330 | `#getPageFor` returns a page containing the position: the cached one if there is one (cache unchanged), else a computed one, with the earlier cache kept as a prefix; an ordered cache stays ordered unless its end is 0 |
| Pagination.GetPageForFixed | static/libs/reader.js:320-330 | `#getPageFor` with the corrected start answers as the source does and keeps every ordered cache ordered |
| Pagination.BookBreaksBounded | static/libs/reader.js:233-246 | the book's breaks never go back and stay below its size |
| Pagination.BookPageWithinDocument | static/libs/reader.js:338-354 | a page of a book never spans two documents |
| Pagination.BookPageEndsOnBreak | static/libs/reader.js:338-354 | a page longer than its start ends on white space or a leaf end of its document |

## Left out

- `#updateImages` and `updateLinks` (static/libs/bookNode.js:164-212) are not modelled. They use the browser `DOMParser`, archive reads and `outerHTML` rewriting. The `filename` and `ebook` arguments of `#parseBody` serve only them.
- `ZipWrapper`, `#getOpf`, `parseOpf`, `getSpine` and `getImageBase64` (static/libs/reader.js:7-39, 124-170, 198-200) are not modelled. They are archive and DOM I/O. The archive text is a map and the spine is a sequence given as input.
- `ComicWrapper.getSize`, `getCover` and the base64 read of `getContentsAt` are archive I/O. Only the bounds check is modelled (`Paths.ComicEntryAt`).
- The DOM side of `EbookDisplay` is not modelled: `createShadowComponent`, `displayPageFor`, `nextPage`, `previousPage` and `#timeout`. `#overflowTriggerred` is the `overflows` oracle, and the shadow contents it measures are described by a `Shadow` value.
- `#getPagesCache` is not modelled: its map has one fixed key (`#getPageSizeKey`). The cache is a `seq<Page>` passed in and returned.
- `prettyPrint`, `#printAtLevel`, `convert`, the file-reading driver of xml_parser/xml_parser.js:135-139 and the demo call at attributeparser.js:106-110 are not modelled. They are logging and I/O.
- `#nextNode` and `#nextNodeOfName` (static/libs/bookNode.js:308-339) are never called, so they are not modelled.
- Concurrency is not modelled: every `async` step is sequential. Parent pointers are replaced by child-index paths, and `#getRoot` by the tree itself.
- Positions and lengths count Unicode scalar values (`char`). The source counts UTF-16 code units (`charAt`, `length`, `substring`; static/libs/bookNode.js:82-83, 257, 465-471). Text outside the Basic Multilingual Plane is therefore numbered differently, and the model cannot cut a surrogate pair apart as the source can.
- Lower-casing covers ASCII letters only. JavaScript's `toLowerCase` also maps other letters; for example, the Kelvin sign becomes `k`. A non-ASCII spelling of a void or leaf name is therefore classified differently.
- Children of an element named `text` (SVG `<text>`) are never positioned by the source and keep `null` ranges. The model gives them 0. The navigation, copy and book lemmas are stated for trees where text-named and leaf nodes are childless (`Settled`); `Spine.GetNodesTiled` shows that a loaded book has this shape whenever no `text`-named element has children.
- The iteration of `for (var index in nodes)` follows insertion order. JavaScript puts integer-like keys (a path such as `"1"`) first; that reordering is not modelled.
- Spine.GetNodes: the source sets `this.nodes = {}` before loading and caches the result, and `getSize` caches its sum (static/libs/reader.js:96-97, 113-119). After a failed load a later call returns the partial map and a size that counts only the loaded documents. The model has no state: every call fails in the same way.
- Spine.GetNodesTiles: requires a spine without repeated paths. With a repeat, the source overwrites the earlier entry in place while numbering continues, so the entries do not tile. `Spine.GetNodesEntries` holds without this requirement.
- Pagination.GetPageFor: requires a non-negative position. For a negative one the source's loop never ends: every page it computes starts at 0 or later, so none contains the position. Only the constructor's caller-supplied `startPosition` can be negative (static/libs/reader.js:250-255); `previousPage` and `nextPage` pass non-negative positions.
- Pagination.GetPageForFixed: requires a non-negative position, as `Pagination.GetPageFor` does and for the same reason as above.
- Pagination.ComputePagesFrom: requires the position to be at or after the start, for the same reason as below.
- Pagination.ComputePageFor: requires the position to be at or after the start point. For an earlier position the source's loop never ends. On a covered cache, `Pagination.GetPageFor` calls it only for such positions.
- Pagination.Extend: states that the last accepted break fitted, not each earlier one. The display measures the slice up to each accepted break in turn.
- Pagination.ComputeMaximalPage: requires breaks that never go back and stay below a bound (`Bounded`). `Pagination.BookBreaksBounded` proves that a book's `findSpaceAfter` satisfies this; for other break functions the source's loop need not end.

## Findings

| source | as written | input that shows it | evidently intended | confidence | as-written member | corrected member |
|---|---|---|---|---|---|---|
| static/libs/reader.js:204-212 | a link `#id` splits into `["", id]`, so the file part is `""` and the key is the context folder plus `/` (or `""` without a folder); no document has that key, and `node.getIdPosition` is called on `undefined` | context file `OEBPS/c.xhtml`, link `#x` | a same-document anchor resolves in the context file | not executed | Spine.AnchorLinkAsWrittenFails | Spine.PositionForLink |
| static/libs/reader.js:205-209 | a link without `#` takes the context file, already a full path, as the file part and joins it to the context folder again | context file `OEBPS/c.xhtml`, link `x`: key `OEBPS/OEBPS/c.xhtml` | a bare id resolves in the context file | not executed | Spine.BareLinkAsWrittenFails | Spine.PositionForLink |
| static/libs/reader.js:359-360 | `start` becomes `getEnd() + 1` only when `getEnd()` is above 0; when the only cached page is `[0, 0]` the next computation restarts at 0 and adds `[0, 0]` to the cache again | a first document holding exactly one position (a body whose only leaf is one `<img/>`), so `findSpaceAfter(0)` is 0 and the constructor caches `[0, 0]`; its `#getPageFor(size)` call (reader.js:255-258) then recomputes from 0 | resume one past the cached end whenever the cache is not empty; only a duplicate cache entry results, as lookups return the first match | not executed | Pagination.RestartRepeatsFirstPage | Pagination.GetPageForFixed |

=== FILE: attributes.dfy ===
/** `parseAttributes` (attributeparser.js): the character state machine that
    reads the attributes of one start tag. Its four flags and the quote
    character are kept as in the source; `ParseAttributes` folds `Step` over
    the characters. A simpler machine with one phase value is given as the
    reference, and the flag machine is proved to follow it. */
module Attributes {
  import opened Wrappers

  /** One attribute; a missing value is JavaScript `null`. */
  datatype Attr = Attr(name: Option<string>, value: Option<string>)

  datatype AttrError =
    | WildEquals(pos: nat)            // "wild = discovered at position i"
    | WildEnding(quote: char, pos: nat) // "wild ending q discovered at position i"
    | WildQuote(c: char, pos: nat)    // "wild c discovered at position i"

  datatype AttrState = AttrState(
    seekName: bool,      // lookingForAttributeName
    readName: bool,      // readingAttributeName
    seekValue: bool,     // lookingForAttributeValue
    readValue: bool,     // readingAttributeValue
    quote: Option<char>, // attributeValueQuotes
    name: Option<string>,// attributeName
    acc: string,         // accumulator
    out: seq<Attr>)      // attributes

  const Init := AttrState(false, false, false, false, None, None, [], [])

  predicate IsBlank(c: char) { c == ' ' || c == '\t' }
  predicate IsQuote(c: char) { c == '"' || c == '\'' }

  /** One character at index `i`: it is appended to the accumulator first,
      then the tests run in the source's order -- blank, `=`, the open
      quote, any quote, anything else. */
  function Step(s: AttrState, c: char, i: nat): Result<AttrState, AttrError> {
    var acc := s.acc + [c];
    if IsBlank(c) then
      if s.seekName then Ok(s.(acc := []))
      else if s.readName then Ok(s.(readName := false, seekValue := true, name := Some(s.acc), acc := []))
      else if s.seekValue then Ok(s.(acc := acc))
      else if s.readValue then Ok(s.(acc := acc))
      else Ok(s.(acc := [], seekName := true))
    else if c == '=' then
      if s.readName then Ok(s.(readName := false, seekValue := true, name := Some(s.acc), acc := []))
      else if s.seekValue then Ok(s.(acc := acc))
      else Err(WildEquals(i))
    else if s.quote == Some(c) then
      if s.readValue then
        if |acc| >= 2 && acc[|acc| - 2] == '\\' then Ok(s.(acc := acc))
        else Ok(AttrState(true, false, false, false, None, None, [], s.out + [Attr(s.name, Some(s.acc))]))
      else Err(WildEnding(c, i))
    else if IsQuote(c) then
      // `if (lookingForAttributeValue) {...} if (readingAttributeValue) {} else throw`
      var s1 := if s.seekValue then s.(seekValue := false, readValue := true, quote := Some(c), acc := []) else s.(acc := acc);
      if s1.readValue then Ok(s1) else Err(WildQuote(c, i))
    else
      if s.seekName then Ok(s.(seekName := false, readName := true, acc := acc))
      else if s.seekValue then Ok(AttrState(true, false, false, false, None, None, [], s.out + [Attr(s.name, None)]))
      else Ok(s.(acc := acc))
  }

  function Run(content: string, i: nat, s: AttrState): Result<AttrState, AttrError>
    requires i <= |content|
    decreases |content| - i
  {
    if i == |content| then Ok(s)
    else
      var s' :- Step(s, content[i], i);
      Run(content, i + 1, s')
  }

  // ---------------------------------------------------------------------------
  // The invariant of the flag machine

  /** At most one of the four flags is set. */
  predicate AtMostOneFlag(s: AttrState) {
    (if s.seekName then 1 else 0) + (if s.readName then 1 else 0)
      + (if s.seekValue then 1 else 0) + (if s.readValue then 1 else 0) <= 1
  }

  /** An attribute name: non-empty, without blanks, `=` or quotes. */
  predicate ValidName(x: string) {
    |x| > 0 && forall k :: 0 <= k < |x| ==> !IsBlank(x[k]) && x[k] != '=' && !IsQuote(x[k])
  }

  /** What every emitted attribute satisfies: a valid name, and a value (if
      any) without `=`. */
  predicate ValidAttr(a: Attr) {
    a.name.Some? && ValidName(a.name.value) && (a.value.Some? ==> '=' !in a.value.value)
  }

  predicate Inv(s: AttrState) {
    && AtMostOneFlag(s)
    && (s.quote.Some? <==> s.readValue)
    && (s.quote.Some? ==> IsQuote(s.quote.value))
    && (s.seekValue || s.readValue ==> s.name.Some? && ValidName(s.name.value))
    && (s.readName ==> ValidName(s.acc))
    && (s.seekName ==> s.acc == [])
    && (s.readValue ==> '=' !in s.acc)
    && (forall k :: 0 <= k < |s.out| ==> ValidAttr(s.out[k]))
  }

  lemma StepKeepsInv(s: AttrState, c: char, i: nat)
    requires Inv(s)
    ensures Step(s, c, i).Ok? ==> Inv(Step(s, c, i).value)
    ensures Step(s, c, i).Err? ==> !Step(s, c, i).error.WildEnding?
  {
    var acc := s.acc + [c];
    if s.readName && !IsBlank(c) && c != '=' && !IsQuote(c) {
      assert ValidName(acc);
    }
    if s.readValue && c != '=' {
      assert '=' !in acc;
    }
  }

  lemma {:induction false} RunKeepsInv(content: string, i: nat, s: AttrState)
    requires i <= |content| && Inv(s)
    decreases |content| - i
    ensures Run(content, i, s).Ok? ==> Inv(Run(content, i, s).value)
    ensures Run(content, i, s).Err? ==> !Run(content, i, s).error.WildEnding?
  {
    if i < |content| {
      StepKeepsInv(s, content[i], i);
      if Step(s, content[i], i).Ok? {
        RunKeepsInv(content, i + 1, Step(s, content[i], i).value);
      }
    }
  }

  /** `parseAttributes(content)`: the attributes in source order, duplicates
      kept. At most one flag is ever set and the quote is set exactly while a
      value is read, so the "wild ending" throw never happens; every emitted
      attribute has a valid name, and no value holds an `=` (one inside a
      quoted value throws). */
  function ParseAttributes(content: string): (r: Result<seq<Attr>, AttrError>)
    ensures r.Ok? ==> forall k :: 0 <= k < |r.value| ==> ValidAttr(r.value[k])
    ensures r.Err? ==> !r.error.WildEnding?
  {
    RunKeepsInv(content, 0, Init);
    var s :- Run(content, 0, Init);
    Ok(s.out)
  }

  // ---------------------------------------------------------------------------
  // The reference machine

  datatype Phase = TagName | SeekName | ReadName | SeekValue | ReadValue(quote: char)

  datatype Machine = Machine(phase: Phase, name: string, acc: string, out: seq<Attr>)

  /** The reference transition: the tag name is skipped up to the first
      blank; a name ends at a blank or `=`; after a name, a quote starts the
      value, and any character other than a blank or `=` emits the name
      without value and is itself dropped; a value ends at its own quote
      unless a backslash precedes it, and may not contain `=`. Quotes and `=`
      elsewhere are errors. */
  function RefStep(m: Machine, c: char, i: nat): Result<Machine, AttrError> {
    match m.phase
    case TagName =>
      if IsBlank(c) then Ok(Machine(SeekName, "", [], m.out))
      else if c == '=' then Err(WildEquals(i))
      else if IsQuote(c) then Err(WildQuote(c, i))
      else Ok(m.(acc := m.acc + [c]))
    case SeekName =>
      if IsBlank(c) then Ok(m.(acc := []))
      else if c == '=' then Err(WildEquals(i))
      else if IsQuote(c) then Err(WildQuote(c, i))
      else Ok(m.(phase := ReadName, acc := [c]))
    case ReadName =>
      if IsBlank(c) || c == '=' then Ok(Machine(SeekValue, m.acc, [], m.out))
      else if IsQuote(c) then Err(WildQuote(c, i))
      else Ok(m.(acc := m.acc + [c]))
    case SeekValue =>
      if IsBlank(c) || c == '=' then Ok(m.(acc := m.acc + [c]))
      else if IsQuote(c) then Ok(m.(phase := ReadValue(c), acc := []))
      else Ok(Machine(SeekName, "", [], m.out + [Attr(Some(m.name), None)]))
    case ReadValue(q) =>
      if c == '=' then Err(WildEquals(i))
      else if c == q && !(|m.acc| > 0 && m.acc[|m.acc| - 1] == '\\') then
        Ok(Machine(SeekName, "", [], m.out + [Attr(Some(m.name), Some(m.acc))]))
      else Ok(m.(acc := m.acc + [c]))
  }

  function RefRun(content: string, i: nat, m: Machine): Result<Machine, AttrError>
    requires i <= |content|
    decreases |content| - i
  {
    if i == |content| then Ok(m)
    else
      var m' :- RefStep(m, content[i], i);
      RefRun(content, i + 1, m')
  }

  /** The phase the flags stand for. */
  function Abs(s: AttrState): Machine {
    var phase :=
      if s.seekName then SeekName
      else if s.readName then ReadName
      else if s.seekValue then SeekValue
      else if s.readValue && s.quote.Some? then ReadValue(s.quote.value)
      else TagName;
    Machine(phase, if s.name.Some? then s.name.value else "", s.acc, s.out)
  }

  /** The flag machine in a reachable state also keeps no name outside the
      value phases. */
  predicate Reachable(s: AttrState) {
    && Inv(s)
    && (!s.seekValue && !s.readValue ==> s.name.None?)
  }

  lemma StepRefines(s: AttrState, c: char, i: nat)
    requires Reachable(s)
    ensures Step(s, c, i).Ok? <==> RefStep(Abs(s), c, i).Ok?
    ensures Step(s, c, i).Ok? ==> Reachable(Step(s, c, i).value) && Abs(Step(s, c, i).value) == RefStep(Abs(s), c, i).value
    ensures Step(s, c, i).Err? ==> Step(s, c, i).error == RefStep(Abs(s), c, i).error
  {
    StepKeepsInv(s, c, i);
    var acc := s.acc + [c];
    if s.readValue && s.quote == Some(c) {
      assert (|acc| >= 2 && acc[|acc| - 2] == '\\') <==> (|s.acc| > 0 && s.acc[|s.acc| - 1] == '\\');
    }
  }

  lemma {:induction false} RunRefines(content: string, i: nat, s: AttrState)
    requires i <= |content| && Reachable(s)
    decreases |content| - i
    ensures Run(content, i, s).Ok? <==> RefRun(content, i, Abs(s)).Ok?
    ensures Run(content, i, s).Ok? ==> Abs(Run(content, i, s).value) == RefRun(content, i, Abs(s)).value
    ensures Run(content, i, s).Err? ==> Run(content, i, s).error == RefRun(content, i, Abs(s)).error
  {
    if i < |content| {
      StepRefines(s, content[i], i);
      if Step(s, content[i], i).Ok? {
        RunRefines(content, i + 1, Step(s, content[i], i).value);
      }
    }
  }

  /** The flag machine computes what the reference machine computes. */
  lemma ParseMatchesReference(content: string)
    ensures var r := RefRun(content, 0, Machine(TagName, "", [], []));
      ParseAttributes(content) == if r.Ok? then Ok(r.value.out) else Err(r.error)
  {
    assert Abs(Init) == Machine(TagName, "", [], []);
    RunRefines(content, 0, Init);
  }

  // ---------------------------------------------------------------------------
  // Examples of the source's behaviour

  lemma RunStep(t: string, i: nat, s: AttrState, s': AttrState)
    requires i < |t| && Step(s, t[i], i) == Ok(s')
    ensures Run(t, i, s) == Run(t, i + 1, s')
  {
  }

  /** `<a b cd="e">`: `b` has no value, and the `c` that ended it is lost. */
  lemma LostCharacterAfterBareName()
    ensures ParseAttributes("<a b cd=\"e\">") == Ok([Attr(Some("b"), None), Attr(Some("d"), Some("e"))])
  {
    var t := "<a b cd=\"e\">";
    var out := [Attr(Some("b"), None)];
    var s4 := AttrState(false, true, false, false, None, None, "b", []);
    var s8 := AttrState(false, false, true, false, None, Some("d"), [], out);
    var s12 := AttrState(false, true, false, false, None, None, ">", out + [Attr(Some("d"), Some("e"))]);
    ExampleFirstName(t);
    ExampleSecondName(t);
    ExampleValue(t);
    assert Run(t, 12, s12) == Ok(s12);
    assert s12.out == [Attr(Some("b"), None), Attr(Some("d"), Some("e"))];
  }

  lemma ExampleFirstName(t: string)
    requires t == "<a b cd=\"e\">"
    ensures Run(t, 0, Init) == Run(t, 4, AttrState(false, true, false, false, None, None, "b", []))
  {
    var s1 := AttrState(false, false, false, false, None, None, "<", []);
    var s2 := AttrState(false, false, false, false, None, None, "<a", []);
    var s3 := AttrState(true, false, false, false, None, None, [], []);
    var s4 := AttrState(false, true, false, false, None, None, "b", []);
    assert Run(t, 0, Init) == Run(t, 1, s1) by {
      assert [] + ['<'] == "<";
      RunStep(t, 0, Init, s1);
    }
    assert Run(t, 1, s1) == Run(t, 2, s2) by {
      assert "<" + ['a'] == "<a";
      RunStep(t, 1, s1, s2);
    }
    assert Run(t, 2, s2) == Run(t, 3, s3) by {
      RunStep(t, 2, s2, s3);
    }
    assert Run(t, 3, s3) == Run(t, 4, s4) by {
      assert [] + ['b'] == "b";
      RunStep(t, 3, s3, s4);
    }
  }

  lemma ExampleSecondName(t: string)
    requires t == "<a b cd=\"e\">"
    ensures Run(t, 4, AttrState(false, true, false, false, None, None, "b", []))
         == Run(t, 8, AttrState(false, false, true, false, None, Some("d"), [], [Attr(Some("b"), None)]))
  {
    var out := [Attr(Some("b"), None)];
    var s5 := AttrState(false, false, true, false, None, Some("b"), [], []);
    var s6 := AttrState(true, false, false, false, None, None, [], out);
    var s7 := AttrState(false, true, false, false, None, None, "d", out);
    assert [] + ['d'] == "d" && [] + [Attr(Some("b"), None)] == out;
    RunStep(t, 4, AttrState(false, true, false, false, None, None, "b", []), s5);
    RunStep(t, 5, s5, s6);
    RunStep(t, 6, s6, s7);
    RunStep(t, 7, s7, AttrState(false, false, true, false, None, Some("d"), [], out));
  }

  lemma ExampleValue(t: string)
    requires t == "<a b cd=\"e\">"
    ensures var out := [Attr(Some("b"), None)];
      Run(t, 8, AttrState(false, false, true, false, None, Some("d"), [], out))
      == Run(t, 12, AttrState(false, true, false, false, None, None, ">", out + [Attr(Some("d"), Some("e"))]))
  {
    var out := [Attr(Some("b"), None)];
    var s9 := AttrState(false, false, false, true, Some('"'), Some("d"), [], out);
    var s10 := AttrState(false, false, false, true, Some('"'), Some("d"), "e", out);
    var s11 := AttrState(true, false, false, false, None, None, [], out + [Attr(Some("d"), Some("e"))]);
    assert [] + ['e'] == "e" && [] + ['>'] == ">";
    RunStep(t, 8, AttrState(false, false, true, false, None, Some("d"), [], out), s9);
    RunStep(t, 9, s9, s10);
    RunStep(t, 10, s10, s11);
    RunStep(t, 11, s11, AttrState(false, true, false, false, None, None, ">", out + [Attr(Some("d"), Some("e"))]));
  }

  /** `<a b="x=y">`: an `=` inside a quoted value throws. */
  lemma EqualsInValueThrows()
    ensures ParseAttributes("<a b=\"x=y\">") == Err(WildEquals(7))
  {
    var t := "<a b=\"x=y\">";
    var s3 := AttrState(true, false, false, false, None, None, [], []);
    assert Run(t, 0, Init) == Run(t, 3, s3);
    var s6 := AttrState(false, false, false, true, Some('"'), Some("b"), [], []);
    assert Run(t, 3, s3) == Run(t, 6, s6);
    var s7 := AttrState(false, false, false, true, Some('"'), Some("b"), "x", []);
    assert [] + ['x'] == "x";
    assert Step(s6, 'x', 6) == Ok(s7);
    assert Step(s7, '=', 7) == Err(WildEquals(7));
  }
}

=== FILE: book_navigation.dfy ===
/** Moving through the leaves of a positioned `EbookNode`
    (static/libs/bookNode.js): the leaf at a position, the next and previous
    leaf, and the search for a word boundary after or before a position.

    The source walks parent pointers; here a node inside a tree is named by
    its path of child indices from the root, and "going up" is the return
    from a recursive call. */
module BookNavigation {
  import opened Wrappers
  import opened Text
  import opened Tags
  import opened BookNode

  type Path = seq<nat>

  predicate IsPath(n: Node, path: Path)
    decreases |path|
  {
    path == [] || (path[0] < |n.children| && IsPath(n.children[path[0]], path[1..]))
  }

  /** The node a path leads to. */
  function At(n: Node, path: Path): Node
    requires IsPath(n, path)
    decreases |path|
  {
    if path == [] then n else At(n.children[path[0]], path[1..])
  }

  /** A path to a node without children. */
  predicate IsLeafPath(n: Node, path: Path) {
    IsPath(n, path) && At(n, path).children == []
  }

  predicate Covers(m: Node, p: int) {
    m.start <= p <= m.end
  }

  // ---------------------------------------------------------------------------
  // #leafAtPosition

  /** The first child, from index `i` on, whose range contains `p`. */
  function FirstCovering(ns: seq<Node>, p: int, i: nat): (r: Option<nat>)
    requires i <= |ns|
    decreases |ns| - i
    ensures r.Some? ==> i <= r.value < |ns| && Covers(ns[r.value], p)
    ensures r.Some? ==> forall k :: i <= k < r.value ==> !Covers(ns[k], p)
    ensures r.None? ==> forall k :: i <= k < |ns| ==> !Covers(ns[k], p)
  {
    if i == |ns| then None
    else if ns[i].start > p || ns[i].end < p then FirstCovering(ns, p, i + 1)
    else Some(i)
  }

  /** The descent of `#leafAtPosition`: into the first child containing `p`,
      until a node without children; `None` when no child contains `p`. */
  function Descend(n: Node, p: int): (r: Option<Path>)
    decreases n
    ensures r.Some? ==> IsLeafPath(n, r.value)
    ensures r.Some? && r.value != [] ==> Covers(At(n, r.value), p)
  {
    if |n.children| == 0 then Some([])
    else match FirstCovering(n.children, p, 0)
      case None => None
      case Some(i) =>
        var rest :- Descend(n.children[i], p);
        assert ([i] + rest)[1..] == rest;
        Some([i] + rest)
  }

  /** `#leafAtPosition(p)`. */
  function LeafAt(n: Node, p: int): (r: Option<Path>)
    ensures r.Some? ==> IsLeafPath(n, r.value)
    ensures r.Some? ==> Covers(At(n, r.value), p)
    ensures !Covers(n, p) ==> r.None?
  {
    if p < n.start || n.end < p then None else Descend(n, p)
  }

  // ---------------------------------------------------------------------------
  // #nextLeaf and #previousLeaf

  /** The path of the first leaf: always the first child. */
  function FirstLeafPath(n: Node): (r: Path)
    decreases n
    ensures IsLeafPath(n, r)
  {
    if |n.children| == 0 then []
    else
      var rest := FirstLeafPath(n.children[0]);
      assert ([0] + rest)[1..] == rest;
      [0] + rest
  }

  /** The path of the last leaf: always the last child. */
  function LastLeafPath(n: Node): (r: Path)
    decreases n
    ensures IsLeafPath(n, r)
  {
    if |n.children| == 0 then []
    else
      var k := |n.children| - 1;
      var rest := LastLeafPath(n.children[k]);
      assert ([k] + rest)[1..] == rest;
      [k] + rest
  }

  /** `#nextLeaf` of the node at `path`: climb while the node is the last
      child; at the first level where it is not, take the next sibling's first
      leaf; `None` at the root. Called on leaves. */
  function NextLeafPath(n: Node, path: Path): (r: Option<Path>)
    requires IsPath(n, path)
    decreases |path|
    ensures r.Some? ==> IsLeafPath(n, r.value)
  {
    if path == [] then None
    else
      var i := path[0];
      match NextLeafPath(n.children[i], path[1..])
      case Some(q) =>
        assert ([i] + q)[1..] == q;
        Some([i] + q)
      case None =>
        if i + 1 < |n.children| then
          var q := FirstLeafPath(n.children[i + 1]);
          assert ([i + 1] + q)[1..] == q;
          Some([i + 1] + q)
        else None
  }

  /** `#previousLeaf`: climb while the node is the first child; at the first
      level where it is not, take the previous sibling's last leaf; `None` at
      the root. */
  function PrevLeafPath(n: Node, path: Path): (r: Option<Path>)
    requires IsPath(n, path)
    decreases |path|
    ensures r.Some? ==> IsLeafPath(n, r.value)
  {
    if path == [] then None
    else
      var i := path[0];
      match PrevLeafPath(n.children[i], path[1..])
      case Some(q) =>
        assert ([i] + q)[1..] == q;
        Some([i] + q)
      case None =>
        if i > 0 then
          var q := LastLeafPath(n.children[i - 1]);
          assert ([i - 1] + q)[1..] == q;
          Some([i - 1] + q)
        else None
  }

  // ---------------------------------------------------------------------------
  // Facts about navigable trees

  /** A navigable node with children is an element laid out over them. */
  lemma ParentLayout(n: Node)
    requires Navigable(n) && |n.children| > 0
    ensures n.name != "text" && !IsLeafName(n.name)
    ensures n.children[0].start == n.start && n.children[|n.children| - 1].end == n.end
    ensures Chained(n.children)
    ensures forall i :: 0 <= i < |n.children| ==> Navigable(n.children[i])
    ensures forall i :: 0 <= i < |n.children| ==> n.start <= n.children[i].start <= n.children[i].end <= n.end
    ensures forall i, j :: 0 <= i < j < |n.children| ==> n.children[i].end < n.children[j].start
  {
    ChainBounds(n.children);
  }

  /** Every node of a navigable tree is navigable and lies inside the root's
      range. */
  lemma {:induction false} PathWithin(n: Node, path: Path)
    requires Navigable(n) && IsPath(n, path)
    decreases |path|
    ensures Navigable(At(n, path))
    ensures n.start <= At(n, path).start <= At(n, path).end <= n.end
  {
    NavigableSpan(n);
    if path != [] {
      ParentLayout(n);
      PathWithin(n.children[path[0]], path[1..]);
    }
  }

  lemma {:induction false} FirstLeafStarts(n: Node)
    requires Navigable(n)
    decreases n
    ensures At(n, FirstLeafPath(n)).start == n.start
  {
    if |n.children| > 0 {
      ParentLayout(n);
      FirstLeafStarts(n.children[0]);
    }
  }

  lemma {:induction false} LastLeafEnds(n: Node)
    requires Navigable(n)
    decreases n
    ensures At(n, LastLeafPath(n)).end == n.end
  {
    if |n.children| > 0 {
      ParentLayout(n);
      LastLeafEnds(n.children[|n.children| - 1]);
    }
  }

  /** The next leaf starts right after the given node ends; there is none
      exactly when that node ends where the tree ends. */
  lemma {:induction false} NextLeafFollows(n: Node, path: Path)
    requires Navigable(n) && IsPath(n, path)
    decreases |path|
    ensures NextLeafPath(n, path).Some? ==> At(n, NextLeafPath(n, path).value).start == At(n, path).end + 1
    ensures NextLeafPath(n, path).None? <==> At(n, path).end == n.end
  {
    PathWithin(n, path);
    if path != [] {
      var i := path[0];
      ParentLayout(n);
      var c := n.children[i];
      NextLeafFollows(c, path[1..]);
      PathWithin(c, path[1..]);
      var r := NextLeafPath(n, path);
      if NextLeafPath(c, path[1..]).None? && i + 1 < |n.children| {
        FirstLeafStarts(n.children[i + 1]);
        assert n.children[i + 1].start == c.end + 1;
      }
      if r.Some? {
        PathWithin(n, r.value);
      }
    }
  }

  /** The previous leaf ends right before the given node starts; there is
      none exactly when that node starts where the tree starts. */
  lemma {:induction false} PrevLeafPrecedes(n: Node, path: Path)
    requires Navigable(n) && IsPath(n, path)
    decreases |path|
    ensures PrevLeafPath(n, path).Some? ==> At(n, PrevLeafPath(n, path).value).end == At(n, path).start - 1
    ensures PrevLeafPath(n, path).None? <==> At(n, path).start == n.start
  {
    PathWithin(n, path);
    if path != [] {
      var i := path[0];
      ParentLayout(n);
      var c := n.children[i];
      PrevLeafPrecedes(c, path[1..]);
      PathWithin(c, path[1..]);
      var r := PrevLeafPath(n, path);
      if PrevLeafPath(c, path[1..]).None? && i > 0 {
        LastLeafEnds(n.children[i - 1]);
        assert c.start == n.children[i - 1].end + 1;
      }
      if r.Some? {
        PathWithin(n, r.value);
      }
    }
  }

  /** In a navigable tree every position of the root's range lies in a leaf. */
  lemma {:induction false} DescendFinds(n: Node, p: int)
    requires Navigable(n) && Covers(n, p)
    decreases n
    ensures Descend(n, p).Some?
  {
    if |n.children| > 0 {
      ParentLayout(n);
      var i := CoveringChild(n.children, p);
      var r := FirstCovering(n.children, p, 0);
      assert r.Some?;
      DescendFinds(n.children[r.value], p);
    }
  }

  /** Chained children starting at the first start cover every position up
      to the last end. */
  lemma {:induction false} CoveringChild(ns: seq<Node>, p: int) returns (i: nat)
    requires |ns| > 0 && Chained(ns) && ns[0].start <= p <= ns[|ns| - 1].end
    ensures i < |ns| && Covers(ns[i], p)
  {
    if p <= ns[0].end {
      i := 0;
    } else {
      var rest := ns[1..];
      assert forall k :: 0 <= k < |rest| - 1 ==> rest[k + 1].start == rest[k].end + 1 by {
        assert forall k :: 0 <= k < |rest| ==> rest[k] == ns[k + 1];
      }
      var j := CoveringChild(rest, p);
      i := j + 1;
    }
  }

  /** The leaf containing a position is the one `#leafAtPosition` returns:
      in a navigable tree the leaves do not overlap. */
  lemma {:induction false} DescendUnique(n: Node, path: Path, p: int)
    requires Navigable(n) && IsLeafPath(n, path) && Covers(At(n, path), p)
    decreases |path|
    ensures Descend(n, p) == Some(path)
  {
    if path != [] {
      var i := path[0];
      ParentLayout(n);
      var c := n.children[i];
      PathWithin(c, path[1..]);
      assert FirstCovering(n.children, p, 0) == Some(i);
      DescendUnique(c, path[1..], p);
      assert path == [i] + path[1..];
    }
  }

  /** `#leafAtPosition` finds exactly the leaf containing the position, and
      finds one for every position of the tree. */
  lemma LeafAtExact(n: Node, p: int, path: Path)
    requires Navigable(n)
    ensures LeafAt(n, p).Some? <==> Covers(n, p)
    ensures IsLeafPath(n, path) && Covers(At(n, path), p) ==> LeafAt(n, p) == Some(path)
  {
    if Covers(n, p) {
      DescendFinds(n, p);
    }
    if IsLeafPath(n, path) && Covers(At(n, path), p) {
      PathWithin(n, path);
      DescendUnique(n, path, p);
    }
  }

  // ---------------------------------------------------------------------------
  // Characters at positions

  /** The position `q` holds a white-space character of some text leaf. */
  ghost predicate SpaceAt(n: Node, q: int) {
    exists path :: IsLeafPath(n, path) && IsSpaceIn(At(n, path), q)
  }

  predicate IsSpaceIn(m: Node, q: int) {
    m.name == "text" && m.start <= q && q - m.start < |m.content| && IsSpace(m.content[q - m.start])
  }

  /** Some leaf ends at `q`. */
  ghost predicate LeafEndAt(n: Node, q: int) {
    exists path :: IsLeafPath(n, path) && At(n, path).end == q
  }

  /** A position inside a leaf holds a space only if that leaf has one there. */
  lemma NoSpaceOutside(n: Node, path: Path, q: int)
    requires Navigable(n) && IsLeafPath(n, path) && Covers(At(n, path), q)
    requires !IsSpaceIn(At(n, path), q)
    ensures !SpaceAt(n, q)
  {
    if SpaceAt(n, q) {
      var other :| IsLeafPath(n, other) && IsSpaceIn(At(n, other), q);
      LeafAtExact(n, q, path);
      PathWithin(n, other);
      NavigableSpan(At(n, other));
      LeafAtExact(n, q, other);
    }
  }

  /** No leaf ends at a position that a leaf covers without ending there. */
  lemma NoLeafEndInside(n: Node, path: Path, q: int)
    requires Navigable(n) && IsLeafPath(n, path) && Covers(At(n, path), q) && q != At(n, path).end
    ensures !LeafEndAt(n, q)
  {
    if LeafEndAt(n, q) {
      var other :| IsLeafPath(n, other) && At(n, other).end == q;
      LeafAtExact(n, q, path);
      PathWithin(n, other);
      NavigableSpan(At(n, other));
      LeafAtExact(n, q, other);
    }
  }

  // ---------------------------------------------------------------------------
  // findSpaceAfter and findSpaceBefore

  /** The search inside the text of one leaf from the position after `p`:
      the offset is counted from `p + 1`, as the source does. */
  function ScanAfter(l: Node, p: int): int {
    var from := if p - l.start + 1 > 0 then p - l.start + 1 else 0;
    match FirstSpaceFrom(SubstringFrom(l.content, from), 0)
    case Some(k) => k + p + 1
    case None => l.end
  }

  /** `findSpaceAfter(p)`: the first white space after `p` in the leaf at
      `p` -- or in the next leaf when `p` ends its leaf -- else the end of
      that leaf, else the end of the document. */
  function FindSpaceAfter(n: Node, p: int): int {
    var atP := LeafAt(n, p);
    var leaf := if atP.Some? && At(n, atP.value).end == p then NextLeafPath(n, atP.value) else atP;
    if leaf.Some? then
      var l := At(n, leaf.value);
      if l.name == "text" then ScanAfter(l, p) else l.end
    else n.end
  }

  /** `findSpaceBefore(p)`: the last white space before `p` in the text leaf
      at `p`, else the end of the previous leaf, else the start of the
      document. */
  function FindSpaceBefore(n: Node, p: int): int {
    var atP := LeafAt(n, p);
    var found :=
      if atP.Some? && At(n, atP.value).name == "text" then
        var l := At(n, atP.value);
        match LastSpace(Substring(l.content, 0, p - l.start))
        case Some(k) => Some(k + l.start)
        case None => None
      else None;
    if found.Some? then found.value
    else
      var prev := if atP.Some? then PrevLeafPath(n, atP.value) else None;
      if prev.Some? then At(n, prev.value).end else n.start
  }

  /** Scanning a text leaf `l` whose range starts at or before `p + 1` and
      ends after `p` stops at the first space after `p` or at the leaf's end. */
  lemma ScanAfterText(l: Node, p: int)
    requires Navigable(l) && l.name == "text" && l.start - 1 <= p < l.end
    ensures var r := ScanAfter(l, p);
      && p < r <= l.end
      && (forall q :: p < q < r ==> !IsSpaceIn(l, q))
      && (r == l.end || IsSpaceIn(l, r))
  {
    var from := p - l.start + 1;
    var sub := SubstringFrom(l.content, from);
    assert sub == l.content[from..];
    var r := ScanAfter(l, p);
    match FirstSpaceFrom(sub, 0)
    case Some(k) =>
      assert r == k + p + 1;
    case None =>
  }

  /** The leaf `FindSpaceAfter` searches, as a path, with what is known of it. */
  lemma SearchedLeafAfter(n: Node, p: int) returns (leaf: Option<Path>)
    requires Navigable(n) && Covers(n, p)
    ensures var atP := LeafAt(n, p);
      leaf == if atP.Some? && At(n, atP.value).end == p then NextLeafPath(n, atP.value) else atP
    ensures leaf.Some? ==> IsLeafPath(n, leaf.value) && Navigable(At(n, leaf.value))
    ensures leaf.Some? ==> At(n, leaf.value).start - 1 <= p && (p < At(n, leaf.value).end || At(n, leaf.value).start == p + 1)
    ensures leaf.None? ==> p == n.end && LeafEndAt(n, p)
  {
    LeafAtExact(n, p, []);
    var atP := LeafAt(n, p).value;
    PathWithin(n, atP);
    NavigableSpan(At(n, atP));
    if At(n, atP).end == p {
      leaf := NextLeafPath(n, atP);
      NextLeafFollows(n, atP);
      if leaf.Some? {
        PathWithin(n, leaf.value);
        NavigableSpan(At(n, leaf.value));
      }
    } else {
      leaf := Some(atP);
    }
  }

  /** `findSpaceAfter` on a position of a navigable tree returns the first
      position after `p` that holds a space or ends a leaf: every position
      strictly between holds neither a space nor a leaf end, and it moves
      forward unless `p` is the last position. */
  lemma FindSpaceAfterSpec(n: Node, p: int)
    requires Navigable(n) && Covers(n, p)
    ensures var r := FindSpaceAfter(n, p);
      && p <= r <= n.end
      && (r == p <==> p == n.end)
      && (forall q :: p < q < r ==> !SpaceAt(n, q) && !LeafEndAt(n, q))
      && (SpaceAt(n, r) || LeafEndAt(n, r))
  {
    var r := FindSpaceAfter(n, p);
    var leaf := SearchedLeafAfter(n, p);
    if leaf.Some? {
      var l := At(n, leaf.value);
      PathWithin(n, leaf.value);
      if l.name == "text" {
        ScanAfterText(l, p);
        assert r == ScanAfter(l, p);
        forall q | p < q < r
          ensures !SpaceAt(n, q) && !LeafEndAt(n, q)
        {
          NoSpaceOutside(n, leaf.value, q);
          NoLeafEndInside(n, leaf.value, q);
        }
        if IsSpaceIn(l, r) {
          assert SpaceAt(n, r);
        } else {
          assert LeafEndAt(n, r);
        }
      } else {
        assert l.start == l.end;
        assert LeafEndAt(n, r);
      }
    }
  }

  /** The leaf at `p` and what `FindSpaceBefore` finds in its text. */
  lemma ScanBeforeText(l: Node, p: int)
    requires Navigable(l) && l.name == "text" && Covers(l, p)
    ensures var s := LastSpace(Substring(l.content, 0, p - l.start));
      && (s.Some? ==> l.start <= s.value + l.start < p && IsSpaceIn(l, s.value + l.start)
                      && forall q :: s.value + l.start < q < p ==> !IsSpaceIn(l, q))
      && (s.None? ==> forall q :: l.start <= q < p ==> !IsSpaceIn(l, q))
  {
    var sub := Substring(l.content, 0, p - l.start);
    assert sub == l.content[..p - l.start];
  }

  /** `findSpaceBefore` on a position of a navigable tree returns the last
      position before `p` that holds a space or ends a leaf, or the start of
      the document: every position strictly between holds neither a space
      nor a leaf end, and it moves backward unless `p` is the first
      position. */
  lemma FindSpaceBeforeSpec(n: Node, p: int)
    requires Navigable(n) && Covers(n, p)
    ensures var r := FindSpaceBefore(n, p);
      && n.start <= r <= p
      && (r == p <==> p == n.start)
      && (forall q :: r < q < p ==> !SpaceAt(n, q) && !LeafEndAt(n, q))
      && (SpaceAt(n, r) || LeafEndAt(n, r) || r == n.start)
  {
    var r := FindSpaceBefore(n, p);
    LeafAtExact(n, p, []);
    var path := LeafAt(n, p).value;
    var l := At(n, path);
    PathWithin(n, path);
    NavigableSpan(l);
    PrevLeafPrecedes(n, path);
    var prev := PrevLeafPath(n, path);
    if prev.Some? {
      PathWithin(n, prev.value);
    }
    if l.name == "text" {
      FindSpaceBeforeInText(n, p, path);
    } else {
      assert l.start == l.end;
      if prev.Some? {
        assert LeafEndAt(n, r);
      }
    }
  }
  /** Where `FindSpaceBefore` lands when `p` is inside a text leaf. */
  lemma FindSpaceBeforeTextValue(n: Node, p: int, path: Path)
    requires LeafAt(n, p) == Some(path) && At(n, path).name == "text"
    ensures var l := At(n, path);
      var s := LastSpace(Substring(l.content, 0, p - l.start));
      var prev := PrevLeafPath(n, path);
      FindSpaceBefore(n, p) == if s.Some? then s.value + l.start else if prev.Some? then At(n, prev.value).end else n.start
  {
  }

  /** The text-leaf case of `FindSpaceBeforeSpec`. */
  lemma FindSpaceBeforeInText(n: Node, p: int, path: Path)
    requires Navigable(n) && LeafAt(n, p) == Some(path) && IsLeafPath(n, path)
    requires Covers(At(n, path), p) && At(n, path).name == "text"
    ensures var r := FindSpaceBefore(n, p);
      && (forall q :: r < q < p ==> !SpaceAt(n, q) && !LeafEndAt(n, q))
      && (SpaceAt(n, r) || LeafEndAt(n, r) || r == n.start)
  {
    var r := FindSpaceBefore(n, p);
    var l := At(n, path);
    PathWithin(n, path);
    PrevLeafPrecedes(n, path);
    var prev := PrevLeafPath(n, path);
    if prev.Some? {
      PathWithin(n, prev.value);
    }
    ScanBeforeText(l, p);
    var s := LastSpace(Substring(l.content, 0, p - l.start));
    FindSpaceBeforeTextValue(n, p, path);
    assert forall q :: r < q < p ==> !SpaceAt(n, q) && !LeafEndAt(n, q) by {
      forall q | r < q < p
        ensures !SpaceAt(n, q) && !LeafEndAt(n, q)
      {
        NoSpaceOutside(n, path, q);
        NoLeafEndInside(n, path, q);
      }
    }
    if s.Some? {
      assert IsLeafPath(n, path) && IsSpaceIn(At(n, path), r);
    } else if prev.Some? {
      assert LeafEndAt(n, r);
    }
  }

}

=== FILE: book_node.dfy ===
/** `EbookNode` (static/libs/bookNode.js): the positional document tree of one
    resource. A resource's `<body>` is tokenized, leaf elements are collapsed
    into single nodes, and every node is given an inclusive range of global
    integer positions. */
module BookNode {
  import opened Wrappers
  import opened Text
  import opened Tags
  import opened Scanner

  /** A node of the tree. Text nodes are the nodes named `text`; `start` and
      `end` are the inclusive global positions (0 until positions are
      assigned); `id` is computed from the content the node was created with. */
  datatype Node = Node(name: string, content: string, children: seq<Node>, start: int, end: int, id: Option<string>)

  /** `#parseId`: the group of the first match of `id="([^"]+)"`. */
  function ParseId(content: string): (r: Option<string>)
    ensures r.Some? ==> |r.value| > 0 && '"' !in r.value && IsInfix("id=\"" + r.value + "\"", content)
    ensures r.None? <==> Text.NextMatch(content, "id=\"", 0).None?
    ensures r.Some? ==> var m := Text.NextMatch(content, "id=\"", 0).value; r.value == content[m.0 + 4..m.1]
  {
    FirstCapture(content, "id=\"")
  }

  /** The first match wins even inside another attribute's name:
      `data-id="y" id="x"` has id `y`. */
  lemma ParseIdFirstMatch(c: string)
    requires c == "data-id=\"y\" id=\"x\""
    ensures ParseId(c) == Some("y")
  {
    var key := "id=\"";
    assert |c| == 18;
    assert MatchEnd(c, 5, key) == Some(10) by {
      assert c[5..9] == key;
      assert IndexOfFrom(c, '"', 9) == Some(10);
    }
    forall k: nat | k < 5
      ensures MatchEnd(c, k, key).None?
    {
      assert c[k] != 'i';
      assert !IsInfixAt(key, c, k);
    }
    NextMatchSkips(c, key, 0, 5);
    assert c[9..10] == "y";
  }

  /** The constructor: the id is parsed from the given content. */
  function MkNode(name: string, content: string, children: seq<Node>, start: int, end: int): Node {
    Node(name, content, children, start, end, ParseId(content))
  }

  // ---------------------------------------------------------------------------
  // From markup to tree

  function FromElem(e: Elem): (n: Node)
    decreases e, 1
    ensures n.name == e.name && n.content == e.Content() && |n.children| == |e.children|
  {
    Node(e.name, e.Content(), FromElems(e.children), 0, 0, ParseId(e.opening))
  }

  function FromElems(es: seq<Elem>): (ns: seq<Node>)
    decreases es, 0
    ensures |ns| == |es|
    ensures forall i :: 0 <= i < |es| ==> ns[i] == FromElem(es[i])
  {
    if es == [] then [] else [FromElem(es[0])] + FromElems(es[1..])
  }

  /** `/<body[^>]*>/` matches at `i`: `<body` there and a `>` somewhere after
      it (the match then ends at the first such `>`). */
  predicate BodyOpenAt(html: string, i: nat) {
    IsInfixAt("<body", html, i) && IndexOfFrom(html, '>', i + 5).Some?
  }

  /** The end of the leftmost match of `/<body[^>]*>/` at or after `from`. */
  function BodyOpenEnd(html: string, from: nat): (r: Option<nat>)
    decreases |html| - from
    ensures r.None? <==> forall i: nat :: from <= i ==> !BodyOpenAt(html, i)
    ensures r.Some? ==>
      exists i: nat ::
        && from <= i && BodyOpenAt(html, i)
        && r.value == IndexOfFrom(html, '>', i + 5).value + 1
        && forall k: nat :: from <= k < i ==> !BodyOpenAt(html, k)
    ensures r.Some? ==> html[r.value - 1] == '>'
  {
    if from >= |html| then
      assert forall i: nat :: from <= i ==> !BodyOpenAt(html, i);
      None
    else if BodyOpenAt(html, from) then
      Some(IndexOfFrom(html, '>', from + 5).value + 1)
    else BodyOpenEnd(html, from + 1)
  }

  /** The first index at or after `k` that does not hold white space. */
  function SkipSpaces(html: string, k: nat): (r: nat)
    requires k <= |html|
    decreases |html| - k
    ensures k <= r <= |html|
    ensures forall j :: k <= j < r ==> IsSpace(html[j])
    ensures r < |html| ==> !IsSpace(html[r])
  {
    if k >= |html| || !IsSpace(html[k]) then k else SkipSpaces(html, k + 1)
  }

  /** `/<\/body\s*>/` matches at `i`: `</body`, a run of white space, `>`. */
  predicate BodyCloseAt(html: string, i: nat) {
    IsInfixAt("</body", html, i) && SkipSpaces(html, i + 6) < |html| && html[SkipSpaces(html, i + 6)] == '>'
  }

  /** The start of the leftmost match of `/<\/body\s*>/` at or after `from`. */
  function BodyCloseStart(html: string, from: nat): (r: Option<nat>)
    decreases |html| - from
    ensures r.None? <==> forall i: nat :: from <= i ==> !BodyCloseAt(html, i)
    ensures r.Some? ==> from <= r.value && BodyCloseAt(html, r.value)
    ensures r.Some? ==> forall k: nat :: from <= k < r.value ==> !BodyCloseAt(html, k)
  {
    if from >= |html| then
      assert forall i: nat :: from <= i ==> !BodyCloseAt(html, i);
      None
    else if BodyCloseAt(html, from) then Some(from)
    else BodyCloseStart(html, from + 1)
  }

  /** `#getHtmlBody`: the text between the first `<body ...>` and the first
      `</body>`, with `substring`'s swap when the end tag comes first. */
  function GetHtmlBody(html: string): (r: Option<string>)
    ensures r.Some? <==> BodyOpenEnd(html, 0).Some? && BodyCloseStart(html, 0).Some?
    ensures r.Some? && BodyOpenEnd(html, 0).value <= BodyCloseStart(html, 0).value ==>
      r.value == html[BodyOpenEnd(html, 0).value..BodyCloseStart(html, 0).value]
  {
    match (BodyOpenEnd(html, 0), BodyCloseStart(html, 0))
    case (Some(a), Some(b)) => Some(Substring(html, a, b))
    case _ => None
  }

  /** An occurrence of `</body` puts `/` right after its start. */
  lemma BodyCloseSlash(html: string, i: nat)
    requires IsInfixAt("</body", html, i)
    ensures html[i + 1] == '/' && html[i + 2] == 'b'
  {
    assert html[i + 1] == html[i..i + 6][1];
    assert html[i + 2] == html[i..i + 6][2];
  }

  /** The search for `</body` passes over a stretch that holds no `/`. */
  lemma {:induction false} BodyCloseStartSkips(html: string, from: nat, to: nat)
    requires from <= to < |html|
    requires '/' !in html[from + 1..to + 1]
    decreases (to as int) - (from as int)
    ensures BodyCloseStart(html, from) == BodyCloseStart(html, to)
  {
    if from < to {
      assert html[from + 1..to + 1][0] == html[from + 1];
      if IsInfixAt("</body", html, from) {
        BodyCloseSlash(html, from);
      }
      assert html[from + 2..to + 1] == html[from + 1..to + 1][1..];
      BodyCloseStartSkips(html, from + 1, to);
    }
  }

  const BodyExample := "<body><p>x</p></body>"

  lemma BodyExampleOpen()
    ensures BodyOpenEnd(BodyExample, 0) == Some(6)
  {
    var h := BodyExample;
    assert h[0..5] == "<body";
    assert IndexOfFrom(h, '>', 5) == Some(5);
  }

  lemma BodyExampleCloseAt()
    ensures BodyCloseStart(BodyExample, 14) == Some(14)
  {
    var h := BodyExample;
    assert h[14..20] == "</body";
    assert SkipSpaces(h, 20) == 20;
  }

  lemma BodyExampleSlashes()
    ensures '/' !in BodyExample[1..11] && '/' !in BodyExample[12..15]
    ensures BodyExample[12] == 'p'
  {
    assert BodyExample[1..11] == "body><p>x<";
    assert BodyExample[12..15] == "p><";
  }

  lemma BodyExampleClose()
    ensures BodyCloseStart(BodyExample, 0) == Some(14)
  {
    var h: string :| h == BodyExample;
    BodyExampleSlashes();
    assert BodyCloseStart(h, 11) == Some(14) by {
      BodyExampleCloseAt();
      BodyCloseStartSkips(h, 11, 14);
    }
    assert BodyCloseStart(h, 10) == Some(14) by {
      assert !IsInfixAt("</body", h, 10) by {
        if IsInfixAt("</body", h, 10) {
          BodyCloseSlash(h, 10);
        }
      }
    }
    BodyCloseStartSkips(h, 0, 10);
  }

  lemma GetHtmlBodyExample()
    ensures GetHtmlBody("<body><p>x</p></body>") == Some("<p>x</p>")
  {
    assert BodyExample[6..14] == "<p>x</p>";
    BodyExampleOpen();
    BodyExampleClose();
  }

  // ---------------------------------------------------------------------------
  // Serialisation and leaf collapsing

  /** `getContent`: text and childless leaf elements give their content, a node
      named `body` the concatenation of its children, and any other element its
      content, its children's and `</name>` -- also for void elements, which
      then end up with an end tag. `None` is the TypeError the source raises on
      a node whose name is `null`. */
  function Content(n: Node): Option<string>
    decreases n, 1
  {
    if n.name == "text" then Some(n.content)
    else if n.name == "body" then ContentAll(n.children)
    else if n.name == "" then None
    else if IsLeafName(n.name) && |n.children| == 0 then Some(n.content)
    else
      var inner :- ContentAll(n.children);
      Some(n.content + inner + "</" + n.name + ">")
  }

  function ContentAll(ns: seq<Node>): Option<string>
    decreases ns, 0
  {
    if ns == [] then Some([])
    else
      var head :- Content(ns[0]);
      var tail :- ContentAll(ns[1..]);
      Some(head + tail)
  }

  /** Only a `null` name makes serialisation fail. */
  lemma {:induction false} NamedHasContent(n: Node)
    requires Named(n)
    decreases n, 1
    ensures Content(n).Some?
  {
    if n.name != "text" && (n.name == "body" || !(IsLeafName(n.name) && |n.children| == 0)) {
      NamedAllHaveContent(n.children);
    }
  }

  lemma {:induction false} NamedAllHaveContent(ns: seq<Node>)
    requires forall i :: 0 <= i < |ns| ==> Named(ns[i])
    decreases ns, 0
    ensures ContentAll(ns).Some?
  {
    if ns != [] {
      NamedHasContent(ns[0]);
      NamedAllHaveContent(ns[1..]);
    }
  }

  lemma {:induction false} CollapsedIsNamed(n: Node)
    requires Collapsed(n)
    decreases n
    ensures Named(n)
  {
    forall i | 0 <= i < |n.children|
      ensures Named(n.children[i])
    {
      CollapsedIsNamed(n.children[i]);
    }
  }

  /** `#collapseLeaves`: a leaf element (`img`, `tr`, `image`) with children
      takes its serialisation as content and drops them; other nodes are
      collapsed recursively. `None` is the TypeError raised on a `null` name. */
  function Collapse(n: Node): Option<Node>
    decreases n, 1
  {
    if n.name == "" then None
    else if IsLeafName(n.name) && |n.children| > 0 then
      var c :- Content(n);
      Some(n.(content := c, children := []))
    else
      var cs :- CollapseAll(n.children);
      Some(n.(children := cs))
  }

  function CollapseAll(ns: seq<Node>): (r: Option<seq<Node>>)
    decreases ns, 0
    ensures r.Some? ==> |r.value| == |ns|
  {
    if ns == [] then Some([])
    else
      var head :- Collapse(ns[0]);
      var tail :- CollapseAll(ns[1..]);
      Some([head] + tail)
  }

  /** No leaf element has children and no name is `null`. */
  ghost predicate Collapsed(n: Node)
    decreases n
  {
    && n.name != ""
    && (IsLeafName(n.name) ==> n.children == [])
    && forall i :: 0 <= i < |n.children| ==> Collapsed(n.children[i])
  }

  lemma {:induction false} CollapseProperties(n: Node)
    decreases n, 1
    ensures Collapse(n).Some? ==> Collapsed(Collapse(n).value)
    ensures Collapse(n).Some? ==> Content(Collapse(n).value) == Content(n)
    ensures Collapse(n).Some? ==> Collapse(n).value.name == n.name
  {
    if n.name != "" && !(IsLeafName(n.name) && |n.children| > 0) {
      CollapseAllProperties(n.children);
    }
  }

  lemma {:induction false} CollapseAllProperties(ns: seq<Node>)
    decreases ns, 0
    ensures CollapseAll(ns).Some? ==>
      && (forall i :: 0 <= i < |ns| ==> Collapsed(CollapseAll(ns).value[i]))
      && (forall i :: 0 <= i < |ns| ==> CollapseAll(ns).value[i].name == ns[i].name)
      && ContentAll(CollapseAll(ns).value) == ContentAll(ns)
  {
    if ns != [] && CollapseAll(ns).Some? {
      CollapseProperties(ns[0]);
      CollapseAllProperties(ns[1..]);
      var cs := CollapseAll(ns).value;
      assert cs == [Collapse(ns[0]).value] + CollapseAll(ns[1..]).value;
      assert cs[1..] == CollapseAll(ns[1..]).value;
      assert forall i :: 1 <= i < |ns| ==> cs[i] == CollapseAll(ns[1..]).value[i - 1];
    }
  }

  /** After `#collapseLeaves` no `img`/`tr`/`image` node has children, no node
      has a `null` name, and the serialisation of the tree is unchanged. */
  lemma CollapseKeepsContent(n: Node)
    requires Collapse(n).Some?
    ensures Collapsed(Collapse(n).value)
    ensures Content(Collapse(n).value) == Content(n)
  {
    CollapseProperties(n);
  }

  // ---------------------------------------------------------------------------
  // Positions

  /** The number of positions a node occupies: a text node one per character,
      a leaf element or a childless element exactly one, any other element the
      sum over its children. */
  function Width(n: Node): int
    decreases n, 1
  {
    if n.name == "text" then |n.content|
    else if IsLeafName(n.name) || |n.children| == 0 then 1
    else WidthAll(n.children)
  }

  function WidthAll(ns: seq<Node>): int
    decreases ns, 0
  {
    if ns == [] then 0 else Width(ns[0]) + WidthAll(ns[1..])
  }

  /** `#updatePositions(p)`. Children of text and leaf nodes are not visited. */
  function Position(n: Node, p: int): (m: Node)
    decreases n, 1
    ensures m.start == p
  {
    if n.name == "text" then n.(start := p, end := p + |n.content| - 1)
    else if IsLeafName(n.name) || |n.children| == 0 then n.(start := p, end := p)
    else
      var cs := PositionAll(n.children, p);
      n.(children := cs, start := p, end := cs[|cs| - 1].end)
  }

  /** The children positioned one after another from `p`. */
  function PositionAll(ns: seq<Node>, p: int): (ms: seq<Node>)
    decreases ns, 0
    ensures |ms| == |ns|
  {
    if ns == [] then []
    else
      var head := Position(ns[0], p);
      [head] + PositionAll(ns[1..], head.end + 1)
  }

  /** `getLength`. */
  function Length(n: Node): int {
    n.end - n.start + 1
  }

  /** Consecutive nodes occupy consecutive position ranges. */
  predicate Chained(ns: seq<Node>) {
    forall i :: 0 <= i < |ns| - 1 ==> ns[i + 1].start == ns[i].end + 1
  }

  /** The layout `#updatePositions` establishes: a text node spans one
      position per character, a leaf or childless element one position, and
      the children of any other element are chained from its start to its
      end. */
  ghost predicate Laid(n: Node)
    decreases n
  {
    if n.name == "text" then n.end == n.start + |n.content| - 1
    else if IsLeafName(n.name) || |n.children| == 0 then n.end == n.start
    else
      && n.children[0].start == n.start
      && Chained(n.children)
      && n.end == n.children[|n.children| - 1].end
      && (forall i :: 0 <= i < |n.children| ==> Laid(n.children[i]))
  }

  /** Every name is non-null. */
  ghost predicate Named(n: Node)
    decreases n
  {
    n.name != "" && forall i :: 0 <= i < |n.children| ==> Named(n.children[i])
  }

  /** The shape a parsed document has when every text node holds text and
      no text or leaf node has children. (A `<text>` element, as SVG uses,
      with children would break this; see README.) */
  ghost predicate Settled(n: Node)
    decreases n
  {
    && n.name != ""
    && (n.name == "text" ==> |n.content| > 0 && n.children == [])
    && (IsLeafName(n.name) ==> n.children == [])
    && forall i :: 0 <= i < |n.children| ==> Settled(n.children[i])
  }

  /** A laid-out, settled tree: the trees position queries are made on. */
  ghost predicate Navigable(n: Node) {
    Laid(n) && Settled(n)
  }

  lemma {:induction false} SettledIsNamed(n: Node)
    requires Settled(n)
    decreases n
    ensures Named(n)
  {
    forall i | 0 <= i < |n.children|
      ensures Named(n.children[i])
    {
      SettledIsNamed(n.children[i]);
    }
  }

  /** A navigable node occupies at least one position. */
  lemma {:induction false} NavigableSpan(n: Node)
    requires Navigable(n)
    decreases n, 1
    ensures n.start <= n.end
  {
    if n.name != "text" && !IsLeafName(n.name) && |n.children| > 0 {
      ChainBounds(n.children);
    }
  }

  /** Chained navigable nodes lie inside the span from the first start to
      the last end, in order. */
  lemma {:induction false} ChainBounds(ns: seq<Node>)
    requires Chained(ns) && forall i :: 0 <= i < |ns| ==> Navigable(ns[i])
    decreases ns, 0
    ensures forall i :: 0 <= i < |ns| ==> ns[0].start <= ns[i].start <= ns[i].end <= ns[|ns| - 1].end
    ensures forall i, j :: 0 <= i < j < |ns| ==> ns[i].end < ns[j].start
  {
    if |ns| > 0 {
      NavigableSpan(ns[0]);
      if |ns| > 1 {
        var t := ns[1..];
        assert forall i :: 1 <= i < |ns| ==> ns[i] == t[i - 1];
        assert Chained(t) && forall i :: 0 <= i < |t| ==> Navigable(t[i]) by {
          assert forall i :: 0 <= i < |t| ==> t[i] == ns[i + 1];
        }
        ChainBounds(t);
        assert ns[1].start == ns[0].end + 1 && t[0] == ns[1] && ns[|ns| - 1] == t[|t| - 1];
      }
    }
  }

  /** The tree with every position erased: what `#updatePositions` must not change. */
  function Unplaced(n: Node): Node
    decreases n, 1
  {
    n.(children := UnplacedAll(n.children), start := 0, end := 0)
  }

  function UnplacedAll(ns: seq<Node>): (ms: seq<Node>)
    decreases ns, 0
    ensures |ms| == |ns|
  {
    if ns == [] then [] else [Unplaced(ns[0])] + UnplacedAll(ns[1..])
  }

  lemma {:induction false} PositionLaysOut(n: Node, p: int)
    decreases n, 1
    ensures Laid(Position(n, p))
    ensures Position(n, p).end == p + Width(n) - 1
    ensures Unplaced(Position(n, p)) == Unplaced(n)
  {
    if n.name != "text" && !IsLeafName(n.name) && |n.children| > 0 {
      PositionAllLaysOut(n.children, p);
    }
  }

  lemma {:induction false} PositionAllLaysOut(ns: seq<Node>, p: int)
    decreases ns, 0
    ensures var ms := PositionAll(ns, p);
      && (|ms| > 0 ==> ms[0].start == p && ms[|ms| - 1].end == p + WidthAll(ns) - 1)
      && Chained(ms)
      && (forall i :: 0 <= i < |ms| ==> Laid(ms[i]))
      && UnplacedAll(ms) == UnplacedAll(ns)
  {
    if ns != [] {
      var head := Position(ns[0], p);
      PositionLaysOut(ns[0], p);
      PositionAllLaysOut(ns[1..], head.end + 1);
      var ms := PositionAll(ns, p);
      var tail := PositionAll(ns[1..], head.end + 1);
      assert ms == [head] + tail;
      assert forall i :: 1 <= i < |ms| ==> ms[i] == tail[i - 1];
      if |tail| > 0 {
        assert ms[1].start == head.end + 1;
      }
      assert UnplacedAll(ms) == [Unplaced(head)] + UnplacedAll(tail);
    }
  }

  /** After `#updatePositions(p)` the node starts at `p`, occupies exactly
      `Width` positions and is laid out; nothing but positions changed. */
  lemma PositionLayout(n: Node, p: int)
    ensures var m := Position(n, p);
      && Laid(m) && m.start == p && Length(m) == Width(n)
      && Unplaced(m) == Unplaced(n)
  {
    PositionLaysOut(n, p);
  }

  // ---------------------------------------------------------------------------
  // Parsing a resource

  /** `#parseBody`: tokenize, collapse leaves, assign positions from
      `entrance`. The image rewriting that follows in the source is not part
      of this model. */
  function ParseBody(body: string, entrance: int): (r: Result<Node, ParseError>)
    ensures r.Ok? ==> Laid(r.value) && Collapsed(r.value) && r.value.start == entrance
    ensures r.Ok? ==> r.value.name == "body" && r.value.content == []
    ensures r.Ok? ==> ChildrenNonEmpty(r.value)
  {
    var e :- Scanner.Parse(Book, body);
    var tree := FromElem(e);
    var collapsed := Collapse(tree);
    if collapsed.None? then Err(TypeError)
    else
      ParseRoot(Book, body);
      CollapseProperties(tree);
      PositionLaysOut(collapsed.value, entrance);
      assert Collapsed(Position(collapsed.value, entrance)) by {
        UnplacedKeepsCollapsed(collapsed.value, Position(collapsed.value, entrance));
      }
      assert ChildrenNonEmpty(Position(collapsed.value, entrance)) by {
        ParseMarked(Book, body);
        FromElemChildrenNonEmpty(e);
        CollapseNonEmpty(tree);
        UnplacedKeepsNonEmpty(collapsed.value, Position(collapsed.value, entrance));
      }
      Ok(Position(collapsed.value, entrance))
  }

  /** Being collapsed does not depend on positions. */
  lemma {:induction false} UnplacedKeepsCollapsed(a: Node, b: Node)
    requires Unplaced(a) == Unplaced(b) && Collapsed(a)
    decreases a
    ensures Collapsed(b)
  {
    assert a.name == b.name && |a.children| == |b.children|;
    forall i | 0 <= i < |b.children|
      ensures Collapsed(b.children[i])
    {
      UnplacedAllIndex(a.children, i);
      UnplacedAllIndex(b.children, i);
      UnplacedKeepsCollapsed(a.children[i], b.children[i]);
    }
  }

  lemma {:induction false} UnplacedAllIndex(ns: seq<Node>, i: nat)
    requires i < |ns|
    ensures UnplacedAll(ns)[i] == Unplaced(ns[i])
  {
    if i > 0 {
      UnplacedAllIndex(ns[1..], i - 1);
    }
  }

  // ---------------------------------------------------------------------------
  // Parsed trees are settled

  /** The node and every node below it has non-empty content. */
  ghost predicate NonEmpty(n: Node)
    decreases n
  {
    |n.content| > 0 && forall i :: 0 <= i < |n.children| ==> NonEmpty(n.children[i])
  }

  ghost predicate ChildrenNonEmpty(n: Node) {
    forall i :: 0 <= i < |n.children| ==> NonEmpty(n.children[i])
  }

  lemma {:induction false} FromElemNonEmpty(e: Elem)
    requires Marked(e)
    decreases e, 1
    ensures NonEmpty(FromElem(e))
  {
    FromElemChildrenNonEmpty(e);
  }

  lemma {:induction false} FromElemChildrenNonEmpty(e: Elem)
    requires ChildrenMarked(e)
    decreases e, 0
    ensures ChildrenNonEmpty(FromElem(e))
  {
    forall i | 0 <= i < |e.children|
      ensures NonEmpty(FromElem(e).children[i])
    {
      FromElemNonEmpty(e.children[i]);
    }
  }

  lemma {:induction false} CollapseNonEmpty(n: Node)
    requires ChildrenNonEmpty(n) && Collapse(n).Some?
    decreases n, 1
    ensures ChildrenNonEmpty(Collapse(n).value)
    ensures |n.content| > 0 ==> |Collapse(n).value.content| > 0
  {
    if !(IsLeafName(n.name) && |n.children| > 0) {
      CollapseAllNonEmpty(n.children);
    } else {
      assert n.name != "text" && n.name != "body" by {
        assert ToLower("text") == "text" && ToLower("body") == "body";
      }
    }
  }

  lemma {:induction false} CollapseAllNonEmpty(ns: seq<Node>)
    requires forall i :: 0 <= i < |ns| ==> NonEmpty(ns[i])
    requires CollapseAll(ns).Some?
    decreases ns, 0
    ensures forall i :: 0 <= i < |ns| ==> NonEmpty(CollapseAll(ns).value[i])
  {
    if ns != [] {
      CollapseNonEmpty(ns[0]);
      CollapseAllNonEmpty(ns[1..]);
      var cs := CollapseAll(ns).value;
      assert cs == [Collapse(ns[0]).value] + CollapseAll(ns[1..]).value;
      assert forall i :: 1 <= i < |ns| ==> cs[i] == CollapseAll(ns[1..]).value[i - 1];
    }
  }

  /** Having content does not depend on positions. */
  lemma {:induction false} UnplacedKeepsNonEmpty(a: Node, b: Node)
    requires Unplaced(a) == Unplaced(b) && ChildrenNonEmpty(a)
    decreases a
    ensures ChildrenNonEmpty(b)
  {
    assert |a.children| == |b.children|;
    forall i | 0 <= i < |b.children|
      ensures NonEmpty(b.children[i])
    {
      UnplacedAllIndex(a.children, i);
      UnplacedAllIndex(b.children, i);
      assert a.children[i].content == b.children[i].content;
      UnplacedKeepsNonEmpty(a.children[i], b.children[i]);
    }
  }

  /** Every text-named node is childless: true of all text the tokenizer
      produces, false only for a `<text>` element (as SVG has) with
      children. */
  ghost predicate TextChildless(n: Node)
    decreases n
  {
    && (n.name == "text" ==> n.children == [])
    && forall i :: 0 <= i < |n.children| ==> TextChildless(n.children[i])
  }

  /** A collapsed tree whose text nodes are childless and whose nodes below
      the root all hold content is settled. */
  lemma {:induction false} SettledFromShape(n: Node)
    requires Collapsed(n) && ChildrenNonEmpty(n) && TextChildless(n)
    requires n.name == "text" ==> |n.content| > 0
    decreases n
    ensures Settled(n)
  {
    forall i | 0 <= i < |n.children|
      ensures Settled(n.children[i])
    {
      SettledFromShape(n.children[i]);
    }
  }

  /** `parseHtmlToEbookNode`: `None` when the document has no body. */
  function ParseHtml(html: string, entrance: int): (r: Result<Option<Node>, ParseError>)
    ensures GetHtmlBody(html).None? ==> r == Ok(None)
    ensures r.Ok? && r.value.Some? ==> Laid(r.value.value) && Collapsed(r.value.value) && r.value.value.start == entrance
    ensures r.Ok? && r.value.Some? ==> r.value.value.name == "body"
    ensures r.Ok? && r.value.Some? ==> ChildrenNonEmpty(r.value.value)
  {
    match GetHtmlBody(html)
    case None => Ok(None)
    case Some(body) =>
      var n :- ParseBody(body, entrance);
      Ok(Some(n))
  }

  /** A parsed body whose text nodes are childless is navigable. */
  lemma ParseHtmlNavigable(html: string, entrance: int)
    ensures var r := ParseHtml(html, entrance);
      r.Ok? && r.value.Some? && TextChildless(r.value.value) ==> Navigable(r.value.value)
  {
    var r := ParseHtml(html, entrance);
    if r.Ok? && r.value.Some? && TextChildless(r.value.value) {
      SettledFromShape(r.value.value);
    }
  }
}

=== FILE: book_queries.dfy ===
/** The queries a positioned `EbookNode` answers (static/libs/bookNode.js):
    copying the part of the tree between two positions, the position of an
    element id, and the resources an element refers to. */
module BookQueries {
  import opened Wrappers
  import opened Text
  import opened Tags
  import opened BookNode

  function Max(a: int, b: int): int { if a < b then b else a }
  function Min(a: int, b: int): int { if a < b then a else b }

  /** The inclusive ranges `[a, b]` and `[c, d]` share a position. */
  predicate Overlaps(a: int, b: int, c: int, d: int) {
    a <= d && c <= b
  }

  // ---------------------------------------------------------------------------
  // copy(from, to)

  /** `copy(from, to)`: a text node is cut to the characters inside the
      range, a leaf is copied whole or not at all, and any other element is
      dropped when it lies outside the range and otherwise keeps the copies of
      its children, taking its range from the first and last of them. */
  function Copy(n: Node, from: int, to: int): (r: Option<Node>)
    requires Named(n)
    decreases n, 1
    ensures r.Some? ==> r.value.name == n.name
    ensures r.Some? && n.name != "text" ==> r.value.content == n.content
    ensures r.Some? && (n.name == "text" || IsLeafName(n.name)) ==> r.value.children == []
  {
    if n.name == "text" then
      if from <= n.start && n.end <= to then
        Some(MkNode("text", n.content, [], n.start, n.end))
      else if from <= n.start && n.start <= to && to <= n.end then
        Some(MkNode(n.name, Substring(n.content, 0, to - n.start + 1), [], n.start, to))
      else if n.start <= from && from <= n.end && n.end <= to then
        Some(MkNode(n.name, SubstringFrom(n.content, from - n.start), [], from, n.end))
      else if n.start <= from && to < n.end then
        Some(MkNode(n.name, Substring(n.content, from - n.start, to - n.start + 1), [], from, to))
      else None
    else if IsLeafName(n.name) then
      if from <= n.start && n.end <= to then Some(MkNode(n.name, n.content, [], n.start, n.end)) else None
    else if n.end < from || n.start > to then None
    else
      var cs := CopyAll(n.children, from, to);
      if cs == [] then Some(MkNode(n.name, n.content, [], n.start, n.end))
      else Some(MkNode(n.name, n.content, cs, cs[0].start, cs[|cs| - 1].end))
  }

  /** The copies of the children that are not dropped, in order. */
  function CopyAll(ns: seq<Node>, from: int, to: int): (cs: seq<Node>)
    requires forall i :: 0 <= i < |ns| ==> Named(ns[i])
    decreases ns, 0
    ensures |cs| <= |ns|
  {
    if ns == [] then []
    else
      var tail := CopyAll(ns[1..], from, to);
      match Copy(ns[0], from, to)
      case None => tail
      case Some(c) => [c] + tail
  }

  /** On a laid-out text node, a copy is exactly the characters of the
      overlap of the two ranges, placed at the overlap; with no overlap there
      is no copy. */
  lemma CopyText(n: Node, from: int, to: int)
    requires n.name == "text" && n.children == [] && |n.content| > 0 && Laid(n) && from <= to
    ensures Copy(n, from, to).Some? <==> Overlaps(n.start, n.end, from, to)
    ensures Overlaps(n.start, n.end, from, to) ==>
      var r := Copy(n, from, to).value;
      && r.start == Max(from, n.start) && r.end == Min(to, n.end)
      && r.content == n.content[Max(from, n.start) - n.start..Min(to, n.end) - n.start + 1]
      && r.children == []
  {
    var a := Max(from, n.start) - n.start;
    var b := Min(to, n.end) - n.start + 1;
    if Overlaps(n.start, n.end, from, to) {
      assert 0 <= a < b <= |n.content|;
    }
  }

  /** The range arithmetic of prepending the (possible) copy of one node to
      the copies of the nodes chained after it. */
  lemma ConsRange(h: Option<Node>, tail: seq<Node>, s0: int, e0: int, last: int, from: int, to: int)
    requires from <= to && s0 <= e0 && e0 + 1 <= last
    requires h.Some? <==> Overlaps(s0, e0, from, to)
    requires h.Some? ==> h.value.start == Max(from, s0) && h.value.end == Min(to, e0)
    requires tail != [] <==> Overlaps(e0 + 1, last, from, to)
    requires tail != [] ==> tail[0].start == Max(from, e0 + 1) && tail[|tail| - 1].end == Min(to, last)
    requires Chained(tail)
    ensures var cs := (if h.Some? then [h.value] else []) + tail;
      && (cs != [] <==> Overlaps(s0, last, from, to))
      && (cs != [] ==> cs[0].start == Max(from, s0) && cs[|cs| - 1].end == Min(to, last))
      && Chained(cs)
  {
    var cs := (if h.Some? then [h.value] else []) + tail;
    if h.Some? {
      assert forall i :: 1 <= i < |cs| ==> cs[i] == tail[i - 1];
    }
  }

  /** Copying chained navigable nodes keeps the copies of exactly the nodes
      overlapping the range; they are navigable, chained, and span the overlap
      of the range with the whole run. */
  lemma {:induction false} CopyAllRange(ns: seq<Node>, from: int, to: int)
    requires from <= to && |ns| > 0 && Chained(ns)
    requires forall i :: 0 <= i < |ns| ==> Navigable(ns[i])
    decreases ns, 0
    ensures forall i :: 0 <= i < |ns| ==> Named(ns[i])
    ensures var cs := CopyAll(ns, from, to);
      && (cs != [] <==> Overlaps(ns[0].start, ns[|ns| - 1].end, from, to))
      && (cs != [] ==> cs[0].start == Max(from, ns[0].start) && cs[|cs| - 1].end == Min(to, ns[|ns| - 1].end))
      && Chained(cs)
      && (forall i :: 0 <= i < |cs| ==> Navigable(cs[i]))
  {
    NavigableAreNamed(ns);
    CopyRange(ns[0], from, to);
    NavigableSpan(ns[0]);
    var h := Copy(ns[0], from, to);
    var tail := CopyAll(ns[1..], from, to);
    CopyAllCons(ns, from, to);
    if |ns| == 1 {
      assert tail == [];
    } else {
      ChainTail(ns);
      CopyAllRange(ns[1..], from, to);
      ConsRange(h, tail, ns[0].start, ns[0].end, ns[|ns| - 1].end, from, to);
      ConsNavigable(h, tail);
    }
  }

  lemma NavigableAreNamed(ns: seq<Node>)
    requires forall i :: 0 <= i < |ns| ==> Navigable(ns[i])
    ensures forall i :: 0 <= i < |ns| ==> Named(ns[i])
  {
    forall i | 0 <= i < |ns|
      ensures Named(ns[i])
    {
      SettledIsNamed(ns[i]);
    }
  }

  lemma CopyAllCons(ns: seq<Node>, from: int, to: int)
    requires |ns| > 0 && forall i :: 0 <= i < |ns| ==> Named(ns[i])
    ensures var h := Copy(ns[0], from, to);
      CopyAll(ns, from, to) == (if h.Some? then [h.value] else []) + CopyAll(ns[1..], from, to)
  {
  }

  /** The tail of a chained run of navigable nodes is one too, and starts
      right after the head. */
  lemma ChainTail(ns: seq<Node>)
    requires |ns| > 1 && Chained(ns) && forall i :: 0 <= i < |ns| ==> Navigable(ns[i])
    ensures Chained(ns[1..]) && forall i :: 0 <= i < |ns| - 1 ==> Navigable(ns[1..][i])
    ensures ns[1..][0].start == ns[0].end + 1 && ns[1..][|ns| - 2] == ns[|ns| - 1]
    ensures ns[0].start <= ns[0].end && ns[1].start <= ns[|ns| - 1].end
  {
    var rest := ns[1..];
    assert forall i :: 0 <= i < |rest| ==> rest[i] == ns[i + 1];
    NavigableSpan(ns[0]);
    ChainBounds(rest);
  }

  lemma ConsNavigable(h: Option<Node>, tail: seq<Node>)
    requires h.Some? ==> Navigable(h.value)
    requires forall i :: 0 <= i < |tail| ==> Navigable(tail[i])
    ensures var cs := (if h.Some? then [h.value] else []) + tail;
      forall i :: 0 <= i < |cs| ==> Navigable(cs[i])
  {
    var cs := (if h.Some? then [h.value] else []) + tail;
    if h.Some? {
      assert forall i :: 1 <= i < |cs| ==> cs[i] == tail[i - 1];
    }
  }

  /** On a navigable tree, the copy of a range `[from, to]` exists exactly
      when the range overlaps the node, is again navigable, and spans the
      overlap. */
  lemma {:induction false} CopyRange(n: Node, from: int, to: int)
    requires Navigable(n) && from <= to
    decreases n, 2
    ensures Named(n)
    ensures Copy(n, from, to).Some? <==> Overlaps(n.start, n.end, from, to)
    ensures Copy(n, from, to).Some? ==>
      var r := Copy(n, from, to).value;
      && Navigable(r) && r.start == Max(from, n.start) && r.end == Min(to, n.end)
  {
    SettledIsNamed(n);
    if n.name == "text" {
      CopyText(n, from, to);
    } else if IsLeafName(n.name) || |n.children| == 0 {
    } else {
      CopyElementRange(n, from, to);
    }
  }

  lemma {:induction false} CopyElementRange(n: Node, from: int, to: int)
    requires Navigable(n) && from <= to && Named(n)
    requires n.name != "text" && !IsLeafName(n.name) && |n.children| > 0
    decreases n, 1
    ensures Copy(n, from, to).Some? <==> Overlaps(n.start, n.end, from, to)
    ensures Copy(n, from, to).Some? ==>
      var r := Copy(n, from, to).value;
      && Navigable(r) && r.start == Max(from, n.start) && r.end == Min(to, n.end)
  {
    CopyAllRange(n.children, from, to);
    var cs := CopyAll(n.children, from, to);
    if Overlaps(n.start, n.end, from, to) {
      assert Copy(n, from, to).value == MkNode(n.name, n.content, cs, cs[0].start, cs[|cs| - 1].end);
      ElementOverChain(MkNode(n.name, n.content, cs, cs[0].start, cs[|cs| - 1].end));
    }
  }

  /** An element whose children are a chained run of navigable nodes, and
      whose range is theirs, is navigable. */
  lemma ElementOverChain(n: Node)
    requires n.name != "" && n.name != "text" && !IsLeafName(n.name) && |n.children| > 0
    requires Chained(n.children) && forall i :: 0 <= i < |n.children| ==> Navigable(n.children[i])
    requires n.start == n.children[0].start && n.end == n.children[|n.children| - 1].end
    ensures Navigable(n)
  {
  }

  /** Copying whole children keeps them all and their serialisation. */
  lemma {:induction false} CopyAllWhole(ns: seq<Node>, from: int, to: int)
    requires forall i :: 0 <= i < |ns| ==> Navigable(ns[i]) && from <= ns[i].start && ns[i].end <= to
    decreases ns, 0
    ensures forall i :: 0 <= i < |ns| ==> Named(ns[i])
    ensures ContentAll(CopyAll(ns, from, to)) == ContentAll(ns)
    ensures |CopyAll(ns, from, to)| == |ns|
  {
    forall i | 0 <= i < |ns|
      ensures Named(ns[i])
    {
      SettledIsNamed(ns[i]);
    }
    if ns != [] {
      CopyWhole(ns[0], from, to);
      CopyAllWhole(ns[1..], from, to);
    }
  }

  /** Copying a range that covers the whole node serialises to the same
      content. */
  lemma {:induction false} CopyWhole(n: Node, from: int, to: int)
    requires Navigable(n) && from <= n.start && n.end <= to
    decreases n, 1
    ensures Named(n)
    ensures Copy(n, from, to).Some?
    ensures Content(Copy(n, from, to).value) == Content(n)
  {
    SettledIsNamed(n);
    NavigableSpan(n);
    if n.name != "text" && !IsLeafName(n.name) && |n.children| > 0 {
      ChainBounds(n.children);
      CopyAllWhole(n.children, from, to);
    }
  }

  /** The indices, from `i` on, of the nodes that `CopyAll` keeps, in
      increasing order. */
  function CopiedIndices(ns: seq<Node>, from: int, to: int, i: nat): (idx: seq<nat>)
    requires i <= |ns| && forall j :: 0 <= j < |ns| ==> Named(ns[j])
    decreases |ns| - i
    ensures forall k :: 0 <= k < |idx| ==> i <= idx[k] < |ns|
    ensures forall k, l :: 0 <= k < l < |idx| ==> idx[k] < idx[l]
    ensures forall j :: i <= j < |ns| ==> (j in idx <==> Copy(ns[j], from, to).Some?)
  {
    if i == |ns| then []
    else
      var tail := CopiedIndices(ns, from, to, i + 1);
      if Copy(ns[i], from, to).Some? then [i] + tail else tail
  }

  /** The `k`-th copy of the nodes from `i` on is the copy of the `k`-th
      kept node. */
  lemma {:induction false} CopyAllIndexed(ns: seq<Node>, from: int, to: int, i: nat)
    requires i <= |ns| && forall j :: 0 <= j < |ns| ==> Named(ns[j])
    decreases |ns| - i
    ensures forall j :: 0 <= j < |ns[i..]| ==> Named(ns[i..][j])
    ensures var cs, idx := CopyAll(ns[i..], from, to), CopiedIndices(ns, from, to, i);
      && |cs| == |idx|
      && forall k :: 0 <= k < |cs| ==> Copy(ns[idx[k]], from, to) == Some(cs[k])
  {
    assert forall j :: 0 <= j < |ns[i..]| ==> ns[i..][j] == ns[i + j];
    if i < |ns| {
      CopyAllIndexed(ns, from, to, i + 1);
      assert ns[i..][1..] == ns[i + 1..];
      CopyAllCons(ns[i..], from, to);
    }
  }

  /** On chained navigable nodes the kept nodes are exactly those that
      overlap the range. */
  lemma CopiedAreOverlapping(ns: seq<Node>, from: int, to: int)
    requires from <= to && forall i :: 0 <= i < |ns| ==> Navigable(ns[i])
    ensures forall i :: 0 <= i < |ns| ==> Named(ns[i])
    ensures var idx := CopiedIndices(ns, from, to, 0);
      forall i :: 0 <= i < |ns| ==> (i in idx <==> Overlaps(ns[i].start, ns[i].end, from, to))
  {
    forall i | 0 <= i < |ns|
      ensures Named(ns[i])
      ensures Copy(ns[i], from, to).Some? <==> Overlaps(ns[i].start, ns[i].end, from, to)
    {
      CopyRange(ns[i], from, to);
    }
  }

  // ---------------------------------------------------------------------------
  // getIdPosition(id)

  /** `getIdPosition(id)`: the start of this node when its id is non-empty and
      equals `id`, otherwise the first answer among the children. */
  function IdPosition(n: Node, id: string): Option<int>
    decreases n, 1
  {
    if n.id.Some? && n.id.value != "" && n.id.value == id then Some(n.start)
    else IdPositionAll(n.children, id)
  }

  function IdPositionAll(ns: seq<Node>, id: string): Option<int>
    decreases ns, 0
  {
    if ns == [] then None
    else match IdPosition(ns[0], id)
      case Some(p) => Some(p)
      case None => IdPositionAll(ns[1..], id)
  }

  /** The nodes of a tree in document order (pre-order). */
  function PreOrder(n: Node): (r: seq<Node>)
    decreases n, 1
    ensures |r| > 0 && r[0] == n
  {
    [n] + PreOrderAll(n.children)
  }

  function PreOrderAll(ns: seq<Node>): seq<Node>
    decreases ns, 0
  {
    if ns == [] then [] else PreOrder(ns[0]) + PreOrderAll(ns[1..])
  }

  /** The reference search: the start of the first node in the list carrying
      the non-empty id `id`. */
  function FirstWithId(ns: seq<Node>, id: string): (r: Option<int>)
    ensures r.Some? ==>
      exists k ::
        && 0 <= k < |ns| && ns[k].id == Some(id) && ns[k].start == r.value
        && forall j :: 0 <= j < k ==> ns[j].id != Some(id)
    ensures r.None? <==> id == "" || forall k :: 0 <= k < |ns| ==> ns[k].id != Some(id)
  {
    if ns == [] then None
    else if ns[0].id.Some? && ns[0].id.value != "" && ns[0].id.value == id then Some(ns[0].start)
    else
      var r := FirstWithId(ns[1..], id);
      assert r.Some? ==> ns[1..][0].start == ns[1].start;
      assert forall k :: 1 <= k < |ns| ==> ns[k] == ns[1..][k - 1];
      r
  }

  lemma {:induction false} FirstWithIdAppend(a: seq<Node>, b: seq<Node>, id: string)
    ensures FirstWithId(a + b, id) == if FirstWithId(a, id).Some? then FirstWithId(a, id) else FirstWithId(b, id)
  {
    if a != [] {
      assert (a + b)[1..] == a[1..] + b;
      FirstWithIdAppend(a[1..], b, id);
    } else {
      assert a + b == b;
    }
  }

  /** The recursive search finds exactly the first node in document order
      whose id matches. */
  lemma {:induction false} IdPositionIsFirstInDocumentOrder(n: Node, id: string)
    decreases n, 1
    ensures IdPosition(n, id) == FirstWithId(PreOrder(n), id)
  {
    IdPositionAllIsFirst(n.children, id);
    FirstWithIdAppend([n], PreOrderAll(n.children), id);
    assert FirstWithId([n], id) == (if n.id.Some? && n.id.value != "" && n.id.value == id then Some(n.start) else None) by {
      assert [n][1..] == [];
    }
  }

  lemma {:induction false} IdPositionAllIsFirst(ns: seq<Node>, id: string)
    decreases ns, 0
    ensures IdPositionAll(ns, id) == FirstWithId(PreOrderAll(ns), id)
  {
    if ns != [] {
      IdPositionIsFirstInDocumentOrder(ns[0], id);
      IdPositionAllIsFirst(ns[1..], id);
      FirstWithIdAppend(PreOrder(ns[0]), PreOrderAll(ns[1..]), id);
    }
  }

  // ---------------------------------------------------------------------------
  // getResources()

  /** The elements whose own attributes are searched; the search does not
      descend below them. */
  predicate NamesResources(name: string) {
    name in ["img", "image", "a", "tr"]
  }

  /** The resources an element names in its own content. */
  function OwnResources(n: Node): seq<string> {
    if n.name == "img" then Captures(n.content, "src=\"", 0)
    else if n.name == "image" then Captures(n.content, "xlink:href=\"", 0)
    else if n.name == "a" then Captures(n.content, "href=\"", 0)
    else if n.name == "tr" then Captures(n.content, "src=\"", 0) + Captures(n.content, "href=\"", 0)
    else []
  }

  /** `getResources()`: `src` of `img`, `xlink:href` of `image`, `href` of `a`,
      `src` and then `href` of `tr`; any other element with children
      concatenates its children's resources. Names are compared exactly. */
  function Resources(n: Node): seq<string>
    decreases n, 1
  {
    if NamesResources(n.name) then OwnResources(n)
    else if |n.children| > 0 then ResourcesAll(n.children)
    else []
  }

  function ResourcesAll(ns: seq<Node>): seq<string>
    decreases ns, 0
  {
    if ns == [] then [] else Resources(ns[0]) + ResourcesAll(ns[1..])
  }

  /** The nodes the search reaches, in document order: every node, except
      that nothing below an `img`, `image`, `a` or `tr` element is visited. */
  function Reached(n: Node): (r: seq<Node>)
    decreases n, 1
    ensures |r| > 0 && r[0] == n
    ensures NamesResources(n.name) ==> r == [n]
  {
    if NamesResources(n.name) then [n] else [n] + ReachedAll(n.children)
  }

  function ReachedAll(ns: seq<Node>): seq<Node>
    decreases ns, 0
  {
    if ns == [] then [] else Reached(ns[0]) + ReachedAll(ns[1..])
  }

  /** The resources named by the nodes of a list, in list order. */
  function Gather(ns: seq<Node>): seq<string> {
    if ns == [] then [] else OwnResources(ns[0]) + Gather(ns[1..])
  }

  lemma {:induction false} GatherAppend(a: seq<Node>, b: seq<Node>)
    ensures Gather(a + b) == Gather(a) + Gather(b)
  {
    if a != [] {
      assert (a + b)[1..] == a[1..] + b;
      GatherAppend(a[1..], b);
    } else {
      assert a + b == b;
    }
  }

  /** The recursive search returns the own resources of the reached nodes in
      document order. */
  lemma {:induction false} ResourcesInDocumentOrder(n: Node)
    decreases n, 1
    ensures Resources(n) == Gather(Reached(n))
  {
    assert Gather([n]) == OwnResources(n) by {
      assert [n][1..] == [];
    }
    if !NamesResources(n.name) {
      ResourcesAllInDocumentOrder(n.children);
      GatherAppend([n], ReachedAll(n.children));
      if n.children == [] {
        assert ReachedAll(n.children) == [];
      }
    }
  }

  lemma {:induction false} ResourcesAllInDocumentOrder(ns: seq<Node>)
    decreases ns, 0
    ensures ResourcesAll(ns) == Gather(ReachedAll(ns))
  {
    if ns != [] {
      ResourcesInDocumentOrder(ns[0]);
      ResourcesAllInDocumentOrder(ns[1..]);
      GatherAppend(Reached(ns[0]), ReachedAll(ns[1..]));
    }
  }

  /** The search reaches only nodes of the tree. */
  lemma {:induction false} ReachedInTree(n: Node)
    decreases n, 1
    ensures forall m :: m in Reached(n) ==> m in PreOrder(n)
  {
    if !NamesResources(n.name) {
      ReachedAllInTree(n.children);
    }
  }

  lemma {:induction false} ReachedAllInTree(ns: seq<Node>)
    decreases ns, 0
    ensures forall m :: m in ReachedAll(ns) ==> m in PreOrderAll(ns)
  {
    if ns != [] {
      ReachedInTree(ns[0]);
      ReachedAllInTree(ns[1..]);
    }
  }

  /** An image's first resource is the value of its first `src` attribute. */
  lemma ImageFirstResource(n: Node)
    requires n.name == "img"
    ensures FirstCapture(n.content, "src=\"").Some? <==> Resources(n) != []
    ensures FirstCapture(n.content, "src=\"").Some? ==>
      Resources(n)[0] == FirstCapture(n.content, "src=\"").value
  {
    CapturesStartWithFirst(n.content, "src=\"");
  }

  /** `r` is written as `src="r"` or `href="r"` in `content` (an
      `xlink:href="r"` contains `href="r"`). */
  ghost predicate Referenced(r: string, content: string) {
    IsInfix("src=\"" + r + "\"", content) || IsInfix("href=\"" + r + "\"", content)
  }

  lemma XlinkIsHref(r: string, content: string)
    requires IsInfix("xlink:href=\"" + r + "\"", content)
    ensures IsInfix("href=\"" + r + "\"", content)
  {
    var i: nat :| IsInfixAt("xlink:href=\"" + r + "\"", content, i);
    var part := "href=\"" + r + "\"";
    var whole := "xlink:" + part;
    assert "xlink:href=\"" + r + "\"" == whole;
    assert content[i..i + |whole|] == whole;
    assert content[i + 6..i + 6 + |part|] == content[i..i + |whole|][6..] == whole[6..] == part;
    assert IsInfixAt(part, content, i + 6);
  }

  /** Every resource is a non-empty, quote-free value written as a `src` or
      `href` attribute value in the content of some node of the tree. */
  lemma {:induction false} ResourcesAreReferenced(n: Node)
    decreases n, 1
    ensures forall r :: r in Resources(n) ==>
      |r| > 0 && '"' !in r && exists m :: m in PreOrder(n) && Referenced(r, m.content)
  {
    if NamesResources(n.name) {
      OwnResourcesAreReferenced(n);
      assert n in PreOrder(n);
    } else if |n.children| > 0 {
      ResourcesAllAreReferenced(n.children);
      assert Resources(n) == ResourcesAll(n.children);
      assert forall m :: m in PreOrderAll(n.children) ==> m in PreOrder(n);
    }
  }

  /** The resources an `img`, `image`, `a` or `tr` element names itself. */
  lemma OwnResourcesAreReferenced(n: Node)
    requires NamesResources(n.name)
    ensures forall r :: r in Resources(n) ==> |r| > 0 && '"' !in r && Referenced(r, n.content)
  {
    if n.name == "image" {
      forall r | r in Resources(n)
        ensures Referenced(r, n.content)
      {
        XlinkIsHref(r, n.content);
      }
    }
  }

  lemma {:induction false} ResourcesAllAreReferenced(ns: seq<Node>)
    decreases ns, 0
    ensures forall r :: r in ResourcesAll(ns) ==>
      |r| > 0 && '"' !in r && exists m :: m in PreOrderAll(ns) && Referenced(r, m.content)
  {
    if ns != [] {
      ResourcesAreReferenced(ns[0]);
      ResourcesAllAreReferenced(ns[1..]);
    }
  }
}

=== FILE: pages.dfy ===
/** Pagination of the ebook display (`EbookDisplay`, `Page` and `PageCache`
    in static/libs/reader.js): a page is the longest run of positions from a
    start, cut at a break the book offers, whose rendering does not overflow
    the display; pages are computed one after another and cached.

    The display itself is an oracle: `overflows` says whether the shadow
    element overflows with the given contents. The breaks are a parameter
    `next`, which for a book is `Spine.FindSpaceAfterIn`. */
module Pagination {
  import opened Wrappers
  import opened BookNode
  import opened BookNavigation
  import opened Spine

  /** `Page(start, end)`: the positions `start..end`, both included. */
  datatype Page = Page(start: int, end: int) {
    predicate Contains(p: int) {
      start <= p <= end
    }
  }

  // ---------------------------------------------------------------------------
  // PageCache

  /** The index of the first cached page holding `p`. */
  function FirstPageIndex(cache: seq<Page>, p: int): (r: Option<nat>)
    ensures r.Some? ==> r.value < |cache| && cache[r.value].Contains(p)
    ensures r.Some? ==> forall j :: 0 <= j < r.value ==> !cache[j].Contains(p)
    ensures r.None? <==> forall i :: 0 <= i < |cache| ==> !cache[i].Contains(p)
  {
    if cache == [] then None
    else if cache[0].Contains(p) then Some(0)
    else match FirstPageIndex(cache[1..], p)
      case None => None
      case Some(i) => Some(i + 1)
  }

  /** `PageCache.getPageFor(position)`: the first cached page holding the
      position, `None` (`null`) when there is none. */
  function CachedPageFor(cache: seq<Page>, p: int): (r: Option<Page>)
    ensures r.Some? ==> r.value.Contains(p) && r.value in cache
    ensures r.Some? ==> r.value == cache[FirstPageIndex(cache, p).value]
    ensures r.None? <==> forall i :: 0 <= i < |cache| ==> !cache[i].Contains(p)
  {
    match FirstPageIndex(cache, p)
    case None => None
    case Some(i) => Some(cache[i])
  }

  lemma FirstIndexUnique(cache: seq<Page>, p: int, i: nat)
    requires i < |cache| && cache[i].Contains(p) && forall j :: 0 <= j < i ==> !cache[j].Contains(p)
    ensures FirstPageIndex(cache, p) == Some(i)
  {
  }

  /** Adding a page never changes the answer for a position already cached. */
  lemma CachedPageForAppend(cache: seq<Page>, page: Page, p: int)
    ensures CachedPageFor(cache + [page], p)
      == if CachedPageFor(cache, p).Some? then CachedPageFor(cache, p)
         else if page.Contains(p) then Some(page) else None
  {
    var c := cache + [page];
    if FirstPageIndex(cache, p).Some? {
      var i := FirstPageIndex(cache, p).value;
      assert c[i] == cache[i];
      assert forall j :: 0 <= j < i ==> c[j] == cache[j];
      FirstIndexUnique(c, p, i);
    } else if page.Contains(p) {
      assert c[|cache|] == page;
      assert forall j :: 0 <= j < |cache| ==> c[j] == cache[j];
      FirstIndexUnique(c, p, |cache|);
    }
  }

  /** `PageCache.getEnd()`: the largest end of a cached page, and 0 when
      there is none larger. */
  function GetEnd(cache: seq<Page>): (r: int)
    ensures r >= 0
    ensures forall i :: 0 <= i < |cache| ==> cache[i].end <= r
    ensures r == 0 || exists i :: 0 <= i < |cache| && cache[i].end == r
  {
    if cache == [] then 0
    else
      var e := GetEnd(cache[..|cache| - 1]);
      assert forall i :: 0 <= i < |cache| - 1 ==> cache[..|cache| - 1][i] == cache[i];
      if cache[|cache| - 1].end > e then cache[|cache| - 1].end else e
  }

  /** Where `#computePageFor` starts: one past the cached end, or 0 when
      that end is 0. */
  function StartFor(cache: seq<Page>): (s: int)
    ensures s >= 0
    ensures GetEnd(cache) <= s <= GetEnd(cache) + 1
  {
    var e := GetEnd(cache);
    if e > 0 then e + 1 else e
  }

  /** The start `#computePageFor` evidently intends: 0 for an empty cache,
      otherwise one past the cached end. It differs from `StartFor` only when
      every cached page ends at 0. */
  function NextStart(cache: seq<Page>): (s: int)
    ensures s > GetEnd(cache) || (cache == [] && s == 0)
    ensures forall i :: 0 <= i < |cache| ==> cache[i].end < s
  {
    if cache == [] then 0 else GetEnd(cache) + 1
  }

  /** `start` continues the cache without a gap: the first page after an
      empty cache starts at 0, any other one at most one past the cached end
      and not before it. */
  predicate Resumes(cache: seq<Page>, start: int) {
    && GetEnd(cache) <= start
    && if cache == [] then start == 0 else start <= GetEnd(cache) + 1
  }

  lemma StartsResume(cache: seq<Page>)
    ensures Resumes(cache, StartFor(cache)) && Resumes(cache, NextStart(cache))
  {
  }

  /** An ordered cache: every page is non-empty, and the pages are pairwise
      disjoint in increasing order. `PageCache.addPage` (reader.js:394-397)
      appends without checking this. */
  ghost predicate Ordered(cache: seq<Page>) {
    && (forall i :: 0 <= i < |cache| ==> cache[i].start <= cache[i].end)
    && forall i, j :: 0 <= i < j < |cache| ==> cache[i].end < cache[j].start
  }

  /** The cache answers every position from 0 up to its end. */
  ghost predicate Covered(cache: seq<Page>) {
    cache != [] ==> forall p :: 0 <= p <= GetEnd(cache) ==> CachedPageFor(cache, p).Some?
  }

  /** A run of pages, each starting one past the end of the one before. */
  predicate Consecutive(pages: seq<Page>, from: int) {
    && |pages| > 0
    && pages[0].start == from
    && (forall i :: 0 <= i < |pages| ==> pages[i].start <= pages[i].end)
    && (forall i :: 0 <= i < |pages| - 1 ==> pages[i + 1].start == pages[i].end + 1)
  }

  lemma {:induction false} ConsecutiveCovers(pages: seq<Page>, from: int, p: int)
    requires Consecutive(pages, from) && from <= p <= pages[|pages| - 1].end
    ensures exists i :: 0 <= i < |pages| && pages[i].Contains(p)
  {
    if !pages[0].Contains(p) {
      assert |pages| > 1;
      ConsecutiveCovers(pages[1..], pages[0].end + 1, p);
      var i :| 0 <= i < |pages[1..]| && pages[1..][i].Contains(p);
      assert pages[i + 1].Contains(p);
    }
  }

  lemma {:induction false} ConsecutiveEnds(pages: seq<Page>, from: int)
    requires Consecutive(pages, from)
    ensures forall i :: 0 <= i < |pages| ==> from <= pages[i].end <= pages[|pages| - 1].end
  {
    if |pages| > 1 {
      ConsecutiveEnds(pages[1..], pages[0].end + 1);
      assert forall i :: 1 <= i < |pages| ==> pages[i] == pages[1..][i - 1];
    }
  }

  lemma {:induction false} CachedPageForPrefix(cache: seq<Page>, added: seq<Page>, p: int)
    requires CachedPageFor(cache, p).Some?
    decreases |added|
    ensures CachedPageFor(cache + added, p).Some?
  {
    if added != [] {
      var init := added[..|added| - 1];
      assert added == init + [added[|added| - 1]];
      CachedPageForPrefix(cache, init, p);
      CachedPageForAppend(cache + init, added[|added| - 1], p);
      assert cache + init + [added[|added| - 1]] == cache + added;
    } else {
      assert cache + added == cache;
    }
  }

  lemma CachedPageForFound(cache: seq<Page>, i: nat, p: int)
    requires i < |cache| && cache[i].Contains(p)
    ensures CachedPageFor(cache, p).Some?
  {
  }

  /** Appending consecutive pages from a start that resumes the cache keeps
      it covered and moves its end to the last new page's end. */
  lemma CoveredExtends(cache: seq<Page>, added: seq<Page>, from: int)
    requires Covered(cache) && Resumes(cache, from) && Consecutive(added, from)
    ensures GetEnd(cache + added) == added[|added| - 1].end
    ensures Covered(cache + added)
  {
    var c := cache + added;
    var last := added[|added| - 1].end;
    ConsecutiveEnds(added, from);
    assert c[|c| - 1].end == last;
    forall i | 0 <= i < |c| ensures c[i].end <= last {
      if i < |cache| {
        assert c[i] == cache[i];
      } else {
        assert c[i] == added[i - |cache|];
      }
    }
    forall p | 0 <= p <= last ensures CachedPageFor(c, p).Some? {
      if cache != [] && p <= GetEnd(cache) {
        CachedPageForPrefix(cache, added, p);
      } else {
        ConsecutiveCovers(added, from, p);
        var i :| 0 <= i < |added| && added[i].Contains(p);
        assert c[|cache| + i] == added[i];
        CachedPageForFound(c, |cache| + i, p);
      }
    }
  }

  /** Consecutive pages are disjoint, in increasing order, from `from` on. */
  lemma {:induction false} ConsecutiveOrdered(pages: seq<Page>, from: int)
    requires Consecutive(pages, from)
    ensures Ordered(pages)
    ensures forall i :: 0 <= i < |pages| ==> from <= pages[i].start
  {
    if |pages| > 1 {
      var t := pages[1..];
      ConsecutiveOrdered(t, pages[0].end + 1);
      assert forall i :: 1 <= i < |pages| ==> pages[i] == t[i - 1];
    }
  }

  /** Appending consecutive pages that start after every cached page keeps
      the cache ordered. */
  lemma AppendOrdered(cache: seq<Page>, added: seq<Page>, from: int)
    requires Ordered(cache) && Consecutive(added, from)
    requires forall i :: 0 <= i < |cache| ==> cache[i].end < from
    ensures Ordered(cache + added)
  {
    ConsecutiveOrdered(added, from);
    var c := cache + added;
    assert forall i :: 0 <= i < |cache| ==> c[i] == cache[i];
    assert forall i :: |cache| <= i < |c| ==> c[i] == added[i - |cache|];
  }

  // ---------------------------------------------------------------------------
  // #computeMaximalPage

  /** What the shadow element holds when the display measures it: nothing
      before the first break, else `getContentsAt(start, end)`. */
  datatype Shadow = Empty | Slice(start: int, end: Option<int>)

  /** `#overflowTriggerred()` on the given shadow contents. */
  type Oracle = Shadow -> bool

  /** `ebook.findSpaceAfter`: the next break after a position, if any. */
  type Breaks = int -> Option<int>

  /** Breaks never go back and stay below `bound`. */
  ghost predicate Bounded(next: Breaks, bound: int) {
    forall p :: next(p).Some? ==> p <= next(p).value < bound
  }

  /** The loop of `#computeMaximalPage` after `prev` was accepted: take the
      next break while the slice up to it does not overflow, the break moves
      and there is one. */
  function Extend(next: Breaks, overflows: Oracle, bound: int, start: int, prev: int): (e: int)
    requires Bounded(next, bound) && prev < bound
    decreases bound - prev
    ensures prev <= e < bound
    ensures next(e).None? || next(e) == Some(e) || overflows(Slice(start, next(e)))
    ensures e == prev || !overflows(Slice(start, Some(e)))
    ensures e == prev || exists q :: prev <= q < e && next(q) == Some(e)
  {
    var c := next(prev);
    if !overflows(Slice(start, c)) && c != Some(prev) && c.Some? then
      var e := Extend(next, overflows, bound, start, c.value);
      assert e == c.value ==> next(prev) == Some(e);
      e
    else prev
  }

  /** `#computeMaximalPage(start)`, as a function: the first break is
      accepted without measuring, each further one only if the slice up to
      the break after it still fits. */
  function MaximalPage(next: Breaks, overflows: Oracle, bound: int, start: int): (page: Page)
    requires Bounded(next, bound)
  {
    var first := next(start);
    if overflows(Empty) || first.None? then Page(start, start)
    else Page(start, Extend(next, overflows, bound, start, first.value))
  }

  /** A maximal page starts where asked, ends on a break after the start (or
      is the one-position page at the start), could not take the next break
      without overflowing, and every break it took beyond the first fitted. */
  lemma MaximalPageSpec(next: Breaks, overflows: Oracle, bound: int, start: int)
    requires Bounded(next, bound)
    ensures var page := MaximalPage(next, overflows, bound, start);
      && page.start == start <= page.end
      && (page.end == start || page.end < bound)
      && (overflows(Empty) || next(start).None? <==> page == Page(start, start) && !(next(start) == Some(start) && !overflows(Empty)))
      && (page.end != start ==> exists q :: start <= q < page.end && next(q) == Some(page.end))
      && (!overflows(Empty) && next(start).Some? ==>
            var after := next(page.end);
            after.None? || after == Some(page.end) || overflows(Slice(start, after)))
      && (!overflows(Empty) && next(start).Some? && page.end != next(start).value ==> !overflows(Slice(start, Some(page.end))))
  {
    var first := next(start);
    if !overflows(Empty) && first.Some? {
      var e := Extend(next, overflows, bound, start, first.value);
      if e != start && e == first.value {
        assert next(start) == Some(e);
      }
    }
  }

  /** A page never leaves a stretch `[start, hi]` that the breaks do not
      leave. */
  lemma MaximalPageStaysIn(next: Breaks, overflows: Oracle, bound: int, start: int, hi: int)
    requires Bounded(next, bound) && start <= hi
    requires forall p :: start <= p <= hi && next(p).Some? ==> next(p).value <= hi
    ensures MaximalPage(next, overflows, bound, start).end <= hi
  {
    var first := next(start);
    if !overflows(Empty) && first.Some? {
      ExtendStaysIn(next, overflows, bound, start, first.value, hi);
    }
  }

  lemma {:induction false} ExtendStaysIn(next: Breaks, overflows: Oracle, bound: int, start: int, prev: int, hi: int)
    requires Bounded(next, bound) && prev < bound && start <= prev <= hi
    requires forall p :: start <= p <= hi && next(p).Some? ==> next(p).value <= hi
    decreases bound - prev
    ensures Extend(next, overflows, bound, start, prev) <= hi
  {
    var c := next(prev);
    if !overflows(Slice(start, c)) && c != Some(prev) && c.Some? {
      ExtendStaysIn(next, overflows, bound, start, c.value, hi);
    }
  }

  /** `#computeMaximalPage(start)` as the source runs it. */
  method ComputeMaximalPage(next: Breaks, overflows: Oracle, bound: int, start: int) returns (page: Page)
    requires Bounded(next, bound)
    ensures page == MaximalPage(next, overflows, bound, start)
  {
    var previousEnd: Option<int> := None;
    var end := next(start);
    var shadow := Empty;
    while !overflows(shadow) && previousEnd != end && end.Some?
      invariant previousEnd.None? ==> end == next(start) && shadow == Empty
      invariant previousEnd.Some? ==>
        && !overflows(Empty) && next(start).Some?
        && previousEnd.value < bound
        && end == next(previousEnd.value) && shadow == Slice(start, end)
        && Extend(next, overflows, bound, start, previousEnd.value) == Extend(next, overflows, bound, start, next(start).value)
      decreases if previousEnd.None? then 1 else 0, if previousEnd.Some? then bound - previousEnd.value else 0
    {
      previousEnd := end;
      end := next(previousEnd.value);
      shadow := Slice(start, end);
    }
    if previousEnd.Some? {
      page := Page(start, previousEnd.value);
    } else {
      page := Page(start, start);
    }
  }

  // ---------------------------------------------------------------------------
  // #computePageFor / #getPageFor

  /** Maximal pages one after another: the first from `from`, each further
      one from one past the end of the page before. */
  ghost predicate PageRun(next: Breaks, overflows: Oracle, bound: int, from: int, pages: seq<Page>)
    requires Bounded(next, bound)
  {
    && |pages| > 0
    && pages[0] == MaximalPage(next, overflows, bound, from)
    && forall i :: 0 < i < |pages| ==> pages[i] == MaximalPage(next, overflows, bound, pages[i - 1].end + 1)
  }

  lemma {:induction false} PageRunIsConsecutive(next: Breaks, overflows: Oracle, bound: int, from: int, pages: seq<Page>)
    requires Bounded(next, bound) && PageRun(next, overflows, bound, from, pages)
    ensures Consecutive(pages, from)
  {
    forall i | 0 <= i < |pages| ensures pages[i].start <= pages[i].end {
      MaximalPageSpec(next, overflows, bound, if i == 0 then from else pages[i - 1].end + 1);
    }
    MaximalPageSpec(next, overflows, bound, from);
    forall i | 0 <= i < |pages| - 1 ensures pages[i + 1].start == pages[i].end + 1 {
      MaximalPageSpec(next, overflows, bound, pages[i].end + 1);
    }
  }

  /** One more page on a run that has not reached `position` yet. */
  lemma PageRunSnoc(next: Breaks, overflows: Oracle, bound: int, from: int, pages: seq<Page>, position: int)
    requires Bounded(next, bound) && PageRun(next, overflows, bound, from, pages)
    requires forall i :: 0 <= i < |pages| - 1 ==> !pages[i].Contains(position)
    requires !pages[|pages| - 1].Contains(position)
    ensures var pages' := pages + [MaximalPage(next, overflows, bound, pages[|pages| - 1].end + 1)];
      && PageRun(next, overflows, bound, from, pages') && Consecutive(pages', from)
      && forall i :: 0 <= i < |pages'| - 1 ==> !pages'[i].Contains(position)
  {
    var last := MaximalPage(next, overflows, bound, pages[|pages| - 1].end + 1);
    var pages' := pages + [last];
    assert forall i :: 0 <= i < |pages| ==> pages'[i] == pages[i];
    assert pages'[|pages|] == last;
    assert PageRun(next, overflows, bound, from, pages') by {
      forall i | 0 < i < |pages'|
        ensures pages'[i] == MaximalPage(next, overflows, bound, pages'[i - 1].end + 1)
      {
        if i < |pages| {
          assert pages'[i] == pages[i] && pages'[i - 1] == pages[i - 1];
        }
      }
    }
    PageRunIsConsecutive(next, overflows, bound, from, pages');
  }

  /** The loop of `#computePageFor(position)`: maximal pages one after
      another from `start`, each added to the cache, until one holds the
      position. The loop never ends for a position before `start`, so such
      positions are excluded. */
  method ComputePagesFrom(next: Breaks, overflows: Oracle, bound: int, cache: seq<Page>, start: int, position: int)
    returns (page: Page, cache': seq<Page>, added: seq<Page>)
    requires Bounded(next, bound) && start <= position
    ensures page.Contains(position)
    ensures PageRun(next, overflows, bound, start, added) && Consecutive(added, start)
    ensures cache' == cache + added && added[|added| - 1] == page
    ensures forall i :: 0 <= i < |added| - 1 ==> !added[i].Contains(position)
    ensures Covered(cache) && Resumes(cache, start) ==> Covered(cache') && GetEnd(cache') == page.end
    ensures Ordered(cache) && (forall i :: 0 <= i < |cache| ==> cache[i].end < start) ==> Ordered(cache')
  {
    page := ComputeMaximalPage(next, overflows, bound, start);
    added := [page];
    cache' := cache + [page];
    PageRunIsConsecutive(next, overflows, bound, start, added);
    while !page.Contains(position)
      invariant PageRun(next, overflows, bound, start, added) && Consecutive(added, start)
      invariant cache' == cache + added && added[|added| - 1] == page
      invariant forall i :: 0 <= i < |added| - 1 ==> !added[i].Contains(position)
      invariant page.start <= position
      decreases position - page.end
    {
      var newStart := page.end + 1;
      PageRunSnoc(next, overflows, bound, start, added, position);
      ghost var before := added;
      page := ComputeMaximalPage(next, overflows, bound, newStart);
      added := added + [page];
      cache' := cache' + [page];
      assert added == before + [MaximalPage(next, overflows, bound, before[|before| - 1].end + 1)];
    }
    if Covered(cache) && Resumes(cache, start) {
      CoveredExtends(cache, added, start);
    }
    if Ordered(cache) && (forall i :: 0 <= i < |cache| ==> cache[i].end < start) {
      AppendOrdered(cache, added, start);
    }
  }

  /** `#computePageFor(position)` as written: the pages start at
      `StartFor(cache)`. */
  method ComputePageFor(next: Breaks, overflows: Oracle, bound: int, cache: seq<Page>, position: int)
    returns (page: Page, cache': seq<Page>, added: seq<Page>)
    requires Bounded(next, bound) && StartFor(cache) <= position
    ensures page.Contains(position)
    ensures PageRun(next, overflows, bound, StartFor(cache), added) && Consecutive(added, StartFor(cache))
    ensures cache' == cache + added && added[|added| - 1] == page
    ensures forall i :: 0 <= i < |added| - 1 ==> !added[i].Contains(position)
    ensures Covered(cache) ==> Covered(cache') && GetEnd(cache') == page.end
    ensures Ordered(cache) && (cache == [] || GetEnd(cache) > 0) ==> Ordered(cache')
  {
    StartsResume(cache);
    page, cache', added := ComputePagesFrom(next, overflows, bound, cache, StartFor(cache), position);
  }

  /** With the start `StartFor` gives when every cached page ends at 0, the
      first computed page repeats the cached page `[0, 0]`: a one-position
      first page, which arises when the break after 0 is 0 itself (for
      instance a first document holding exactly one position, a body whose
      only leaf is one `<img/>`), is added to the cache a second time. */
  lemma RestartRepeatsFirstPage(next: Breaks, overflows: Oracle, bound: int, added: seq<Page>)
    requires Bounded(next, bound) && next(0) == Some(0) && !overflows(Empty)
    requires PageRun(next, overflows, bound, StartFor([Page(0, 0)]), added)
    ensures StartFor([Page(0, 0)]) == 0 && NextStart([Page(0, 0)]) == 1
    ensures ([Page(0, 0)] + added)[1] == ([Page(0, 0)] + added)[0] == Page(0, 0)
    ensures !Ordered([Page(0, 0)] + added)
  {
    assert GetEnd([Page(0, 0)]) == 0 by {
      assert [Page(0, 0)][..0] == [];
    }
    assert added[0] == MaximalPage(next, overflows, bound, 0);
    assert Extend(next, overflows, bound, 0, 0) == 0;
  }

  /** `#getPageFor(position)`: the cached page holding the position, else
      the page `#computePageFor` reaches. On a covered cache -- the empty
      one, and every cache this produces -- any position from 0 on gets a
      page that holds it. */
  method GetPageFor(next: Breaks, overflows: Oracle, bound: int, cache: seq<Page>, position: int)
    returns (page: Page, cache': seq<Page>)
    requires Bounded(next, bound) && Covered(cache) && 0 <= position
    ensures page.Contains(position)
    ensures Covered(cache') && |cache| <= |cache'| && cache'[..|cache|] == cache
    ensures CachedPageFor(cache, position).Some? ==> page == CachedPageFor(cache, position).value && cache' == cache
    ensures Ordered(cache) && (cache == [] || GetEnd(cache) > 0) ==> Ordered(cache')
  {
    var cached := CachedPageFor(cache, position);
    if cached.Some? {
      page := cached.value;
      cache' := cache;
    } else {
      assert cache == [] || position > GetEnd(cache);
      var added;
      page, cache', added := ComputePageFor(next, overflows, bound, cache, position);
      assert cache'[..|cache|] == cache;
    }
  }

  /** `#getPageFor(position)` with the start `NextStart`: besides answering
      as `GetPageFor` does, it keeps an ordered cache ordered, whatever the
      cached ends. */
  method GetPageForFixed(next: Breaks, overflows: Oracle, bound: int, cache: seq<Page>, position: int)
    returns (page: Page, cache': seq<Page>)
    requires Bounded(next, bound) && Covered(cache) && 0 <= position
    ensures page.Contains(position)
    ensures Covered(cache') && |cache| <= |cache'| && cache'[..|cache|] == cache
    ensures CachedPageFor(cache, position).Some? ==> page == CachedPageFor(cache, position).value && cache' == cache
    ensures Ordered(cache) ==> Ordered(cache')
  {
    var cached := CachedPageFor(cache, position);
    if cached.Some? {
      page := cached.value;
      cache' := cache;
    } else {
      assert cache == [] || position > GetEnd(cache);
      StartsResume(cache);
      var added;
      page, cache', added := ComputePagesFrom(next, overflows, bound, cache, NextStart(cache), position);
      assert cache'[..|cache|] == cache;
    }
  }

  lemma EmptyCacheIsCovered()
    ensures Covered([])
  {
  }

  // ---------------------------------------------------------------------------
  // Pages of a book

  /** The breaks of a tiled book never go back and stay inside the book. */
  lemma BookBreaksBounded(rs: seq<Resource>)
    requires Tiled(rs)
    ensures Bounded(p => FindSpaceAfterIn(rs, p), Size(rs))
  {
    forall p | FindSpaceAfterIn(rs, p).Some?
      ensures p <= FindSpaceAfterIn(rs, p).value < Size(rs)
    {
      FindSpaceAfterInSpec(rs, p);
    }
  }

  /** A page of a tiled book lies inside the document holding its start:
      no page spans two documents. */
  lemma BookPageWithinDocument(rs: seq<Resource>, overflows: Oracle, start: int)
    requires Tiled(rs) && 0 <= start < Size(rs)
    ensures Bounded(p => FindSpaceAfterIn(rs, p), Size(rs))
    ensures FirstContaining(rs, start).Some?
    ensures var n := rs[FirstContaining(rs, start).value].root;
      MaximalPage(p => FindSpaceAfterIn(rs, p), overflows, Size(rs), start).end <= n.end
  {
    var next: Breaks := p => FindSpaceAfterIn(rs, p);
    BookBreaksBounded(rs);
    TiledLocate(rs, start);
    var k := FirstContaining(rs, start).value;
    var n := rs[k].root;
    RootPlaced(rs, k);
    forall p | start <= p <= n.end && next(p).Some?
      ensures next(p).value <= n.end
    {
      TiledLocate(rs, p);
      assert Covers(rs[k].root, p);
      FindSpaceAfterInSpec(rs, p);
    }
    MaximalPageStaysIn(next, overflows, Size(rs), start, n.end);
  }

  /** A page of a tiled book that is more than its start ends on white space
      or at the end of a leaf of the document holding it. */
  lemma BookPageEndsOnBreak(rs: seq<Resource>, overflows: Oracle, start: int)
    requires Tiled(rs)
    ensures Bounded(p => FindSpaceAfterIn(rs, p), Size(rs))
    ensures var page := MaximalPage(p => FindSpaceAfterIn(rs, p), overflows, Size(rs), start);
      page.end != start ==>
        exists k :: 0 <= k < |rs| && Covers(rs[k].root, page.end)
          && (SpaceAt(rs[k].root, page.end) || LeafEndAt(rs[k].root, page.end))
  {
    var next: Breaks := p => FindSpaceAfterIn(rs, p);
    BookBreaksBounded(rs);
    MaximalPageSpec(next, overflows, Size(rs), start);
    var page := MaximalPage(next, overflows, Size(rs), start);
    if page.end != start {
      var q :| start <= q < page.end && next(q) == Some(page.end);
      FindSpaceAfterInSpec(rs, q);
      var k := FirstContaining(rs, q).value;
      assert Covers(rs[k].root, page.end);
    }
  }
}

=== FILE: paths.dfy ===
/** Path arithmetic and the file-type table of the reader
    (static/libs/reader.js): the folder of an archive path, joining a folder
    and a relative name, the MIME type of a file name, and the comic reader's
    page lookup. */
module Paths {
  import opened Wrappers
  import opened Text

  /** `getContextFolder(p)`: every `/`-separated segment but the last, joined
      again; "" when there is no `/`. */
  function ContextFolder(path: string): (r: string)
    ensures '/' !in path ==> r == []
    ensures |r| <= |path|
  {
    var elems := Split(path, '/');
    if |elems| > 1 then
      JoinSplit(path, '/');
      JoinSnoc(elems[..|elems| - 1], elems[|elems| - 1], '/');
      assert elems[..|elems| - 1] + [elems[|elems| - 1]] == elems;
      Join(elems[..|elems| - 1], '/')
    else []
  }

  /** The last `/`-separated segment: the file name. */
  function LastSegment(path: string): (r: string)
    ensures '/' !in r
  {
    var elems := Split(path, '/');
    elems[|elems| - 1]
  }

  /** `computeAbsolutePath(folder, name)`: no `..` or `.` is resolved. */
  function AbsolutePath(folder: string, name: string): (r: string)
    ensures folder == [] ==> r == name
    ensures folder != [] ==> |r| == |folder| + 1 + |name|
    ensures folder != [] ==> r[..|folder|] == folder && r[|folder|] == '/' && r[|folder| + 1..] == name
  {
    if |folder| > 0 then folder + "/" + name else name
  }

  lemma {:induction false} JoinStartsWithFirst(parts: seq<string>, sep: char)
    requires |parts| >= 1
    ensures |Join(parts, sep)| >= |parts[0]|
    ensures Join(parts, sep)[..|parts[0]|] == parts[0]
  {
  }

  /** A path that does not start with `/` is its folder joined with its file
      name again. */
  lemma FolderRoundTrip(path: string)
    requires path == [] || path[0] != '/'
    ensures AbsolutePath(ContextFolder(path), LastSegment(path)) == path
  {
    var elems := Split(path, '/');
    JoinSplit(path, '/');
    if |elems| > 1 {
      var init := elems[..|elems| - 1];
      JoinSnoc(init, elems[|elems| - 1], '/');
      assert init + [elems[|elems| - 1]] == elems;
      var k := IndexOfFrom(path, '/', 0).value;
      assert elems[0] == path[..k];
      assert k > 0;
      JoinStartsWithFirst(init, '/');
      assert |ContextFolder(path)| > 0;
    }
  }

  /** The one shape the round trip misses: a single leading `/`, whose
      folder is empty. */
  lemma LeadingSlashIsLost()
    ensures AbsolutePath(ContextFolder("/a"), LastSegment("/a")) == "a"
  {
    var p := "/a";
    assert IndexOfFrom(p, '/', 0) == Some(0);
    assert p[1..] == "a";
    assert IndexOfFrom("a", '/', 0) == None;
    assert Split("a", '/') == ["a"];
    assert Split(p, '/') == ["", "a"];
  }

  // ---------------------------------------------------------------------------
  // #getFileMimeType

  /** The lower-cased text after the last `.`, or the whole lower-cased name
      when it has no `.`. */
  function Extension(filename: string): (r: string)
    ensures '.' !in filename ==> r == ToLower(filename)
    ensures LastIndexOf(filename, '.') >= 0 ==> r == ToLower(filename[LastIndexOf(filename, '.') + 1..])
  {
    SubstringFrom(ToLower(filename), LastIndexOf(filename, '.') + 1)
  }

  /** The type `#getFileMimeType` gives an extension. */
  function MimeOfExtension(ext: string): string {
    if ext == "png" || ext == "jpeg" || ext == "avif" || ext == "bmp" || ext == "gif"
       || ext == "tiff" || ext == "webp" then "image/" + ext
    else if ext == "jpg" then "image/jpeg"
    else if ext == "tif" then "image/tiff"
    else if ext == "svg" then "image/svg+xml"
    else if ext == "ico" then "image/vnd.microsoft.icon"
    else "text/plain"
  }

  /** `#getFileMimeType(filename)`. */
  function MimeType(filename: string): string {
    MimeOfExtension(Extension(filename))
  }

  /** The table the function implements, as data. */
  const MimeTable: map<string, string> := map[
    "png" := "image/png", "jpeg" := "image/jpeg", "avif" := "image/avif", "bmp" := "image/bmp",
    "gif" := "image/gif", "tiff" := "image/tiff", "webp" := "image/webp",
    "jpg" := "image/jpeg", "tif" := "image/tiff", "svg" := "image/svg+xml",
    "ico" := "image/vnd.microsoft.icon"]

  /** The type of an extension is its table entry, `text/plain` for any
      extension not in the table. */
  lemma MimeTypeIsTable(ext: string)
    ensures MimeOfExtension(ext) == if ext in MimeTable then MimeTable[ext] else "text/plain"
  {
  }

  /** A dot with no dot after it starts the extension. */
  lemma ExtensionAfterDot(stem: string, ext: string)
    requires '.' !in ext
    ensures Extension(stem + "." + ext) == ToLower(ext)
  {
    var f := stem + "." + ext;
    var i := |stem|;
    assert f[i] == '.' && f[i + 1..] == ext;
    assert forall k :: i < k < |f| ==> f[k] == ext[k - i - 1];
  }

  /** The extension is compared case-insensitively. */
  lemma MimeTypeIgnoresCase(f: string)
    requires f == "Cover.JPG"
    ensures MimeType(f) == "image/jpeg"
  {
    assert f == "Cover" + "." + "JPG";
    ExtensionAfterDot("Cover", "JPG");
    var e := ToLower("JPG");
    assert e[0] == LowerChar('J') == 'j' && e[1] == LowerChar('P') == 'p' && e[2] == LowerChar('G') == 'g';
    assert e == "jpg";
  }

  /** Only the text after the last dot counts. */
  lemma MimeTypeUsesLastDot(f: string)
    requires f == "a.tar.png"
    ensures MimeType(f) == "image/png"
  {
    assert f == "a.tar" + "." + "png";
    ExtensionAfterDot("a.tar", "png");
    var e := ToLower("png");
    assert e[0] == 'p' && e[1] == 'n' && e[2] == 'g';
    assert e == "png";
  }

  /** A name without a dot is its own (unknown) extension. */
  lemma MimeTypeWithoutDot(f: string)
    requires f == "README"
    ensures MimeType(f) == "text/plain"
  {
    assert '.' !in f;
    var e := Extension(f);
    assert |e| == 6 && e[0] == 'r';
    assert e != "png" && e != "jpeg" && e != "avif" && e != "bmp" && e != "gif" && e != "tiff";
  }

  // ---------------------------------------------------------------------------
  // ComicWrapper

  /** `ComicWrapper.getContentsAt(position)`: the archive entry whose
      contents are read, or `None` outside `[0, size)`. The read itself is
      archive I/O and not part of this model. */
  function ComicEntryAt(files: seq<string>, position: int): (r: Option<string>)
    ensures r.Some? <==> 0 <= position < |files|
    ensures r.Some? ==> r.value in files
  {
    if position >= 0 && position < |files| then Some(files[position]) else None
  }
}

=== FILE: scanner.dfy ===
/** The single left-to-right markup scan shared by `EbookNode.#parseBody`
    (static/libs/bookNode.js) and `XmlNode.parse` (xml_parser/xml_parser.js).

    The source keeps a text buffer and a mutable "current node" cursor with
    parent pointers. Here the cursor is an explicit stack of open elements: the
    bottom entry is the root, the top entry is the current node, and an element
    is attached to its parent's children when it is closed (or when the scan
    ends). Closing the root itself leaves the source's cursor at `null`; the
    stack then keeps the root and is marked `detached`, and any later use of
    the cursor fails as the source's property access on `null` does. */
module Scanner {
  import opened Wrappers
  import opened Text
  import opened Tags

  /** The two tokenizers differ in their void-element test, their
      self-closing test, what happens to trailing text, and the root name. */
  datatype Dialect = Book | Xml

  function RootName(d: Dialect): string {
    match d
    case Book => "body"
    case Xml => "document"
  }

  /** `#isVoidElement` of each tokenizer, for a non-null name. */
  predicate IsVoid(d: Dialect, name: string) {
    match d
    case Book => ToLower(name) in BookVoidNames
    case Xml => ToLower(name) in XmlVoidNames || StartsWith(name, "!--")
  }

  /** `#isBothTag` of each tokenizer. */
  predicate IsSelfClosing(d: Dialect, s: string) {
    match d
    case Book => IsStrictSelfClosing(s)
    case Xml => IsLooseSelfClosing(s)
  }

  /** A parsed node. `opening` is the markup the node was created from (the
      tag, or the text of a text node); `merged` collects the explicit end tags
      of void elements appended to it later; the node's content is their
      concatenation. A `null` tag name is represented by the empty name, which
      no real tag has. */
  datatype Elem = Elem(name: string, opening: string, merged: string, children: seq<Elem>) {
    function Content(): string {
      opening + merged
    }
  }

  function TextElem(t: string): Elem {
    Elem("text", t, "", [])
  }

  function NameOrNull(name: Option<string>): string {
    match name
    case Some(n) => n
    case None => ""
  }

  datatype ParseError =
    | WildGt
    | IncompatibleEnd(name: string, current: string)
    | IncompatibleVoidEnd(name: string, last: string)
    | ShouldNotHappen
    | TypeError

  /** Scanner state: the open elements (root first), whether the root has been
      closed, and the characters accumulated since the last flush. */
  datatype Scan = Scan(open: seq<Elem>, detached: bool, buffer: string)

  predicate Valid(s: Scan) {
    |s.open| >= 1 && (s.detached ==> |s.open| == 1)
  }

  function Top(s: Scan): Elem
    requires Valid(s)
  {
    s.open[|s.open| - 1]
  }

  function Init(d: Dialect): (s: Scan)
    ensures Valid(s) && !s.detached && s.buffer == []
  {
    Scan([Elem(RootName(d), "", "", [])], false, "")
  }

  /** `current.#addChild(e)`. */
  function AddChild(s: Scan, e: Elem): (r: Result<Scan, ParseError>)
    requires Valid(s)
    ensures r.Ok? <==> !s.detached
    ensures r.Ok? ==> Valid(r.value) && |r.value.open| == |s.open| && r.value.buffer == s.buffer
    ensures r.Ok? ==> r.value.open[..|s.open| - 1] == s.open[..|s.open| - 1]
    ensures r.Ok? ==> Top(r.value) == Top(s).(children := Top(s).children + [e])
    ensures r.Err? ==> r.error == TypeError
  {
    if s.detached then Err(TypeError)
    else
      var top := Top(s);
      Ok(s.(open := s.open[..|s.open| - 1] + [top.(children := top.children + [e])]))
  }

  /** A start tag: appended to the current node, which it then replaces. */
  function Open(s: Scan, e: Elem): (r: Result<Scan, ParseError>)
    requires Valid(s)
    ensures r.Ok? <==> !s.detached
    ensures r.Ok? ==> Valid(r.value) && r.value.open == s.open + [e] && r.value.buffer == s.buffer
  {
    if s.detached then Err(TypeError)
    else Ok(s.(open := s.open + [e]))
  }

  /** Moving the cursor to the parent: the current element is finished and
      becomes the last child of its parent. Closing the root detaches the cursor. */
  function Close(s: Scan): (r: Scan)
    requires Valid(s) && !s.detached
    ensures Valid(r) && r.buffer == s.buffer
    ensures |s.open| == 1 ==> r.detached && r.open == s.open
    ensures |s.open| > 1 ==> !r.detached && |r.open| == |s.open| - 1
  {
    var n := |s.open|;
    if n == 1 then s.(detached := true)
    else
      var parent := s.open[n - 2];
      s.(open := s.open[..n - 2] + [parent.(children := parent.children + [s.open[n - 1]])])
  }

  /** An explicit end tag of a void element: appended to the content of the
      current node's last child, which must carry the same name. */
  function MergeVoidEnd(s: Scan, name: string, tag: string): (r: Result<Scan, ParseError>)
    requires Valid(s)
    ensures r.Ok? <==> !s.detached && |Top(s).children| > 0 && Top(s).children[|Top(s).children| - 1].name == name
    ensures r.Ok? ==> Valid(r.value) && |r.value.open| == |s.open| && r.value.buffer == s.buffer
  {
    if s.detached then Err(TypeError)
    else
      var top := Top(s);
      var n := |top.children|;
      if n == 0 then Err(TypeError)
      else
        var last := top.children[n - 1];
        if name != last.name then Err(IncompatibleVoidEnd(name, last.name))
        else
          var last' := last.(merged := last.merged + tag);
          Ok(s.(open := s.open[..|s.open| - 1] + [top.(children := top.children[..n - 1] + [last'])]))
  }

  /** A non-void end tag: it must name the current node, which it closes. */
  function CloseNamed(s: Scan, name: string): (r: Result<Scan, ParseError>)
    requires Valid(s)
    ensures r.Ok? <==> !s.detached && Top(s).name == name
    ensures r.Ok? ==> r.value == Close(s)
    ensures !s.detached && Top(s).name != name ==> r == Err(IncompatibleEnd(name, Top(s).name))
  {
    if s.detached then Err(TypeError)
    else if name != Top(s).name then Err(IncompatibleEnd(name, Top(s).name))
    else Ok(Close(s))
  }

  /** The handling of a complete tag `tag` (the buffer up to and including
      `>`), in the order of the source's tests. */
  function OnTag(d: Dialect, s: Scan, tag: string): (r: Result<Scan, ParseError>)
    requires Valid(s)
    ensures r.Ok? ==> Valid(r.value) && r.value.buffer == s.buffer
    ensures r.Err? ==> r.error != WildGt && r.error != ShouldNotHappen
  {
    var name := GetTagName(tag);
    if IsEndTag(tag) then
      if name.None? then Err(TypeError)
      else if IsVoid(d, name.value) then MergeVoidEnd(s, name.value, tag)
      else CloseNamed(s, name.value)
    else if IsSelfClosing(d, tag) then AddChild(s, Elem(NameOrNull(name), tag, "", []))
    else if name.None? then Err(TypeError)
    else if IsVoid(d, name.value) then AddChild(s, Elem(name.value, tag, "", []))
    else Open(s, Elem(name.value, tag, "", []))
  }

  /** On `<`: pending text becomes a text child of the current node. */
  function FlushText(s: Scan): (r: Result<Scan, ParseError>)
    requires Valid(s)
    ensures r.Ok? ==> Valid(r.value) && r.value.buffer == []
  {
    if IsTag(s.buffer) then Err(ShouldNotHappen)
    else if |s.buffer| > 0 then
      var s' :- AddChild(s, TextElem(s.buffer));
      Ok(s'.(buffer := []))
    else Ok(s)
  }

  /** One iteration of the scan loop for the character `c`. */
  function Step(d: Dialect, s: Scan, c: char): (r: Result<Scan, ParseError>)
    requires Valid(s)
    ensures r.Ok? ==> Valid(r.value)
  {
    var s1 :- if c == '<' then FlushText(s) else Ok(s);
    var buf := s1.buffer + [c];
    if c != '>' then Ok(s1.(buffer := buf))
    else if !IsTag(buf) then Err(WildGt)
    else
      var s2 :- OnTag(d, s1, buf);
      Ok(s2.(buffer := []))
  }

  /** The state after scanning all of `text`, or the first error. */
  function ScanText(d: Dialect, text: string): (r: Result<Scan, ParseError>)
    decreases |text|
    ensures r.Ok? ==> Valid(r.value)
  {
    if text == [] then Ok(Init(d))
    else
      var s :- ScanText(d, text[..|text| - 1]);
      Step(d, s, text[|text| - 1])
  }

  /** The root with every still-open element attached to its parent: unclosed
      elements are accepted silently. */
  function Assemble(open: seq<Elem>): Elem
    requires |open| >= 1
    decreases |open|
  {
    if |open| == 1 then open[0]
    else
      var n := |open|;
      Assemble(open[..n - 2] + [open[n - 2].(children := open[n - 2].children + [open[n - 1]])])
  }

  /** After the loop: the book tokenizer flushes remaining text into the
      current node; the XML tokenizer has no such step and drops it. */
  function Finish(d: Dialect, s: Scan): Result<Elem, ParseError>
    requires Valid(s)
  {
    match d
    case Book =>
      if |s.buffer| > 0 then
        if IsTag(s.buffer) then Err(ShouldNotHappen)
        else
          var s' :- AddChild(s, TextElem(s.buffer));
          Ok(Assemble(s'.open))
      else Ok(Assemble(s.open))
    case Xml => Ok(Assemble(s.open))
  }

  function Parse(d: Dialect, text: string): Result<Elem, ParseError> {
    var s :- ScanText(d, text);
    Finish(d, s)
  }

  // ---------------------------------------------------------------------------
  // The buffer invariant and the unreachable "this should not happen" throws

  /** Between steps the buffer holds no `>` and no `<` after its first
      character: it is plain text, or an unfinished tag. */
  predicate BufferShape(b: string) {
    forall k :: 0 <= k < |b| ==> b[k] != '>' && (k > 0 ==> b[k] != '<')
  }

  lemma BufferShapeIsNotTag(b: string)
    requires BufferShape(b)
    ensures !IsTag(b)
  {
    if |b| > 0 {
      assert b[|b| - 1] != '>';
    }
  }

  lemma StepKeepsShape(d: Dialect, s: Scan, c: char)
    requires Valid(s) && BufferShape(s.buffer)
    ensures Step(d, s, c).Ok? ==> BufferShape(Step(d, s, c).value.buffer)
    ensures Step(d, s, c) != Err(ShouldNotHappen)
  {
    BufferShapeIsNotTag(s.buffer);
  }

  /** Every state the scan reaches has a well-shaped buffer, and the scan never
      reports "this should not happen". */
  lemma {:induction false} ScanShape(d: Dialect, text: string)
    decreases |text|
    ensures ScanText(d, text).Ok? ==> BufferShape(ScanText(d, text).value.buffer)
    ensures ScanText(d, text) != Err(ShouldNotHappen)
  {
    if text != [] {
      ScanShape(d, text[..|text| - 1]);
      var r := ScanText(d, text[..|text| - 1]);
      if r.Ok? {
        StepKeepsShape(d, r.value, text[|text| - 1]);
      }
    }
  }

  /** Both "this should not happen" throws are unreachable: at every `<` and at
      the end of the input the buffer cannot be a complete tag, because every
      `>` either resets the buffer or raises "wild > encountered". */
  lemma NeverShouldNotHappen(d: Dialect, text: string)
    ensures Parse(d, text) != Err(ShouldNotHappen)
  {
    ScanShape(d, text);
    var r := ScanText(d, text);
    if r.Ok? {
      BufferShapeIsNotTag(r.value.buffer);
    }
  }

  // ---------------------------------------------------------------------------
  // The root

  /** The bottom of the stack is the root node the tokenizer created. */
  predicate RootKept(d: Dialect, s: Scan) {
    |s.open| >= 1 && s.open[0].name == RootName(d) && s.open[0].opening == [] && s.open[0].merged == []
  }

  /** Replacing the top entry by one with the same name and markup when it is
      the root keeps the root. */
  lemma ReplaceTopKeepsRoot(d: Dialect, s: Scan, top: Elem)
    requires Valid(s) && RootKept(d, s)
    requires top.name == Top(s).name && top.opening == Top(s).opening && top.merged == Top(s).merged
    ensures RootKept(d, s.(open := s.open[..|s.open| - 1] + [top]))
  {
    var o := s.open[..|s.open| - 1] + [top];
    if |s.open| > 1 {
      assert o[0] == s.open[0];
    }
  }

  lemma OnTagKeepsRoot(d: Dialect, s: Scan, tag: string)
    requires Valid(s) && RootKept(d, s)
    ensures OnTag(d, s, tag).Ok? ==> RootKept(d, OnTag(d, s, tag).value)
  {
    var r := OnTag(d, s, tag);
    if r.Ok? && !s.detached {
      var top := Top(s);
      var name := GetTagName(tag);
      if IsEndTag(tag) {
        if IsVoid(d, name.value) {
          var n := |top.children|;
          var last := top.children[n - 1];
          ReplaceTopKeepsRoot(d, s, top.(children := top.children[..n - 1] + [last.(merged := last.merged + tag)]));
        } else if |s.open| > 1 {
          var m := |s.open|;
          var parent := s.open[m - 2];
          var o := s.open[..m - 2] + [parent.(children := parent.children + [s.open[m - 1]])];
          assert o[0].name == s.open[0].name && o[0].opening == s.open[0].opening && o[0].merged == s.open[0].merged;
        }
      } else if IsSelfClosing(d, tag) {
        ReplaceTopKeepsRoot(d, s, top.(children := top.children + [Elem(NameOrNull(name), tag, "", [])]));
      } else if IsVoid(d, name.value) {
        ReplaceTopKeepsRoot(d, s, top.(children := top.children + [Elem(name.value, tag, "", [])]));
      } else {
        assert (s.open + [Elem(name.value, tag, "", [])])[0] == s.open[0];
      }
    }
  }

  lemma StepKeepsRoot(d: Dialect, s: Scan, c: char)
    requires Valid(s) && RootKept(d, s)
    ensures Step(d, s, c).Ok? ==> RootKept(d, Step(d, s, c).value)
  {
    var s1 := if c == '<' then FlushText(s) else Ok(s);
    if c == '<' && s1.Ok? && |s.buffer| > 0 && !IsTag(s.buffer) {
      ReplaceTopKeepsRoot(d, s, Top(s).(children := Top(s).children + [TextElem(s.buffer)]));
    }
    if s1.Ok? {
      assert RootKept(d, s1.value);
      var buf := s1.value.buffer + [c];
      if c == '>' && IsTag(buf) {
        OnTagKeepsRoot(d, s1.value, buf);
      }
    }
  }

  lemma {:induction false} ScanKeepsRoot(d: Dialect, text: string)
    decreases |text|
    ensures ScanText(d, text).Ok? ==> RootKept(d, ScanText(d, text).value)
  {
    if text != [] {
      ScanKeepsRoot(d, text[..|text| - 1]);
      var r := ScanText(d, text[..|text| - 1]);
      if r.Ok? {
        StepKeepsRoot(d, r.value, text[|text| - 1]);
      }
    }
  }

  /** Assembling the open elements keeps the root's name and markup. */
  lemma {:induction false} AssembleKeepsRoot(open: seq<Elem>)
    requires |open| >= 1
    decreases |open|
    ensures Assemble(open).name == open[0].name && Assemble(open).opening == open[0].opening
    ensures Assemble(open).merged == open[0].merged
  {
    if |open| > 1 {
      var n := |open|;
      var next := open[..n - 2] + [open[n - 2].(children := open[n - 2].children + [open[n - 1]])];
      AssembleKeepsRoot(next);
      assert next[0].name == open[0].name && next[0].opening == open[0].opening;
    }
  }

  /** The tree a successful parse returns is rooted at the tokenizer's root
      node (`body` or `document`) with empty content. */
  lemma ParseRoot(d: Dialect, text: string)
    ensures Parse(d, text).Ok? ==> var e := Parse(d, text).value;
      e.name == RootName(d) && e.opening == [] && e.merged == []
  {
    ScanKeepsRoot(d, text);
    var r := ScanText(d, text);
    if r.Ok? {
      var s := r.value;
      AssembleKeepsRoot(s.open);
      if d == Book && |s.buffer| > 0 && !IsTag(s.buffer) && !s.detached {
        var s' := AddChild(s, TextElem(s.buffer)).value;
        assert RootKept(d, s');
        AssembleKeepsRoot(s'.open);
      }
    }
  }

  // ---------------------------------------------------------------------------
  // The per-character rules

  /** A `>` is wild exactly when the pending buffer is not an opened tag with
      at least one character after its `<`: text containing `>`, or `<>`. */
  lemma WildGtExactly(d: Dialect, s: Scan)
    requires Valid(s) && BufferShape(s.buffer)
    ensures Step(d, s, '>') == Err(WildGt) <==> !(|s.buffer| >= 2 && s.buffer[0] == '<')
  {
    var buf := s.buffer + ">";
    if |s.buffer| >= 2 && s.buffer[0] == '<' {
      assert IsTag(buf);
    } else {
      assert !IsTag(buf);
    }
  }

  /** Characters other than `<` and `>` only accumulate. */
  lemma PlainCharAccumulates(d: Dialect, s: Scan, c: char)
    requires Valid(s) && c != '<' && c != '>'
    ensures Step(d, s, c) == Ok(s.(buffer := s.buffer + [c]))
  {
  }

  /** On `<`, non-empty pending text becomes a `text` child of the current
      node, and the buffer restarts with the `<`. */
  lemma LessThanFlushesText(d: Dialect, s: Scan)
    requires Valid(s) && BufferShape(s.buffer) && |s.buffer| > 0 && !s.detached
    ensures Step(d, s, '<').Ok?
    ensures var r := Step(d, s, '<').value;
      && r.buffer == "<" && |r.open| == |s.open|
      && r.open[..|s.open| - 1] == s.open[..|s.open| - 1]
      && Top(r) == Top(s).(children := Top(s).children + [TextElem(s.buffer)])
  {
    BufferShapeIsNotTag(s.buffer);
  }

  /** The outcome of the `>` that completes the tag `s.buffer + ">"`. */
  function TagAt(s: Scan): string {
    s.buffer + ">"
  }

  predicate CompletesTag(s: Scan) {
    Valid(s) && BufferShape(s.buffer) && IsTag(TagAt(s))
  }

  /** A start tag that is neither void nor self-closing is appended to the
      current node and becomes the new current node. */
  lemma StartTagDescends(d: Dialect, s: Scan, name: string)
    requires CompletesTag(s) && !s.detached
    requires !IsEndTag(TagAt(s)) && !IsSelfClosing(d, TagAt(s))
    requires GetTagName(TagAt(s)) == Some(name) && !IsVoid(d, name)
    ensures Step(d, s, '>') == Ok(Scan(s.open + [Elem(name, TagAt(s), "", [])], false, []))
  {
  }

  /** A void or self-closing start tag is appended without descending. */
  lemma VoidTagStays(d: Dialect, s: Scan)
    requires CompletesTag(s) && !s.detached && !IsEndTag(TagAt(s))
    requires IsSelfClosing(d, TagAt(s)) || (GetTagName(TagAt(s)).Some? && IsVoid(d, GetTagName(TagAt(s)).value))
    ensures Step(d, s, '>').Ok?
    ensures var r := Step(d, s, '>').value;
      && r.buffer == [] && |r.open| == |s.open| && !r.detached
      && r.open[..|s.open| - 1] == s.open[..|s.open| - 1]
      && Top(r).children == Top(s).children + [Elem(NameOrNull(GetTagName(TagAt(s))), TagAt(s), "", [])]
  {
  }

  /** A non-void end tag must name the current node ("incompatible end tag"
      otherwise); on a match the cursor moves to the parent. */
  lemma EndTagCloses(d: Dialect, s: Scan, name: string)
    requires CompletesTag(s) && IsEndTag(TagAt(s))
    requires GetTagName(TagAt(s)) == Some(name) && !IsVoid(d, name) && !s.detached
    ensures Top(s).name == name ==> Step(d, s, '>') == Ok(Close(s).(buffer := []))
    ensures Top(s).name != name ==> Step(d, s, '>') == Err(IncompatibleEnd(name, Top(s).name))
  {
  }

  /** A void end tag is appended to the content of the current node's last
      child when the names match, and is an error otherwise. */
  lemma VoidEndTagMerges(d: Dialect, s: Scan, name: string)
    requires CompletesTag(s) && IsEndTag(TagAt(s))
    requires GetTagName(TagAt(s)) == Some(name) && IsVoid(d, name) && !s.detached
    requires |Top(s).children| > 0
    ensures var last := Top(s).children[|Top(s).children| - 1];
      && (last.name == name ==>
           && Step(d, s, '>').Ok?
           && var r := Step(d, s, '>').value;
             && |r.open| == |s.open| && r.buffer == [] && !r.detached
             && r.open[..|s.open| - 1] == s.open[..|s.open| - 1]
             && Top(r) == Top(s).(children := Top(s).children[..|Top(s).children| - 1]
                                               + [last.(merged := last.merged + TagAt(s))]))
      && (last.name != name ==> Step(d, s, '>') == Err(IncompatibleVoidEnd(name, last.name)))
  {
  }

  // ---------------------------------------------------------------------------
  // Trailing text

  /** Text without `<` and `>` only extends the buffer. */
  lemma {:induction false} PlainTextAccumulates(d: Dialect, text: string, t: string)
    requires forall k :: 0 <= k < |t| ==> t[k] != '<' && t[k] != '>'
    decreases |t|
    ensures ScanText(d, text).Ok? ==>
      ScanText(d, text + t) == Ok(ScanText(d, text).value.(buffer := ScanText(d, text).value.buffer + t))
    ensures ScanText(d, text).Err? ==> ScanText(d, text + t) == ScanText(d, text)
  {
    if t == [] {
      assert text + t == text;
      var r := ScanText(d, text);
      if r.Ok? {
        assert r.value.buffer + t == r.value.buffer;
      }
    } else {
      var u := t[..|t| - 1];
      PlainTextAccumulates(d, text, u);
      assert (text + t)[..|text + t| - 1] == text + u;
      assert (text + t)[|text + t| - 1] == t[|t| - 1];
      assert u + [t[|t| - 1]] == t;
      var r := ScanText(d, text);
      if r.Ok? {
        var s := r.value;
        PlainCharAccumulates(d, s.(buffer := s.buffer + u), t[|t| - 1]);
        assert (s.buffer + u) + [t[|t| - 1]] == s.buffer + t;
      }
    }
  }

  /** The XML tokenizer discards text after the last `>`: appending such text
      never changes the result. */
  lemma XmlDropsTrailingText(text: string, t: string)
    requires forall k :: 0 <= k < |t| ==> t[k] != '<' && t[k] != '>'
    ensures Parse(Xml, text + t) == Parse(Xml, text)
  {
    PlainTextAccumulates(Xml, text, t);
  }

  /** The book tokenizer keeps it: after a scan that ended right after a tag,
      trailing text becomes the last child of the current node. */
  lemma BookKeepsTrailingText(text: string, t: string)
    requires forall k :: 0 <= k < |t| ==> t[k] != '<' && t[k] != '>'
    requires |t| > 0
    requires ScanText(Book, text).Ok? && ScanText(Book, text).value.buffer == []
    requires !ScanText(Book, text).value.detached
    ensures var s := ScanText(Book, text).value;
      Parse(Book, text + t) == Ok(Assemble(s.open[..|s.open| - 1] + [Top(s).(children := Top(s).children + [TextElem(t)])]))
  {
    PlainTextAccumulates(Book, text, t);
    var s := ScanText(Book, text).value;
    assert s.(buffer := s.buffer + t).buffer == t;
    assert t[|t| - 1] != '>';
  }

  // ---------------------------------------------------------------------------
  // Every node below the root carries markup

  /** The node and every node below it has non-empty content: a text node
      is only created from pending text, and an element from its tag. */
  ghost predicate Marked(e: Elem)
    decreases e
  {
    |e.Content()| > 0 && forall i :: 0 <= i < |e.children| ==> Marked(e.children[i])
  }

  ghost predicate ChildrenMarked(e: Elem) {
    forall i :: 0 <= i < |e.children| ==> Marked(e.children[i])
  }

  /** The open elements: all carry marked children, and all but the root
      carry markup of their own. */
  ghost predicate StackMarked(open: seq<Elem>) {
    forall i :: 0 <= i < |open| ==> ChildrenMarked(open[i]) && (i > 0 ==> |open[i].Content()| > 0)
  }

  /** Appending a marked child to the top keeps the stack marked. */
  lemma AppendChildMarked(open: seq<Elem>, e: Elem)
    requires |open| >= 1 && StackMarked(open) && Marked(e)
    ensures var top := open[|open| - 1];
      StackMarked(open[..|open| - 1] + [top.(children := top.children + [e])])
  {
    var top := open[|open| - 1];
    var o := open[..|open| - 1] + [top.(children := top.children + [e])];
    assert forall i :: 0 <= i < |open| - 1 ==> o[i] == open[i];
  }

  lemma AddChildMarked(s: Scan, e: Elem)
    requires Valid(s) && StackMarked(s.open) && Marked(e)
    ensures AddChild(s, e).Ok? ==> StackMarked(AddChild(s, e).value.open)
  {
    AppendChildMarked(s.open, e);
  }

  lemma CloseMarked(s: Scan)
    requires Valid(s) && !s.detached && StackMarked(s.open)
    ensures StackMarked(Close(s).open)
  {
    if |s.open| > 1 {
      AppendChildMarked(s.open[..|s.open| - 1], s.open[|s.open| - 1]);
      assert s.open[..|s.open| - 1][..|s.open| - 2] == s.open[..|s.open| - 2];
    }
  }

  lemma MergeVoidEndMarked(s: Scan, name: string, tag: string)
    requires Valid(s) && StackMarked(s.open)
    ensures MergeVoidEnd(s, name, tag).Ok? ==> StackMarked(MergeVoidEnd(s, name, tag).value.open)
  {
    if MergeVoidEnd(s, name, tag).Ok? {
      var top := Top(s);
      var n := |top.children|;
      var last := top.children[n - 1];
      var last' := last.(merged := last.merged + tag);
      assert Marked(last');
      var top' := top.(children := top.children[..n - 1] + [last']);
      assert ChildrenMarked(top');
      var o := s.open[..|s.open| - 1] + [top'];
      assert forall i :: 0 <= i < |s.open| - 1 ==> o[i] == s.open[i];
    }
  }

  lemma OnTagMarked(d: Dialect, s: Scan, tag: string)
    requires Valid(s) && StackMarked(s.open) && |tag| > 0
    ensures OnTag(d, s, tag).Ok? ==> StackMarked(OnTag(d, s, tag).value.open)
  {
    var name := GetTagName(tag);
    if IsEndTag(tag) {
      if name.Some? {
        if IsVoid(d, name.value) {
          MergeVoidEndMarked(s, name.value, tag);
        } else if !s.detached && Top(s).name == name.value {
          CloseMarked(s);
        }
      }
    } else if IsSelfClosing(d, tag) {
      AddChildMarked(s, Elem(NameOrNull(name), tag, "", []));
    } else if name.Some? {
      if IsVoid(d, name.value) {
        AddChildMarked(s, Elem(name.value, tag, "", []));
      } else {
        var e := Elem(name.value, tag, "", []);
        assert forall i :: 0 <= i < |s.open| ==> (s.open + [e])[i] == s.open[i];
      }
    }
  }

  lemma FlushTextMarked(s: Scan)
    requires Valid(s) && StackMarked(s.open)
    ensures FlushText(s).Ok? ==> StackMarked(FlushText(s).value.open)
  {
    if |s.buffer| > 0 {
      AddChildMarked(s, TextElem(s.buffer));
    }
  }

  lemma StepMarked(d: Dialect, s: Scan, c: char)
    requires Valid(s) && StackMarked(s.open)
    ensures Step(d, s, c).Ok? ==> StackMarked(Step(d, s, c).value.open)
  {
    if c == '<' {
      FlushTextMarked(s);
    }
    var s1 := if c == '<' then FlushText(s) else Ok(s);
    if s1.Ok? && c == '>' {
      OnTagMarked(d, s1.value, s1.value.buffer + [c]);
    }
  }

  lemma {:induction false} ScanMarked(d: Dialect, text: string)
    decreases |text|
    ensures ScanText(d, text).Ok? ==> StackMarked(ScanText(d, text).value.open)
  {
    if text != [] {
      ScanMarked(d, text[..|text| - 1]);
      var r := ScanText(d, text[..|text| - 1]);
      if r.Ok? {
        StepMarked(d, r.value, text[|text| - 1]);
      }
    }
  }

  lemma {:induction false} AssembleMarked(open: seq<Elem>)
    requires |open| >= 1 && StackMarked(open)
    decreases |open|
    ensures ChildrenMarked(Assemble(open))
  {
    if |open| > 1 {
      var n := |open|;
      AppendChildMarked(open[..n - 1], open[n - 1]);
      assert open[..n - 1][..n - 2] == open[..n - 2];
      AssembleMarked(open[..n - 2] + [open[n - 2].(children := open[n - 2].children + [open[n - 1]])]);
    }
  }

  /** Every node of a parsed tree below its root has non-empty content. */
  lemma ParseMarked(d: Dialect, text: string)
    ensures Parse(d, text).Ok? ==> ChildrenMarked(Parse(d, text).value)
  {
    ScanMarked(d, text);
    var r := ScanText(d, text);
    if r.Ok? {
      var s := r.value;
      AssembleMarked(s.open);
      if d == Book && |s.buffer| > 0 {
        AddChildMarked(s, TextElem(s.buffer));
        if AddChild(s, TextElem(s.buffer)).Ok? {
          AssembleMarked(AddChild(s, TextElem(s.buffer)).value.open);
        }
      }
    }
  }
}

=== FILE: spine.dfy ===
/** The ebook reader's view of a whole book (`EbookWrapper` in
    static/libs/reader.js): every document of the spine parsed into a node
    tree, the trees numbered one after another, and the queries that work
    across documents -- the size, the contents between two positions, the next
    break after a position and the position a link points at. */
module Spine {
  import opened Wrappers
  import opened Text
  import opened Scanner
  import opened BookNode
  import opened BookQueries
  import opened BookNavigation
  import opened Paths

  /** One entry of `this.nodes`: a spine document and its parsed root. */
  datatype Resource = Resource(path: string, root: Node)

  /** The failures of loading a book; `NullReference` is the TypeError the
      source raises when it dereferences a missing node or a `null` result. */
  datatype ReaderError =
    | MissingFile(path: string)
    | NoBody(path: string)
    | Markup(path: string, error: ParseError)
    | NullReference

  function Keys(rs: seq<Resource>): (ks: seq<string>)
    ensures |ks| == |rs|
    ensures forall k :: 0 <= k < |rs| ==> ks[k] == rs[k].path
  {
    if rs == [] then [] else [rs[0].path] + Keys(rs[1..])
  }

  function Roots(rs: seq<Resource>): (ns: seq<Node>)
    ensures |ns| == |rs|
    ensures forall k :: 0 <= k < |rs| ==> ns[k] == rs[k].root
  {
    if rs == [] then [] else [rs[0].root] + Roots(rs[1..])
  }

  predicate Distinct(ks: seq<string>) {
    forall i, j :: 0 <= i < j < |ks| ==> ks[i] != ks[j]
  }

  /** `this.nodes[path]`: `None` is `undefined`. */
  function Lookup(rs: seq<Resource>, path: string): (r: Option<Node>)
    ensures r.Some? <==> path in Keys(rs)
  {
    if rs == [] then None
    else if rs[0].path == path then Some(rs[0].root)
    else Lookup(rs[1..], path)
  }

  /** `this.nodes[path] = root`: an existing key keeps its place and gets
      the new value, a new key goes last. */
  function Assign(rs: seq<Resource>, path: string, root: Node): seq<Resource> {
    if rs == [] then [Resource(path, root)]
    else if rs[0].path == path then [Resource(path, root)] + rs[1..]
    else [rs[0]] + Assign(rs[1..], path, root)
  }

  /** Assignment to a present key keeps the keys; to a new key appends. */
  lemma {:induction false} AssignShape(rs: seq<Resource>, path: string, root: Node)
    ensures path in Keys(rs) ==> Keys(Assign(rs, path, root)) == Keys(rs)
    ensures path !in Keys(rs) ==> Assign(rs, path, root) == rs + [Resource(path, root)]
  {
    if rs != [] && rs[0].path != path {
      AssignShape(rs[1..], path, root);
      assert Keys(rs) == [rs[0].path] + Keys(rs[1..]);
      assert Keys(Assign(rs, path, root)) == [rs[0].path] + Keys(Assign(rs[1..], path, root)) by {
        assert Assign(rs, path, root) == [rs[0]] + Assign(rs[1..], path, root);
      }
      assert [rs[0]] + (rs[1..] + [Resource(path, root)]) == rs + [Resource(path, root)];
    }
  }

  /** Assignment is what a later lookup sees, and nothing else changes. */
  lemma {:induction false} LookupAssign(rs: seq<Resource>, path: string, root: Node, q: string)
    ensures Lookup(Assign(rs, path, root), q) == if q == path then Some(root) else Lookup(rs, q)
  {
    if rs != [] && rs[0].path != path {
      LookupAssign(rs[1..], path, root, q);
    }
  }

  lemma {:induction false} AssignKeepsDistinct(rs: seq<Resource>, path: string, root: Node)
    requires Distinct(Keys(rs))
    ensures Distinct(Keys(Assign(rs, path, root)))
  {
    AssignShape(rs, path, root);
    if path !in Keys(rs) {
      assert Keys(rs + [Resource(path, root)]) == Keys(rs) + [path];
    }
  }

  // ---------------------------------------------------------------------------
  // #getNodes / #getResourceNode

  /** A document parser as `#getResourceNode` uses it: the text of a
      document and an entrance position to the body numbered from there, or
      `None` when there is no body. */
  type Parser = (string, int) -> Result<Option<Node>, ParseError>

  /** What the parser promises about the body it returns. */
  ghost predicate ParsesBodies(parse: Parser) {
    forall text, entrance :: parse(text, entrance).Ok? && parse(text, entrance).value.Some? ==>
      var n := parse(text, entrance).value.value;
      Laid(n) && Collapsed(n) && ChildrenNonEmpty(n) && n.start == entrance && n.name == "body"
  }

  lemma ParseHtmlParsesBodies()
    ensures ParsesBodies(ParseHtml)
  {
  }

  /** `#getResourceNode(path, entrance)`: the body of the document at `path`,
      numbered from `entrance`. A document without a body makes the caller
      fail on `resourceNode.end`. */
  function LoadResource(parse: Parser, archive: map<string, string>, path: string, entrance: int)
    : (r: Result<Node, ReaderError>)
    ensures ParsesBodies(parse) && r.Ok? ==>
      Laid(r.value) && Collapsed(r.value) && ChildrenNonEmpty(r.value) && r.value.start == entrance
      && r.value.name == "body"
    ensures r == Err(MissingFile(path)) <==> path !in archive
  {
    if path !in archive then Err(MissingFile(path))
    else match parse(archive[path], entrance)
      case Err(e) => Err(Markup(path, e))
      case Ok(None) => Err(NoBody(path))
      case Ok(Some(n)) => Ok(n)
  }

  /** The documents of the spine parsed in order, each numbered from one
      past the end of the one before; the first failure ends the loop. */
  function LoadAll(parse: Parser, archive: map<string, string>, spine: seq<string>, entrance: int)
    : (r: Result<seq<Resource>, ReaderError>)
    decreases |spine|
    ensures r.Ok? ==> Keys(r.value) == spine
    ensures r.Ok? && spine != [] && ParsesBodies(parse) ==> r.value[0].root.start == entrance
    ensures r.Ok? && ParsesBodies(parse) ==> Loaded(r.value)
    ensures r.Ok? && ParsesBodies(parse) ==>
      forall k :: 0 <= k < |r.value| - 1 ==> r.value[k + 1].root.start == r.value[k].root.end + 1
  {
    if spine == [] then Ok([])
    else
      var root :- LoadResource(parse, archive, spine[0], entrance);
      var rest :- LoadAll(parse, archive, spine[1..], root.end + 1);
      assert Keys([Resource(spine[0], root)] + rest) == [spine[0]] + Keys(rest);
      Ok([Resource(spine[0], root)] + rest)
  }

  /** `this.nodes[path] = root` for each loaded document in turn. */
  function AssignAll(acc: seq<Resource>, loads: seq<Resource>): (r: seq<Resource>)
    decreases |loads|
  {
    if loads == [] then acc else AssignAll(Assign(acc, loads[0].path, loads[0].root), loads[1..])
  }

  /** `#getNodes()`. */
  function GetNodes(archive: map<string, string>, spine: seq<string>): Result<seq<Resource>, ReaderError> {
    var loads :- LoadAll(ParseHtml, archive, spine, 0);
    Ok(AssignAll([], loads))
  }

  /** Every root came out of the parser. */
  ghost predicate Loaded(rs: seq<Resource>) {
    forall k :: 0 <= k < |rs| ==> ParsedRoot(rs[k].root)
  }

  /** What the parser promises about a body it returns. */
  ghost predicate ParsedRoot(n: Node) {
    Laid(n) && Collapsed(n) && ChildrenNonEmpty(n) && n.name == "body"
  }

  /** The roots tile the positions from 0 on, one after another. */
  predicate Tiles(rs: seq<Resource>) {
    && (|rs| > 0 ==> rs[0].root.start == 0)
    && forall k :: 0 <= k < |rs| - 1 ==> rs[k + 1].root.start == rs[k].root.end + 1
  }

  /** A spine file missing from the archive makes loading fail. */
  lemma {:induction false} LoadAllMissing(parse: Parser, archive: map<string, string>, spine: seq<string>, entrance: int, q: string)
    requires q in spine && q !in archive
    decreases |spine|
    ensures LoadAll(parse, archive, spine, entrance).Err?
  {
    var l := LoadResource(parse, archive, spine[0], entrance);
    if spine[0] == q {
      assert l == Err(MissingFile(q));
    } else {
      var rest := spine[1..];
      assert q in rest;
      if l.Ok? {
        LoadAllMissing(parse, archive, rest, l.value.end + 1, q);
      }
    }
  }

  /** A missing file that is reported is one of the spine's. */
  lemma {:induction false} LoadAllReportsMissing(parse: Parser, archive: map<string, string>, spine: seq<string>, entrance: int)
    decreases |spine|
    ensures var r := LoadAll(parse, archive, spine, entrance);
      r.Err? && r.error.MissingFile? ==> r.error.path in spine && r.error.path !in archive
  {
    if spine != [] {
      var l := LoadResource(parse, archive, spine[0], entrance);
      if l.Ok? {
        LoadAllReportsMissing(parse, archive, spine[1..], l.value.end + 1);
        assert forall q :: q in spine[1..] ==> q in spine;
      }
    }
  }

  lemma KeysSnoc(acc: seq<Resource>, x: Resource)
    ensures Keys(acc + [x]) == Keys(acc) + [x.path]
  {
  }

  /** No two resources share a path. */
  predicate DistinctPaths(rs: seq<Resource>) {
    forall i, j :: 0 <= i < j < |rs| ==> rs[i].path != rs[j].path
  }

  /** Assignment of new, distinct paths appends. */
  lemma {:induction false} AssignAllFresh(acc: seq<Resource>, loads: seq<Resource>)
    requires DistinctPaths(loads) && forall k :: 0 <= k < |loads| ==> loads[k].path !in Keys(acc)
    decreases |loads|
    ensures AssignAll(acc, loads) == acc + loads
  {
    if loads != [] {
      var x := loads[0];
      var acc' := acc + [x];
      var rest := loads[1..];
      assert AssignAll(acc, loads) == AssignAll(acc', rest) by {
        AssignShape(acc, x.path, x.root);
      }
      assert DistinctPaths(rest) by {
        forall i, j | 0 <= i < j < |rest| ensures rest[i].path != rest[j].path {
          assert rest[i] == loads[i + 1] && rest[j] == loads[j + 1];
        }
      }
      assert forall k :: 0 <= k < |rest| ==> rest[k].path !in Keys(acc') by {
        KeysSnoc(acc, x);
        forall k | 0 <= k < |rest| ensures rest[k].path !in Keys(acc') {
          assert rest[k] == loads[k + 1];
        }
      }
      AssignAllFresh(acc', rest);
      assert acc' + rest == acc + loads;
    }
  }


  /** Assignment keeps paths distinct, keeps every entry parsed, and leaves
      every assigned path present. */
  lemma {:induction false} AssignAllKeys(acc: seq<Resource>, loads: seq<Resource>)
    requires Distinct(Keys(acc)) && Loaded(acc) && Loaded(loads)
    decreases |loads|
    ensures Distinct(Keys(AssignAll(acc, loads))) && Loaded(AssignAll(acc, loads))
    ensures forall q :: q in Keys(acc) || q in Keys(loads) ==> q in Keys(AssignAll(acc, loads))
  {
    if loads != [] {
      var acc' := Assign(acc, loads[0].path, loads[0].root);
      AssignKeepsDistinct(acc, loads[0].path, loads[0].root);
      forall k | 0 <= k < |acc'| ensures ParsedRoot(acc'[k].root) {
        LoadedAssign(acc, loads[0].path, loads[0].root, k);
      }
      forall q | q in Keys(acc) || q in Keys(loads) ensures q in Keys(acc') || q in Keys(loads[1..]) {
        LookupAssign(acc, loads[0].path, loads[0].root, q);
        assert Keys(loads) == [loads[0].path] + Keys(loads[1..]);
      }
      AssignAllKeys(acc', loads[1..]);
    }
  }

  /** Every entry after an assignment is the assigned one or an old one. */
  lemma {:induction false} AssignEntry(rs: seq<Resource>, path: string, root: Node, k: nat)
    requires k < |Assign(rs, path, root)|
    ensures Assign(rs, path, root)[k] == Resource(path, root) || Assign(rs, path, root)[k] in rs
  {
    if rs != [] && rs[0].path != path && k > 0 {
      AssignEntry(rs[1..], path, root, k - 1);
    }
  }

  lemma LoadedAssign(rs: seq<Resource>, path: string, root: Node, k: nat)
    requires Loaded(rs) && ParsedRoot(root)
    requires k < |Assign(rs, path, root)|
    ensures ParsedRoot(Assign(rs, path, root)[k].root)
  {
    AssignEntry(rs, path, root, k);
  }

  /** `#getNodes`: every spine path has a parsed entry and no path has
      two. */
  lemma GetNodesEntries(archive: map<string, string>, spine: seq<string>)
    ensures var r := GetNodes(archive, spine);
      r.Ok? ==> Distinct(Keys(r.value)) && Loaded(r.value) && forall q :: q in spine ==> Lookup(r.value, q).Some?
  {
    ParseHtmlParsesBodies();
    var l := LoadAll(ParseHtml, archive, spine, 0);
    if l.Ok? {
      AssignAllKeys([], l.value);
    }
  }

  /** Assigning documents with distinct paths to an empty map in turn keeps
      them all, in order. */
  lemma AssignAllLoads(loads: seq<Resource>)
    requires Distinct(Keys(loads))
    ensures AssignAll([], loads) == loads
  {
    assert DistinctPaths(loads) by {
      forall i, j | 0 <= i < j < |loads| ensures loads[i].path != loads[j].path {
        assert loads[i].path == Keys(loads)[i] && loads[j].path == Keys(loads)[j];
      }
    }
    assert Keys([]) == [];
    AssignAllFresh([], loads);
    assert [] + loads == loads;
  }

  /** Loading a spine without repeats and assigning the results in turn
      gives the spine's documents in spine order, numbered contiguously from
      the entrance. */
  lemma LoadAllTiles(parse: Parser, archive: map<string, string>, spine: seq<string>)
    requires ParsesBodies(parse) && Distinct(spine)
    ensures var l := LoadAll(parse, archive, spine, 0);
      l.Ok? ==> Keys(AssignAll([], l.value)) == spine && Tiles(AssignAll([], l.value))
  {
    var l := LoadAll(parse, archive, spine, 0);
    if l.Ok? {
      assert Keys(l.value) == spine;
      AssignAllLoads(l.value);
    }
  }

  /** `#getNodes` on a spine without repeats: the entries are the spine's
      documents in spine order, numbered contiguously from 0. */
  lemma GetNodesTiles(archive: map<string, string>, spine: seq<string>)
    requires Distinct(spine)
    ensures var r := GetNodes(archive, spine);
      r.Ok? ==> Keys(r.value) == spine && Tiles(r.value)
  {
    ParseHtmlParsesBodies();
    LoadAllTiles(ParseHtml, archive, spine);
  }

  /** `#getNodes` on a spine without repeats gives a readable book, unless
      some document has a `text`-named element with children. */
  lemma GetNodesTiled(archive: map<string, string>, spine: seq<string>)
    requires Distinct(spine)
    ensures var r := GetNodes(archive, spine);
      r.Ok? && (forall k :: 0 <= k < |r.value| ==> TextChildless(r.value[k].root)) ==> Tiled(r.value)
  {
    GetNodesTiles(archive, spine);
    GetNodesEntries(archive, spine);
    var r := GetNodes(archive, spine);
    if r.Ok? && (forall k :: 0 <= k < |r.value| ==> TextChildless(r.value[k].root)) {
      forall k | 0 <= k < |r.value|
        ensures Navigable(r.value[k].root)
      {
        SettledFromShape(r.value[k].root);
      }
    }
  }

  /** `#getNodes` fails when a spine file is missing from the archive, and
      a reported missing file is one of the spine's. */
  lemma GetNodesMissing(archive: map<string, string>, spine: seq<string>)
    ensures (exists q :: q in spine && q !in archive) ==> GetNodes(archive, spine).Err?
    ensures var r := GetNodes(archive, spine);
      r.Err? && r.error.MissingFile? ==> r.error.path in spine && r.error.path !in archive
  {
    LoadAllReportsMissing(ParseHtml, archive, spine, 0);
    if q :| q in spine && q !in archive {
      LoadAllMissing(ParseHtml, archive, spine, 0, q);
    }
  }

  // ---------------------------------------------------------------------------
  // getSize

  /** `getSize()`: the sum of the lengths of the roots. */
  function Size(rs: seq<Resource>): int {
    if rs == [] then 0 else Length(rs[0].root) + Size(rs[1..])
  }

  /** The lengths of tiled roots add up to one past the last end. */
  lemma {:induction false} SizeTelescopes(rs: seq<Resource>)
    requires Tiles(rs)
    ensures Size(rs) == if rs == [] then 0 else rs[|rs| - 1].root.end + 1
  {
    if |rs| > 1 {
      var t := rs[1..];
      assert Tiles(t[0 := t[0].(root := t[0].root.(start := 0))]) by {
        var t' := t[0 := t[0].(root := t[0].root.(start := 0))];
        forall k | 0 <= k < |t'| - 1 ensures t'[k + 1].root.start == t'[k].root.end + 1 {
          assert rs[k + 2].root.start == rs[k + 1].root.end + 1;
        }
      }
      SizeShift(t);
    }
  }

  /** The telescoping sum from any start. */
  lemma {:induction false} SizeShift(rs: seq<Resource>)
    requires |rs| > 0 && forall k :: 0 <= k < |rs| - 1 ==> rs[k + 1].root.start == rs[k].root.end + 1
    ensures Size(rs) == rs[|rs| - 1].root.end - rs[0].root.start + 1
  {
    if |rs| > 1 {
      SizeShift(rs[1..]);
    }
  }

  // ---------------------------------------------------------------------------
  // Locating the document at a position

  /** The first entry whose root covers `p`. */
  function FirstContaining(rs: seq<Resource>, p: int): (r: Option<nat>)
    ensures r.Some? ==> r.value < |rs| && Covers(rs[r.value].root, p)
    ensures r.Some? ==> forall j :: 0 <= j < r.value ==> !Covers(rs[j].root, p)
    ensures r.None? ==> forall k :: 0 <= k < |rs| ==> !Covers(rs[k].root, p)
  {
    if rs == [] then None
    else if Covers(rs[0].root, p) then Some(0)
    else match FirstContaining(rs[1..], p)
      case None => None
      case Some(k) => Some(k + 1)
  }

  /** The roots of a readable book: tiled and navigable. */
  ghost predicate Tiled(rs: seq<Resource>) {
    Tiles(rs) && forall k :: 0 <= k < |rs| ==> Navigable(rs[k].root)
  }

  lemma {:induction false} ChainCovers(ns: seq<Node>, p: int)
    requires |ns| > 0 && Chained(ns) && forall i :: 0 <= i < |ns| ==> Navigable(ns[i])
    requires ns[0].start <= p <= ns[|ns| - 1].end
    ensures exists k :: 0 <= k < |ns| && Covers(ns[k], p)
  {
    if p > ns[0].end {
      ChainTail(ns);
      ChainCovers(ns[1..], p);
      var k :| 0 <= k < |ns| - 1 && Covers(ns[1..][k], p);
      assert Covers(ns[k + 1], p);
    }
  }

  /** In a tiled book every position below the size lies in exactly one
      document. */
  lemma TiledLocate(rs: seq<Resource>, p: int)
    requires Tiled(rs) && 0 <= p < Size(rs)
    ensures FirstContaining(rs, p).Some?
    ensures forall k :: 0 <= k < |rs| && Covers(rs[k].root, p) ==> k == FirstContaining(rs, p).value
  {
    SizeTelescopes(rs);
    var ns := Roots(rs);
    ChainBounds(ns);
    ChainCovers(ns, p);
  }

  // ---------------------------------------------------------------------------
  // getContentsAt

  /** `getContentsAt(start, end)`: the serialisation of the copy of
      `[start, end]` taken from the document holding `start`, cut at that
      document's end; `None` (`null`) for a range outside `[0, size)`. */
  function ContentsAt(rs: seq<Resource>, start: int, end: int): Result<Option<string>, ReaderError>
    requires forall k :: 0 <= k < |rs| ==> Named(rs[k].root)
  {
    var size := Size(rs);
    if start < 0 || end < 0 || start > end || start >= size || end >= size then Ok(None)
    else match FirstContaining(rs, start)
      case None => Ok(None)
      case Some(k) =>
        var n := rs[k].root;
        var actualEnd := if end > n.end then n.end else end;
        match Copy(n, start, actualEnd)
        case None => Err(NullReference)
        case Some(c) =>
          match Content(c)
          case None => Err(NullReference)
          case Some(s) => Ok(Some(s))
  }

  lemma NavigableRootsAreNamed(rs: seq<Resource>)
    requires Tiled(rs)
    ensures forall k :: 0 <= k < |rs| ==> Named(rs[k].root)
  {
    forall k | 0 <= k < |rs| ensures Named(rs[k].root) {
      SettledIsNamed(rs[k].root);
    }
  }

  /** On a tiled book `getContentsAt` never fails, is `null` exactly when the
      range is out of bounds, and otherwise serialises a navigable copy that
      runs from `start` to `end` or to the end of the document holding
      `start`, whichever comes first: a range never spans two documents. */
  lemma ContentsAtSpec(rs: seq<Resource>, start: int, end: int)
    requires Tiled(rs)
    ensures forall k :: 0 <= k < |rs| ==> Named(rs[k].root)
    ensures ContentsAt(rs, start, end).Ok?
    ensures ContentsAt(rs, start, end).value.None? <==> start < 0 || start > end || end >= Size(rs)
    ensures ContentsAt(rs, start, end).value.Some? ==>
      var k := FirstContaining(rs, start).value;
      var n := rs[k].root;
      var c := Copy(n, start, Min(end, n.end));
      && Covers(n, start)
      && c.Some? && Navigable(c.value) && c.value.start == start && c.value.end == Min(end, n.end)
      && ContentsAt(rs, start, end).value.value == Content(c.value).value
  {
    NavigableRootsAreNamed(rs);
    if 0 <= start <= end < Size(rs) {
      ContentsAtFound(rs, start, end);
    }
  }

  /** The in-range case of `ContentsAtSpec`. */
  lemma ContentsAtFound(rs: seq<Resource>, start: int, end: int)
    requires Tiled(rs) && 0 <= start <= end < Size(rs)
    ensures forall k :: 0 <= k < |rs| ==> Named(rs[k].root)
    ensures FirstContaining(rs, start).Some? && Covers(rs[FirstContaining(rs, start).value].root, start)
    ensures
      var n := rs[FirstContaining(rs, start).value].root;
      var c := Copy(n, start, Min(end, n.end));
      && c.Some? && Navigable(c.value) && c.value.start == start && c.value.end == Min(end, n.end)
      && Content(c.value).Some?
      && ContentsAt(rs, start, end) == Ok(Some(Content(c.value).value))
  {
    NavigableRootsAreNamed(rs);
    TiledLocate(rs, start);
    var k := FirstContaining(rs, start).value;
    var n := rs[k].root;
    var e := Min(end, n.end);
    CopyRange(n, start, e);
    var c := Copy(n, start, e).value;
    assert Content(c).Some? by {
      SettledIsNamed(c);
      NamedHasContent(c);
    }
    assert ContentsAt(rs, start, end) == Ok(Some(Content(c).value)) by {
      assert (if end > n.end then n.end else end) == e;
    }
  }


  /** Each document of a tiled book lies inside `[0, size)` and is the one
      found for its own start. */
  lemma RootPlaced(rs: seq<Resource>, k: nat)
    requires Tiled(rs) && k < |rs|
    ensures 0 <= rs[k].root.start <= rs[k].root.end < Size(rs)
    ensures FirstContaining(rs, rs[k].root.start) == Some(k)
  {
    SizeTelescopes(rs);
    ChainBounds(Roots(rs));
    NavigableSpan(rs[k].root);
    TiledLocate(rs, rs[k].root.start);
  }

  /** A whole document reads back as its own serialisation. */
  lemma ContentsOfWholeDocument(rs: seq<Resource>, k: nat)
    requires Tiled(rs) && k < |rs|
    ensures forall i :: 0 <= i < |rs| ==> Named(rs[i].root)
    ensures Content(rs[k].root).Some?
    ensures ContentsAt(rs, rs[k].root.start, rs[k].root.end) == Ok(Content(rs[k].root))
  {
    NavigableRootsAreNamed(rs);
    var n := rs[k].root;
    RootPlaced(rs, k);
    CopyWhole(n, n.start, n.end);
    NamedHasContent(n);
  }

  // ---------------------------------------------------------------------------
  // findSpaceAfter

  /** `findSpaceAfter(position)` of the wrapper: the answer of the document
      holding the position, `None` (`null`) outside `[0, size)`. */
  function FindSpaceAfterIn(rs: seq<Resource>, p: int): Option<int> {
    if p < 0 || p >= Size(rs) then None
    else match FirstContaining(rs, p)
      case None => None
      case Some(k) => Some(FindSpaceAfter(rs[k].root, p))
  }

  /** On a tiled book the answer exists exactly inside `[0, size)`, stays in
      the document of `p`, moves past `p` unless `p` ends that document, skips
      no white space and no leaf end, and lands on white space or the end of
      a leaf. */
  lemma FindSpaceAfterInSpec(rs: seq<Resource>, p: int)
    requires Tiled(rs)
    ensures FindSpaceAfterIn(rs, p).Some? <==> 0 <= p < Size(rs)
    ensures FindSpaceAfterIn(rs, p).Some? ==>
      var r := FindSpaceAfterIn(rs, p).value;
      var n := rs[FirstContaining(rs, p).value].root;
      && p <= r <= n.end < Size(rs)
      && (r == p <==> p == n.end)
      && (forall q :: p < q < r ==> !SpaceAt(n, q) && !LeafEndAt(n, q))
      && (SpaceAt(n, r) || LeafEndAt(n, r))
  {
    if 0 <= p < Size(rs) {
      TiledLocate(rs, p);
      SizeTelescopes(rs);
      ChainBounds(Roots(rs));
      FindSpaceAfterSpec(rs[FirstContaining(rs, p).value].root, p);
    }
  }

  // ---------------------------------------------------------------------------
  // getPositionForLink

  /** `getPositionForLink(link, contextFile)` as written: the part before `#`
      is taken relative to the context file's folder even when it is empty,
      and a link without `#` looks its id up under the context file's path
      joined to its own folder a second time. */
  function PositionForLinkAsWritten(rs: seq<Resource>, contextFile: string, link: Option<string>)
    : (r: Result<Option<int>, ReaderError>)
    ensures link.None? ==> r == Ok(None)
  {
    if link.None? then Ok(None)
    else
      var parts := Split(link.value, '#');
      var file := if |parts| == 2 then parts[0] else contextFile;
      var id := if |parts| == 2 then parts[1] else parts[0];
      match Lookup(rs, AbsolutePath(ContextFolder(contextFile), file))
      case None => Err(NullReference)
      case Some(n) => Ok(IdPosition(n, id))
  }

  /** The document a link points into: the named file relative to the
      context file's folder, or the context file itself when the link names
      no file. */
  function LinkTarget(contextFile: string, link: string): (r: (string, string))
    ensures var parts := Split(link, '#');
      (|parts| != 2 || parts[0] == []) ==> r.0 == contextFile
  {
    var parts := Split(link, '#');
    var id := if |parts| == 2 then parts[1] else parts[0];
    if |parts| == 2 && parts[0] != [] then (AbsolutePath(ContextFolder(contextFile), parts[0]), id)
    else (contextFile, id)
  }

  /** `getPositionForLink` with same-document links resolved in the context
      file: the position of the first node with the link's id, `None` for a
      `null` link or an id that is not there. */
  function PositionForLink(rs: seq<Resource>, contextFile: string, link: Option<string>)
    : (r: Result<Option<int>, ReaderError>)
    ensures link.None? ==> r == Ok(None)
    ensures link.Some? ==> (r.Err? <==> Lookup(rs, LinkTarget(contextFile, link.value).0).None?)
  {
    if link.None? then Ok(None)
    else
      var (file, id) := LinkTarget(contextFile, link.value);
      match Lookup(rs, file)
      case None => Err(NullReference)
      case Some(n) => Ok(IdPosition(n, id))
  }

  lemma {:induction false} SplitPair(a: string, b: string, sep: char)
    requires sep !in a && sep !in b
    ensures Split(a + [sep] + b, sep) == [a, b]
  {
    var s := a + [sep] + b;
    assert s[|a|] == sep;
    assert IndexOfFrom(s, sep, 0) == Some(|a|);
    assert s[..|a|] == a && s[|a| + 1..] == b;
    assert IndexOfFrom(b, sep, 0) == None;
  }

  /** A link `file#id` to a document in the context file's folder reaches
      that document, and the position is the first node carrying `id` in
      document order. */
  lemma LinkToSibling(rs: seq<Resource>, contextFile: string, target: string, id: string)
    requires target == [] || target[0] != '/'
    requires ContextFolder(target) == ContextFolder(contextFile)
    requires LastSegment(target) != [] && '#' !in LastSegment(target) && '#' !in id
    requires Lookup(rs, target).Some?
    ensures PositionForLink(rs, contextFile, Some(LastSegment(target) + "#" + id))
      == Ok(FirstWithId(PreOrder(Lookup(rs, target).value), id))
    ensures PositionForLinkAsWritten(rs, contextFile, Some(LastSegment(target) + "#" + id))
      == PositionForLink(rs, contextFile, Some(LastSegment(target) + "#" + id))
  {
    SplitPair(LastSegment(target), id, '#');
    FolderRoundTrip(target);
    IdPositionIsFirstInDocumentOrder(Lookup(rs, target).value, id);
  }

  /** A same-document link `#id` or a bare `id` finds its node in the context
      file. */
  lemma LinkWithinDocument(rs: seq<Resource>, contextFile: string, id: string)
    requires '#' !in id && Lookup(rs, contextFile).Some?
    ensures PositionForLink(rs, contextFile, Some("#" + id)) == Ok(IdPosition(Lookup(rs, contextFile).value, id))
    ensures PositionForLink(rs, contextFile, Some(id)) == Ok(IdPosition(Lookup(rs, contextFile).value, id))
  {
    SplitPair([], id, '#');
    assert [] + ['#'] + id == "#" + id;
    assert IndexOfFrom(id, '#', 0) == None;
  }

  /** As written, a same-document link in a book whose documents sit in a
      folder looks for the folder itself and dereferences `undefined`. */
  lemma AnchorLinkAsWrittenFails(n: Node)
    ensures var rs := [Resource("OEBPS/c.xhtml", n)];
      && PositionForLinkAsWritten(rs, "OEBPS/c.xhtml", Some("#x")) == Err(NullReference)
      && PositionForLink(rs, "OEBPS/c.xhtml", Some("#x")) == Ok(IdPosition(n, "x"))
  {
    var ctx := "OEBPS/c.xhtml";
    ContextOfExample();
    SplitPair([], "x", '#');
    assert [] + ['#'] + "x" == "#x";
    assert AbsolutePath("OEBPS", []) == "OEBPS/";
    assert "OEBPS/" != ctx;
    LinkWithinDocument([Resource(ctx, n)], ctx, "x");
  }

  /** As written, a link without `#` doubles the folder. */
  lemma BareLinkAsWrittenFails(n: Node)
    ensures var rs := [Resource("OEBPS/c.xhtml", n)];
      && PositionForLinkAsWritten(rs, "OEBPS/c.xhtml", Some("x")) == Err(NullReference)
      && PositionForLink(rs, "OEBPS/c.xhtml", Some("x")) == Ok(IdPosition(n, "x"))
  {
    var ctx := "OEBPS/c.xhtml";
    ContextOfExample();
    assert IndexOfFrom("x", '#', 0) == None;
    assert Split("x", '#') == ["x"];
    var key := AbsolutePath("OEBPS", ctx);
    assert |key| == 19;
    assert key != ctx;
    LinkWithinDocument([Resource(ctx, n)], ctx, "x");
  }

  lemma ContextOfExample()
    ensures ContextFolder("OEBPS/c.xhtml") == "OEBPS"
  {
    var ctx := "OEBPS/c.xhtml";
    assert ctx[5] == '/' && forall k :: 0 <= k < 5 ==> ctx[k] != '/';
    assert IndexOfFrom(ctx, '/', 0) == Some(5);
    assert ctx[..5] == "OEBPS" && ctx[6..] == "c.xhtml";
    assert '/' !in "c.xhtml";
    assert IndexOfFrom("c.xhtml", '/', 0) == None;
    assert Split(ctx, '/') == ["OEBPS", "c.xhtml"];
  }
}

=== FILE: tags.dfy ===
/** The tag-level regular expressions and name lists shared by the two markup
    tokenizers (static/libs/bookNode.js and xml_parser/xml_parser.js). Each
    predicate states the regular expression it stands for. */
module Tags {
  import opened Wrappers
  import opened Text

  /** Element names that never take children in the book tokenizer. */
  const BookVoidNames: seq<string> := ["area", "base", "br", "col", "hr", "img", "input", "link", "meta",
                                       "param", "keygen", "source", "image", "svg:image", "?dp", "?pagebreak"]

  /** The XML tokenizer's list: the book list plus the `?xml` declaration. */
  const XmlVoidNames: seq<string> := BookVoidNames + ["?xml"]

  /** Element names folded into one indivisible leaf after parsing. */
  const LeafNames: seq<string> := ["img", "tr", "image"]

  predicate IsLeafName(name: string) {
    ToLower(name) in LeafNames
  }

  /** `/^<\/?[^>]+>$/`: a `<`, at least one character other than `>`, and a
      closing `>` (the optional slash is itself a character other than `>`). */
  predicate IsTag(s: string) {
    && |s| >= 3 && s[0] == '<' && s[|s| - 1] == '>'
    && forall k :: 0 < k < |s| - 1 ==> s[k] != '>'
  }

  /** `/^<\/[^>]+>$/`. */
  predicate IsEndTag(s: string) {
    && |s| >= 4 && s[0] == '<' && s[1] == '/' && s[|s| - 1] == '>'
    && forall k :: 1 < k < |s| - 1 ==> s[k] != '>'
  }

  /** `/^<[^>\/]+\/>$/`, the book tokenizer's self-closing test: no slash
      before the final `/>`. */
  predicate IsStrictSelfClosing(s: string) {
    && |s| >= 4 && s[0] == '<' && s[|s| - 2] == '/' && s[|s| - 1] == '>'
    && forall k :: 0 < k < |s| - 2 ==> s[k] != '>' && s[k] != '/'
  }

  /** `/^<[^>]+\/>$/`, the XML tokenizer's self-closing test: slashes may occur
      anywhere before the final `/>`. */
  predicate IsLooseSelfClosing(s: string) {
    && |s| >= 4 && s[0] == '<' && s[|s| - 2] == '/' && s[|s| - 1] == '>'
    && forall k :: 0 < k < |s| - 2 ==> s[k] != '>'
  }

  /** A character of `[^>\s]`. */
  predicate IsNameChar(c: char) {
    c != '>' && !IsSpace(c)
  }

  /** The longest run of name characters starting at `i`. */
  function NameRun(s: string, i: nat): (r: string)
    requires i <= |s|
    decreases |s| - i
    ensures |r| <= |s| - i && r == s[i..i + |r|]
    ensures forall k :: 0 <= k < |r| ==> IsNameChar(r[k])
    ensures i + |r| < |s| ==> !IsNameChar(s[i + |r|])
  {
    if i == |s| || !IsNameChar(s[i]) then [] else [s[i]] + NameRun(s, i + 1)
  }

  /** What `/<\/?([^>\s]+)/` captures when its match starts at the `<` at
      index `i`: with the slash when a name character follows it, otherwise
      from the character after `<` (which may be the slash itself). */
  function NameAt(s: string, i: nat): (r: Option<string>)
    requires i < |s| && s[i] == '<'
    ensures r.Some? ==> |r.value| > 0 && forall k :: 0 <= k < |r.value| ==> IsNameChar(r.value[k])
  {
    if i + 2 < |s| && s[i + 1] == '/' && IsNameChar(s[i + 2]) then Some(NameRun(s, i + 2))
    else if i + 1 < |s| && IsNameChar(s[i + 1]) then Some(NameRun(s, i + 1))
    else None
  }

  /** `#getTagName`: the capture of the leftmost match of `/<\/?([^>\s]+)/`, or
      `None` (JavaScript `null`) when nothing matches. Note that the trailing
      slash of `<br/>` is a name character, so that tag is named `br/`. */
  function TagNameFrom(s: string, from: nat): (r: Option<string>)
    decreases |s| - from
    ensures r.Some? ==> |r.value| > 0 && forall k :: 0 <= k < |r.value| ==> IsNameChar(r.value[k])
  {
    if from >= |s| then None
    else if s[from] == '<' && NameAt(s, from).Some? then NameAt(s, from)
    else TagNameFrom(s, from + 1)
  }

  function GetTagName(s: string): (r: Option<string>)
    ensures r.Some? ==> |r.value| > 0 && forall k :: 0 <= k < |r.value| ==> IsNameChar(r.value[k])
    ensures |s| > 0 && s[0] == '<' && NameAt(s, 0).Some? ==> r == NameAt(s, 0)
  {
    TagNameFrom(s, 0)
  }

  /** Every end tag has a name: after `</` either a name character follows, or
      the slash itself is captured. */
  lemma EndTagHasName(s: string)
    requires IsEndTag(s)
    ensures GetTagName(s).Some?
  {
    assert NameAt(s, 0).Some?;
  }

  /** The tag name of `<br/>` keeps its slash. */
  lemma SelfClosingBreakName()
    ensures GetTagName("<br/>") == Some("br/")
  {
    var s := "<br/>";
    assert NameRun(s, 5) == [];
    assert NameRun(s, 4) == [];
    assert NameRun(s, 3) == "/";
    assert NameRun(s, 2) == "r/";
    assert NameRun(s, 1) == "br/";
    assert NameAt(s, 0) == Some("br/");
  }

  /** Every tag the strict test accepts, the loose test accepts, but not
      conversely: a slash inside an attribute value defeats the strict test. */
  lemma SelfClosingTests(s: string)
    ensures IsStrictSelfClosing(s) ==> IsLooseSelfClosing(s)
    ensures IsLooseSelfClosing("<a b=\"c/d\"/>") && !IsStrictSelfClosing("<a b=\"c/d\"/>")
  {
    var t := "<a b=\"c/d\"/>";
    assert t[7] == '/';
  }
}

=== FILE: text.dfy ===
/** String primitives with the semantics of the JavaScript built-ins the reader
    relies on: the `\s` character class, `substring`, `split`/`join` on one
    character, `lastIndexOf`, and the scan behind `match`/`matchAll` for the
    patterns of the form `key"([^"]+)"`. */
module Text {
  import opened Wrappers

  /** The JavaScript `\s` class: ASCII white space, the Unicode space separators,
      the line and paragraph separators and the byte-order mark. */
  predicate IsSpace(c: char) {
    || c == ' ' || c == '\t' || c == '\n' || c == '\U{B}' || c == '\U{C}' || c == '\r'
    || c == '\U{A0}' || c == '\U{1680}' || ('\U{2000}' <= c <= '\U{200A}')
    || c == '\U{2028}' || c == '\U{2029}' || c == '\U{202F}' || c == '\U{205F}'
    || c == '\U{3000}' || c == '\U{FEFF}'
  }

  /** Lower-casing of one character (ASCII letters only). */
  function LowerChar(c: char): (r: char)
    ensures 'A' <= c <= 'Z' ==> 'a' <= r <= 'z'
    ensures !('A' <= c <= 'Z') ==> r == c
  {
    if 'A' <= c <= 'Z' then (c as int + 32) as char else c
  }

  function ToLower(s: string): (r: string)
    ensures |r| == |s|
    ensures forall i :: 0 <= i < |s| ==> r[i] == LowerChar(s[i])
  {
    if s == [] then [] else [LowerChar(s[0])] + ToLower(s[1..])
  }

  predicate StartsWith(s: string, prefix: string) {
    |prefix| <= |s| && s[..|prefix|] == prefix
  }

  function Clamp(i: int, n: nat): (r: nat)
    ensures r <= n
    ensures 0 <= i <= n ==> r == i
  {
    if i < 0 then 0 else if i > n then n else i
  }

  /** `s.substring(a, b)`: both indices are clamped into `[0, |s|]` and swapped
      when the first exceeds the second. */
  function Substring(s: string, a: int, b: int): (r: string)
    ensures 0 <= a <= b <= |s| ==> r == s[a..b]
    ensures 0 <= b <= a <= |s| ==> r == s[b..a]
  {
    var x := Clamp(a, |s|);
    var y := Clamp(b, |s|);
    if x <= y then s[x..y] else s[y..x]
  }

  /** `s.substring(a)`. */
  function SubstringFrom(s: string, a: int): (r: string)
    ensures 0 <= a <= |s| ==> r == s[a..]
    ensures a < 0 ==> r == s
    ensures a > |s| ==> r == []
  {
    Substring(s, a, |s|)
  }

  /** `s.lastIndexOf(c)`, -1 when `c` does not occur. */
  function LastIndexOf(s: string, c: char): (r: int)
    ensures -1 <= r < |s|
    ensures r >= 0 ==> s[r] == c
    ensures forall k :: r < k < |s| ==> s[k] != c
  {
    if s == [] then -1
    else if s[|s| - 1] == c then |s| - 1
    else LastIndexOf(s[..|s| - 1], c)
  }

  /** The index of the first occurrence of `c` in `s` at or after `from`. */
  function IndexOfFrom(s: string, c: char, from: nat): (r: Option<nat>)
    decreases |s| - from
    ensures r.Some? ==> from <= r.value < |s| && s[r.value] == c
    ensures r.Some? ==> forall k :: from <= k < r.value ==> s[k] != c
    ensures r.None? ==> forall k :: from <= k < |s| ==> s[k] != c
  {
    if from >= |s| then None
    else if s[from] == c then Some(from)
    else IndexOfFrom(s, c, from + 1)
  }

  /** The index of the first white-space character of `s` at or after `from`. */
  function FirstSpaceFrom(s: string, from: nat): (r: Option<nat>)
    decreases |s| - from
    ensures r.Some? ==> from <= r.value < |s| && IsSpace(s[r.value])
    ensures r.Some? ==> forall k :: from <= k < r.value ==> !IsSpace(s[k])
    ensures r.None? ==> forall k :: from <= k < |s| ==> !IsSpace(s[k])
  {
    if from >= |s| then None
    else if IsSpace(s[from]) then Some(from)
    else FirstSpaceFrom(s, from + 1)
  }

  /** The index of the last white-space character of `s`: where `/\s[^\s]*$/`
      matches. */
  function LastSpace(s: string): (r: Option<nat>)
    ensures r.Some? ==> r.value < |s| && IsSpace(s[r.value])
    ensures r.Some? ==> forall k :: r.value < k < |s| ==> !IsSpace(s[k])
    ensures r.None? ==> forall k :: 0 <= k < |s| ==> !IsSpace(s[k])
  {
    if s == [] then None
    else if IsSpace(s[|s| - 1]) then Some(|s| - 1)
    else LastSpace(s[..|s| - 1])
  }

  // ---------------------------------------------------------------------------
  // split and join on one separator character

  /** `s.split(sep)` for a one-character separator. */
  function Split(s: string, sep: char): (parts: seq<string>)
    decreases |s|
    ensures |parts| >= 1
    ensures forall i, k :: 0 <= i < |parts| && 0 <= k < |parts[i]| ==> parts[i][k] != sep
  {
    match IndexOfFrom(s, sep, 0)
    case None => [s]
    case Some(k) => [s[..k]] + Split(s[k + 1..], sep)
  }

  /** `parts.join(sep)`. */
  function Join(parts: seq<string>, sep: char): string
  {
    if parts == [] then []
    else if |parts| == 1 then parts[0]
    else parts[0] + [sep] + Join(parts[1..], sep)
  }

  lemma {:induction false} JoinSplit(s: string, sep: char)
    decreases |s|
    ensures Join(Split(s, sep), sep) == s
  {
    match IndexOfFrom(s, sep, 0)
    case None =>
    case Some(k) =>
      JoinSplit(s[k + 1..], sep);
      assert s == s[..k] + [sep] + s[k + 1..];
  }

  lemma {:induction false} JoinSnoc(parts: seq<string>, last: string, sep: char)
    requires |parts| >= 1
    ensures Join(parts + [last], sep) == Join(parts, sep) + [sep] + last
  {
    if |parts| == 1 {
      assert (parts + [last])[1..] == [last];
    } else {
      assert (parts + [last])[1..] == parts[1..] + [last];
      JoinSnoc(parts[1..], last, sep);
    }
  }

  /** A join of two or more parts contains the separator. */
  lemma {:induction false} JoinHasSeparator(parts: seq<string>, sep: char)
    requires |parts| >= 2
    ensures sep in Join(parts, sep)
  {
    var j := Join(parts, sep);
    assert j == parts[0] + [sep] + Join(parts[1..], sep);
    assert j[|parts[0]|] == sep;
  }

  // ---------------------------------------------------------------------------
  // captures of the pattern key + `([^"]+)"`

  predicate IsInfixAt(part: string, s: string, i: nat) {
    i + |part| <= |s| && s[i..i + |part|] == part
  }

  ghost predicate IsInfix(part: string, s: string) {
    exists i: nat :: IsInfixAt(part, s, i)
  }

  /** When `key([^"]+)"` matches at `i`, the index of its closing quote. */
  function MatchEnd(s: string, i: nat, key: string): (r: Option<nat>)
    ensures r.Some? ==> i + |key| < r.value < |s| && s[r.value] == '"'
    ensures r.Some? ==> IsInfixAt(key, s, i)
    ensures r.Some? ==> forall k :: i + |key| <= k < r.value ==> s[k] != '"'
  {
    if !IsInfixAt(key, s, i) then None
    else match IndexOfFrom(s, '"', i + |key|)
      case None => None
      case Some(j) => if j == i + |key| then None else Some(j)
  }

  /** The leftmost match of `key([^"]+)"` at or after `from`, as the pair
      (start of the match, index of its closing quote). */
  function NextMatch(s: string, key: string, from: nat): (r: Option<(nat, nat)>)
    decreases |s| - from
    ensures r.Some? ==> from <= r.value.0 && MatchEnd(s, r.value.0, key) == Some(r.value.1)
    ensures r.Some? ==> forall k :: from <= k < r.value.0 ==> MatchEnd(s, k, key).None?
    ensures r.None? ==> forall k :: from <= k ==> MatchEnd(s, k, key).None?
  {
    if from >= |s| then
      assert forall k :: from <= k ==> MatchEnd(s, k, key).None?;
      None
    else match MatchEnd(s, from, key)
      case Some(j) => Some((from, j))
      case None => NextMatch(s, key, from + 1)
  }

  /** The search for a match passes over a stretch where none starts. */
  lemma {:induction false} NextMatchSkips(s: string, key: string, from: nat, to: nat)
    requires from <= to < |s|
    requires forall k: nat :: from <= k < to ==> MatchEnd(s, k, key).None?
    ensures NextMatch(s, key, from) == NextMatch(s, key, to)
    decreases (to as int) - (from as int)
  {
    if from < to {
      NextMatchSkips(s, key, from + 1, to);
    }
  }

  /** The group captured by the first match of `key([^"]+)"` (`String.match`). */
  function FirstCapture(s: string, key: string): (r: Option<string>)
    ensures r.Some? ==> |r.value| > 0 && '"' !in r.value
    ensures r.Some? ==> IsInfix(key + r.value + "\"", s)
  {
    match NextMatch(s, key, 0)
    case None => None
    case Some((i, j)) =>
      var v := s[i + |key|..j];
      assert s[i..j + 1] == key + v + "\"";
      assert IsInfixAt(key + v + "\"", s, i);
      Some(v)
  }

  /** Every group captured by `key([^"]+)"` with the global flag (`matchAll`),
      left to right, each match starting after the previous one ended. */
  function Captures(s: string, key: string, from: nat): (r: seq<string>)
    decreases |s| - from
    ensures forall k :: 0 <= k < |r| ==> |r[k]| > 0 && '"' !in r[k]
    ensures forall k :: 0 <= k < |r| ==> IsInfix(key + r[k] + "\"", s)
    ensures NextMatch(s, key, from).None? <==> r == []
  {
    match NextMatch(s, key, from)
    case None => []
    case Some((i, j)) =>
      MatchEndCapture(s, i, key, j);
      [s[i + |key|..j]] + Captures(s, key, j + 1)
  }

  /** The global search starts with the group the first match captures. */
  lemma CapturesStartWithFirst(s: string, key: string)
    ensures FirstCapture(s, key).Some? <==> Captures(s, key, 0) != []
    ensures FirstCapture(s, key).Some? ==> Captures(s, key, 0)[0] == FirstCapture(s, key).value
  {
  }

  /** A match is the key, a non-empty value without `"`, and the closing `"`. */
  lemma MatchEndCapture(s: string, i: nat, key: string, j: nat)
    requires MatchEnd(s, i, key) == Some(j)
    ensures i + |key| < j < |s|
    ensures var v := s[i + |key|..j];
      |v| > 0 && '"' !in v && IsInfixAt(key + v + "\"", s, i)
  {
    var v := s[i + |key|..j];
    assert s[i..j + 1] == key + v + "\"" by {
      assert s[i..j + 1] == s[i..i + |key|] + v + s[j..j + 1];
    }
  }
}

=== FILE: wrappers.dfy ===
/** Failure-compatible wrappers used throughout the model: `Option` stands for a
    JavaScript value that may be `null`, `Result` for a computation that may throw. */
module Wrappers {

  datatype Option<+T> = None | Some(value: T) {
    predicate IsFailure() {
      None?
    }

    function PropagateFailure<U>(): Option<U>
      requires None?
    {
      None
    }

    function Extract(): T
      requires Some?
    {
      value
    }
  }

  datatype Result<+T, +E> = Ok(value: T) | Err(error: E) {
    predicate IsFailure() {
      Err?
    }

    function PropagateFailure<U>(): Result<U, E>
      requires Err?
    {
      Err(error)
    }

    function Extract(): T
      requires Ok?
    {
      value
    }
  }
}

=== FILE: xml_node.dfy ===
/** `XmlNode` (xml_parser/xml_parser.js): the tree the XML tokenizer returns,
    rooted at a `document` node. Its nodes carry only a tag, the raw content and
    the children; the parent pointers of the source are not needed. */
module XmlParser {
  import opened Wrappers
  import opened Text
  import opened Tags
  import opened Scanner

  datatype XmlNode = XmlNode(tag: string, content: string, children: seq<XmlNode>)

  function FromElem(e: Elem): (n: XmlNode)
    decreases e, 1
    ensures n.tag == e.name && n.content == e.Content() && |n.children| == |e.children|
  {
    XmlNode(e.name, e.Content(), FromElems(e.children))
  }

  function FromElems(es: seq<Elem>): (ns: seq<XmlNode>)
    decreases es, 0
    ensures |ns| == |es|
    ensures forall i :: 0 <= i < |es| ==> ns[i] == FromElem(es[i])
  {
    if es == [] then [] else [FromElem(es[0])] + FromElems(es[1..])
  }

  /** `XmlNode.parse(text)`. */
  function Parse(text: string): (r: Result<XmlNode, ParseError>)
    ensures r.Ok? ==> r.value.tag == "document" && r.value.content == ""
  {
    var e :- Scanner.Parse(Xml, text);
    ParseRoot(Xml, text);
    Ok(FromElem(e))
  }

  /** Comments (names starting with `!--`) and the `?xml` declaration, in any
      letter case, are void: they become children without changing the current
      node. The book tokenizer treats neither as void. */
  lemma CommentsAndDeclarationsAreVoid(name: string)
    ensures StartsWith(name, "!--") ==> IsVoid(Xml, name)
    ensures ToLower(name) == "?xml" ==> IsVoid(Xml, name) && !IsVoid(Book, name)
    ensures IsVoid(Book, name) ==> IsVoid(Xml, name)
  {
    if ToLower(name) == "?xml" {
      assert XmlVoidNames[|XmlVoidNames| - 1] == "?xml";
      assert forall k :: 0 <= k < |BookVoidNames| ==> BookVoidNames[k] != "?xml";
    }
    if ToLower(name) in BookVoidNames {
      var k :| 0 <= k < |BookVoidNames| && BookVoidNames[k] == ToLower(name);
      assert XmlVoidNames[k] == ToLower(name);
    }
  }
}
